=== FILE: README.md ===
# Crime-reporting app: a Dafny model of its decision logic

The system is a crime-reporting web application. Its back end is an
Express/Mongoose server with a `Report` model (crime type, title, location,
urgency, status, GeoJSON coordinates), `Comment` and `Notification` models,
an authentication controller (register/login with bcrypt and JWT), Bearer-token
and admin-role middlewares, a statistics controller that aggregates reports
by category, status, month, zone and week, and an admin controller that
lists, edits and deletes users and reports. Its Next.js front end has a
report form, a follow-up view of the user's own reports, a map, admin pages
for complaints, messages and CSV reports, a welcome page with feedback
stars, login/registration forms and a small session service over
`localStorage`.

This project models all of that as pure functions over immutable records:

* the store is a `Db` of four sequences in insertion order (`Store`), and
  every controller is a state transition returning an HTTP status and the
  new store;
* each aggregation pipeline is a fold (`Aggregate.Group`) followed by an
  insertion sort (`Aggregate.SortBy`) and a `Take`;
* bcrypt, JWT, the email-format check, the User schema's validation, the
  clock and `Math.random` are parameters;
* every front-end handler is a function from component state (and the
  event) to component state, with `localStorage` a record of two optional
  entries (`Session.Storage`) and `alert`/`confirm` boolean inputs or
  outputs.

Modules follow the source files: `ReportModel`, `CommentModel`,
`NotificationModel` (models), `Stats`, `AdminController`,
`ReportController`, `AuthController` (controllers), `AuthMiddleware`,
`RoleMiddleware`, `AdminMiddleware` (middlewares), `Session` (api.ts),
`FormState` (the form state shared by ReportForm.tsx and report/page.tsx),
`ReportForm`, `ReportPage`, `FollowUp`, `Communication`, `Rapports`,
`Welcome`, `MapView`, `AuthForm`, `AdminLogin`, `Plaintes`. `Wrappers`,
`Text`, `Seqs` and `Aggregate` hold the shared helpers (JavaScript string
operations, `find`/`filter`/`skip`/`limit`, group-by and sort).

Rates are exact rationals: `Math.round(100 * r / t)` is
`Stats.Round(Stats.Percent(r, t))`, proved equal to the integer form
`floor((200r + t) / 2t)`. Each report carries a precomputed `Stamp`
(instant, year, month, week) in place of Mongo's `$year`/`$month`/`$week`,
and the window start is an input.

## Model

| member | source | states |
|---|---|---|
| ReportModel.Check | backend/src/models/Report.ts:25-79 | validation succeeds exactly for a report that satisfies every enum, required field and length bound (`Valid`): eight crime types, title ≤ 100, description ≤ 1000, non-empty location and date, urgency in low/medium/high, status in submitted/in_review/resolved |
| ReportModel.Normalise | backend/src/models/Report.ts:103-111 | the pre-save hook turns `{lat, lng}` into a Point `[lng, lat]`, leaves a Point unchanged, and leaves absent coordinates absent |
| ReportModel.NormaliseRoundTrip | backend/src/models/Report.ts:103-123 | `getLatLng` of the normalised `{lat, lng}` gives back the same lat and lng |
| ReportModel.PointRoundTrip | backend/src/models/Report.ts:103-123 | for a stored Point, `getLatLng` reads lng from index 0 and lat from index 1, and normalising that `{lat, lng}` rebuilds the same Point |
| ReportModel.GetLatLngNull | backend/src/models/Report.ts:115-123 | `getLatLng` is null exactly when coordinates are absent or still in the un-normalised `{lat, lng}` shape; `GetLatLng` is the virtual itself |
| ReportModel.Create | backend/src/models/Report.ts:25-111 | a created report is valid (`Valid`, the schema's validators), takes its id and timestamps from the inputs, normalises coordinates as the hook intends (the schema as written loses them; see Findings), applies the defaults medium/submitted/false, and creation succeeds exactly when every required field is present and the instantiated report is valid; `Instantiate` builds the document from the body, id and clock before validation |
| ReportModel.CastCoordinates | backend/src/models/Report.ts:45-54 | as the schema is written, `coordinates` is a nested path: a stored value is always a Point, a Point body is kept, and a `{lat, lng}` body or no coordinates at all both become the default `Point` with an empty array |
| ReportModel.CreateAsWritten | backend/src/models/Report.ts:45-111 | creation as written succeeds and fails exactly as `Create` and stores the same report except for coordinates, which are the cast value the hook then leaves alone |
| ReportModel.CoordinatesLostAsWritten | backend/src/models/Report.ts:45-123 | as written, a body with `{lat, lng}` or without coordinates is stored as an empty Point, and `getLatLng` reads two undefined values instead of the position (or null) |
| ReportModel.CreateKeepsPosition | backend/src/models/Report.ts:103-123 | with the intended storage, a report created from `{lat, lng}` reads back that latitude and longitude |
| ReportModel.RejectedNotAdmitted | backend/src/models/Report.ts:75-79 | no valid report has status `rejected` |
| ReportModel.CreateDefaults | backend/src/models/Report.ts:63-79 | with urgency, status and isAnonymous absent, a created report has urgency medium, status submitted and isAnonymous false |
| CommentModel.Save | backend/src/models/Comment.ts:10-15 | a comment saves exactly when `reportId` and non-empty `content` are given; the stored comment keeps the optional `userId` and the creation time |
| CommentModel.UnknownKeysIgnored | backend/src/models/Comment.ts:10-15 | keys outside the schema (`user`, `report`, `isAdminResponse`) have no effect on the save |
| NotificationModel.Save | backend/src/models/Notifications.ts:12-18 | a notification saves exactly when user, title and message are present, and it starts unread with the creation time |
| Stats.Round | backend/src/controllers/stats.controller.ts:26 | `Math.round` rounds half up: the result n satisfies n ≤ x + 0.5 < n + 1 |
| Stats.RoundPercentExact | backend/src/controllers/stats.controller.ts:26 | the rounded percentage equals the integer formula floor((200r + t) / 2t) |
| Stats.Rate | backend/src/controllers/stats.controller.ts:26 | the resolution rate is 0 when there are no reports, and lies in 0..100 otherwise |
| Stats.Creators | backend/src/controllers/stats.controller.ts:16-18 | `distinct('createdBy')` contains a user exactly when some report was created by that user |
| Stats.CreatorsBound | backend/src/controllers/stats.controller.ts:16-18 | there are no more distinct creators than reports |
| Stats.CountWhere | backend/src/controllers/stats.controller.ts:11-13 | `countDocuments({ status })` is the multiplicity of that status among the reports' statuses |
| Stats.GetGlobalStats | backend/src/controllers/stats.controller.ts:8-32 | total is the number of reports; resolved, pending and inReview are the numbers of `resolved`, `submitted` and `in_review` reports; activeUsers is the number of distinct authors; the rate lies in 0..100 (0 for no reports) |
| Stats.StatusesPartition | backend/src/controllers/stats.controller.ts:10-13 | over valid reports the resolved, submitted and in_review counts add up to the total |
| Stats.NoActiveUsers | backend/src/controllers/stats.controller.ts:16-18 | activeUsers is 0 exactly when no report has a creator |
| Stats.GlobalRateExact | backend/src/controllers/stats.controller.ts:26 | with at least one report, the rate is round(100 · resolved / total) |
| Stats.KeyedBy | backend/src/controllers/stats.controller.ts:40-55 | the `$group` input pairs each report's key with whether it is resolved, one item per report in order |
| Stats.CategoryShape | backend/src/controllers/stats.controller.ts:40-69 | the by-category result has one slice per group, built from the sorted group at the same position; `GetByCategory` is the function these lemmas describe, and its slices are ordered, counted and complete by ByCategoryOrder, ByCategoryCounts and ByCategoryComplete |
| Stats.ByCategoryOrder | backend/src/controllers/stats.controller.ts:40-56 | categories come sorted by count descending, with no category twice |
| Stats.ByCategoryCounts | backend/src/controllers/stats.controller.ts:40-56 | each category's value is the number of reports of that crime type, and at least 1 |
| Stats.ByCategoryComplete | backend/src/controllers/stats.controller.ts:40-56 | every crime type that occurs in the reports has a slice |
| Stats.ByCategorySum | backend/src/controllers/stats.controller.ts:40-56 | the category values add up to the number of reports |
| Stats.CategoryColorsDefault | backend/src/controllers/stats.controller.ts:58-69 | the colour table's keys are not crime-type values, so over valid reports every slice gets `#999999` (`CategoryColor` is the lookup in that table with its `#999999` fallback) |
| Stats.StatusLabel | backend/src/controllers/stats.controller.ts:94-103 | resolved, in_review and submitted get Traité, En cours and En attente; any other raw status passes through unchanged |
| Stats.ByStatusSpec | backend/src/controllers/stats.controller.ts:82-126 | one slice per distinct status, each valued at the number of reports with that status, every status present gets a slice, and each slice carries its label; `GetByStatus` is the function it describes, and each slice's colour is `StatusColor` of its label: `#10B981` for resolved, `#F59E0B` for in_review, `#EF4444` for submitted |
| Stats.MonthsBack | backend/src/controllers/stats.controller.ts:134-150 | 1mois gives 1, 3mois gives 3, 1an gives 12, and anything else (6mois, missing, unknown) gives 6 |
| Stats.MonthLabel | backend/src/controllers/stats.controller.ts:182-184 | month m is labelled by entry m of the 1-based French month table, never the empty entry 0 |
| Stats.GetMonthlyStats | backend/src/controllers/stats.controller.ts:132-198 | one bucket per month group of the in-window reports, in the groups' chronological order; bucket i is named by the French month of group i and carries that group's report count as signalements and its resolved count as résolus |
| Stats.MonthlySpec | backend/src/controllers/stats.controller.ts:155-184 | month groups are sorted chronologically and distinct; each counts exactly the in-window reports of its month, résolus exactly the resolved ones, so résolus ≤ signalements; every in-window report's month has a group |
| Stats.MonthRankChronological | backend/src/controllers/stats.controller.ts:175 | sorting by year·12 + month is the same as sorting by (year, month) |
| Stats.GetByZone | backend/src/controllers/stats.controller.ts:204-249 | at most 10 zones are returned |
| Stats.ByZoneSpec | backend/src/controllers/stats.controller.ts:206-242 | zones are sorted by signalements descending and distinct; each counts exactly its reports and resolved reports; taux is the rounded rate and tendance is computed on the unrounded rate; `TrendOf` is the up/down/stable rule whose thresholds TrendThresholds states |
| Stats.ByZoneTopTen | backend/src/controllers/stats.controller.ts:233-234 | every zone cut by the limit has no more reports than any zone returned |
| Stats.TrendThresholds | backend/src/controllers/stats.controller.ts:241 | tendance is up exactly when 100·resolus > 70·signalements and down exactly when 100·resolus < 50·signalements |
| Stats.ZoneGuardUnused | backend/src/controllers/stats.controller.ts:224-230 | every returned zone has at least one report, so the taux = 0 guard for an empty zone never fires |
| Stats.WeekLabel | backend/src/controllers/stats.controller.ts:281 | the label is `S` followed by the decimal digits of the week number, which read back as that week |
| Stats.GetWeeklyTrend | backend/src/controllers/stats.controller.ts:255-293 | one bucket per week group, labelled with that group's week |
| Stats.WeeklyOrder | backend/src/controllers/stats.controller.ts:277 | weeks come in strictly increasing order |
| Stats.WeeklyCounts | backend/src/controllers/stats.controller.ts:267-276 | each weekly bucket counts exactly the in-window reports of its week and their resolved subset, so résolus ≤ signalements; every in-window report's week has a bucket |
| AdminController.GetDashboardStats | backend/src/controllers/admin.controller.ts:10-41 | totalUsers and totalReports are the collection sizes; pending, in-progress, resolved and rejected are the numbers of `submitted`, `in_review`, `resolved` and `rejected` reports; activeUsers is the number of distinct authors; the per-type groups have distinct keys, count each type exactly and add up to totalReports |
| AdminController.DashboardConsistent | backend/src/controllers/admin.controller.ts:12-18 | over valid reports the dashboard counts agree with the global statistics, and rejectedReports is always 0 |
| AdminController.NoRejected | backend/src/controllers/admin.controller.ts:17 | no valid report has status rejected, so that count is 0 |
| AdminController.Paginate | backend/src/controllers/admin.controller.ts:46-62 | skip = (page − 1)·limit fails exactly when negative; otherwise total is the match count, each item is the match at skip plus its position, the page holds `PageLength`: what is left after skip, capped by `|limit|` unless the limit is 0, totalPages = ceil(total / limit), and limit 0 lists everything |
| AdminController.FirstPage | backend/src/controllers/admin.controller.ts:46-47 | with the defaults page 1 and limit 10, the listing is the first ten matches |
| AdminController.PagesAdjacent | backend/src/controllers/admin.controller.ts:46-57 | a full page is followed by the next page starting at the very next match |
| AdminController.GetAllUsers | backend/src/controllers/admin.controller.ts:44-68 | a negative skip fails; otherwise the total is the number of users for an empty search and the number whose name or email matches for any other, every listed user is stored and matches a non-empty search, a page holds `PageLength` of the total (at most `limit` users) and its i-th user is the matching user at position skip + i, and page 1 without a limit lists every user the search admits |
| AdminController.UpdateUserRole | backend/src/controllers/admin.controller.ts:70-86 | 404 exactly for an unknown id; any failure leaves the store unchanged; success touches only users |
| AdminController.UpdateUserRoleOnly | backend/src/controllers/admin.controller.ts:75-79 | a successful update changes that one user's role and nothing else |
| AdminController.DeleteUser | backend/src/controllers/admin.controller.ts:88-105 | 404 for an unknown id, 400 with no deletion when the user created a report, otherwise exactly that user is removed |
| AdminController.DeleteUserNoDangling | backend/src/controllers/admin.controller.ts:94-99 | after a successful delete no report points to the deleted user |
| AdminController.GetAllReports | backend/src/controllers/admin.controller.ts:108-125 | a negative skip fails; otherwise the total is the number of stored reports meeting each non-empty filter, every listed report is stored and meets them, a page holds `PageLength` of the total (at most `limit` reports) and its i-th report is the matching report at position skip + i, and page 1 without a limit lists every matching report |
| AdminController.GetAllReportsUnfiltered | backend/src/controllers/admin.controller.ts:113-115 | empty status and type add no constraint |
| AdminController.UpdateReportStatus | backend/src/controllers/admin.controller.ts:128-154 | 404 exactly for an unknown id; no write on failure; success requires a status in the model enum and leaves users and comments untouched |
| AdminController.UpdateStatusOutsideEnum | backend/src/controllers/admin.controller.ts:136-152 | a status outside the enum makes the save fail: 500 and no write, so no notification |
| AdminController.UpdateStatusNotifies | backend/src/controllers/admin.controller.ts:133-149 | a valid status is written and exactly one notification is appended to the creator when the creator still exists, none otherwise |
| AdminController.DeleteReport | backend/src/controllers/admin.controller.ts:157-169 | 404 for an unknown id; otherwise exactly that report is removed |
| AdminController.DeleteReportNoCascade | backend/src/controllers/admin.controller.ts:160-164 | deleting a report leaves users, comments and notifications unchanged |
| AdminController.GetMessages | backend/src/controllers/admin.controller.ts:172-185 | a negative skip fails; otherwise the total is the number of comments, a page holds `PageLength` of them (at most `limit`) and its i-th message is the stored comment at position skip + i, every listed message is a stored comment, and page 1 without a limit lists all comments in store order |
| AdminController.SendWith | backend/src/controllers/admin.controller.ts:192-203 | the reply succeeds exactly when the comment it builds saves, and a failure writes nothing |
| AdminController.SendResponseAlwaysFails | backend/src/controllers/admin.controller.ts:187-210 | as written, every reply gets 500 and changes nothing; `SendResponse` is that handler as written |
| AdminController.SendResponseIntended | backend/src/controllers/admin.controller.ts:187-210 | with `reportId` passed under the schema's name, the reply succeeds exactly when a report id and non-empty content are given |
| AdminController.SendResponseIntendedNotifies | backend/src/controllers/admin.controller.ts:192-205 | the corrected reply stores the comment by the admin and notifies the report's creator when one exists |
| ReportController.WithCaller | backend/src/controllers/report.controller.ts:6-9 | the body's `createdBy` is replaced by the caller's id, or by nothing without a caller, and every other field is kept |
| ReportController.CreateReport | backend/src/controllers/report.controller.ts:4-14 | 201 exactly when the report saves, with that report appended; otherwise 500 with no report and no write |
| ReportController.CreatedByCaller | backend/src/controllers/report.controller.ts:6-9 | the created report's creator is the authenticated caller, and absent without one |
| ReportController.BodyCreatorIgnored | backend/src/controllers/report.controller.ts:6-9 | a `createdBy` sent in the body never changes the outcome |
| ReportController.AnonymousStillAttributed | backend/src/controllers/report.controller.ts:6-9 | a logged-in caller who sets isAnonymous still gets `createdBy` recorded |
| ReportController.BodyPassedThrough | backend/src/controllers/report.controller.ts:6-7 | every other body field reaches the stored report unchanged (coordinates normalised) |
| ReportController.GetReports | backend/src/controllers/report.controller.ts:16-23 | every stored report is listed, unfiltered |
| ReportController.CreatedIsListed | backend/src/controllers/report.controller.ts:4-18 | after a successful create, the listing is the old listing plus the new report |
| AuthController.Register | backend/src/controllers/auth.controller.ts:8-23 | 400 exactly when a field is missing or the email is taken; no write unless 201; 201 appends a user with the hashed password and returns its id |
| AuthController.RegisterKeepsEmailsDistinct | backend/src/controllers/auth.controller.ts:13-18 | registration never creates a second user with the same email |
| AuthController.Login | backend/src/controllers/auth.controller.ts:26-42 | success exactly when both fields are given, the email is known and compare accepts the password; success returns token, userId, name and email; every refusal is 400 |
| AuthController.RegisterThenLogin | backend/src/controllers/auth.controller.ts:16-38 | when compare accepts a password against its hash, a fresh registration logs in at once |
| AuthController.WrongPasswordRefused | backend/src/controllers/auth.controller.ts:34-35 | a known email with a rejected password gets 400 "Mot de passe incorrect" |
| AuthMiddleware.Token | backend/src/middlewares/auth.middleware.ts:9 | a token exists exactly when the header does |
| AuthMiddleware.TokenOfBearer | backend/src/middlewares/auth.middleware.ts:9 | `Bearer <t>` yields t |
| Text.ReplaceFirst | backend/src/middlewares/auth.middleware.ts:9 | `replace` with a string pattern: unchanged when the pattern does not occur, otherwise only its first occurrence is replaced |
| AuthMiddleware.TokenWithoutBearer | backend/src/middlewares/auth.middleware.ts:9 | a header without "Bearer " is the token as it stands |
| AuthMiddleware.Resolve | backend/src/middlewares/auth.middleware.ts:15-16 | a user is found exactly when the token verifies to the id of a stored user, and it is that user |
| AuthMiddleware.Authenticate | backend/src/middlewares/auth.middleware.ts:7-27 | next is called exactly when a non-empty token resolves to a user, with that user attached; every rejection is 401 |
| AuthMiddleware.AuthenticateOptional | backend/src/middlewares/auth.middleware.ts:30-48 | the optional middleware never rejects |
| AuthMiddleware.OptionalAgreesWithStrict | backend/src/middlewares/auth.middleware.ts:7-48 | where the strict middleware passes, the optional one attaches the same user; where it rejects, the optional one continues with no user |
| AuthMiddleware.ValidTokenAttaches | backend/src/middlewares/auth.middleware.ts:15-40 | a Bearer header carrying a valid token for a stored user attaches that user in both middlewares |
| RoleMiddleware.RoleCheck | backend/src/middlewares/role.middleware.ts:4-16 | next exactly for a user with role admin; otherwise 401 with the first message when there is no user, 403 with the second for any other role |
| RoleMiddleware.AdminMiddleware | backend/src/middlewares/role.middleware.ts:4-16 | next exactly for a user with role admin; 401 "Authentification requise" without a user, 403 "Accès refusé. Rôle admin requis." otherwise |
| AdminMiddleware.VerifyAdmin | backend/src/middlewares/admin.middleware.ts:4-16 | next exactly for a user with role admin; 401 "Utilisateur non authentifié" without a user, 403 "Accès refusé, rôle admin requis" otherwise |
| AdminMiddleware.SameDecisions | backend/src/middlewares/admin.middleware.ts:4-16 | both admin middlewares make the same decision with the same status on every input, and differ only in message text |
| Session.GetHeaders | frontend/src/services/api.ts:4-17 | Content-Type is always JSON; Authorization is `Bearer <token>` exactly when auth is requested and a token is stored |
| Session.Login | frontend/src/services/api.ts:30-48 | a response with a token stores it and the user {id, name, email}; one without leaves the store unchanged |
| Session.Logout | frontend/src/services/api.ts:50-53 | both keys are removed |
| Session.LogoutSignsOut | frontend/src/services/api.ts:50-62 | after logout, isAuthenticated is false and getCurrentUser is null (`IsAuthenticated` is `!!localStorage.getItem('token')`, `GetCurrentUser` the parsed stored user) |
| Session.LoginAuthenticates | frontend/src/services/api.ts:30-62 | from a signed-out store, login authenticates exactly when the response has a token, and the stored user has no role |
| FormState.Initial | frontend/src/components/home/ReportForm.tsx:45-56 | every text field starts empty, urgency medium, isAnonymous as given, no coordinates, images or previews |
| FormState.HandleInputChange | frontend/src/components/home/ReportForm.tsx:85-96 | a checkbox stores `checked`, any other input stores `value`, under its name; other fields, coordinates and images are unchanged |
| FormState.SetUrgency | frontend/src/components/home/ReportForm.tsx:85-96 | choosing an urgency changes only that field |
| FormState.HandleImageUpload | frontend/src/components/home/ReportForm.tsx:208-225 | an upload is refused with an alert and no change exactly when existing + new > 5; otherwise the files are appended in order; at most 5 images stays true |
| FormState.UploadsStayBounded | frontend/src/components/home/ReportForm.tsx:208-225 | any sequence of uploads keeps at most 5 images |
| FormState.KeepOthersSpec | frontend/src/components/home/ReportForm.tsx:227-233 | the `filter((_, i) => i !== index)` loop drops exactly position index, or nothing when index is out of range |
| FormState.RemoveIndex | frontend/src/components/home/ReportForm.tsx:227-233 | removing index i drops exactly that element and keeps the others in order; an out-of-range index changes nothing |
| FormState.RemoveImage | frontend/src/components/home/ReportForm.tsx:227-233 | images and previews each lose exactly index i; fields and coordinates are unchanged |
| FormState.RemoveKeepsBound | frontend/src/components/home/ReportForm.tsx:227-233 | removal keeps at most 5 images |
| FormState.InitialBlocked | frontend/src/components/home/ReportForm.tsx:245-248 | the initial form cannot be submitted (`MissingRequired` is the submit check on crime type, description and location) |
| FormState.RequiredInputsSuffice | frontend/src/components/home/ReportForm.tsx:85-96 | typing a non-empty crime type, description and location unblocks `handleSubmit`'s check; title, date and time are not part of it |
| ReportForm.SubmitHeaders | frontend/src/components/home/ReportForm.tsx:255-264 | the form sends the session headers with auth exactly when not in anonymous mode |
| ReportForm.TextOf | frontend/src/components/home/ReportForm.tsx:266-276 | a field is sent as text when it holds text, and omitted when absent |
| ReportForm.FlagOf | frontend/src/components/home/ReportForm.tsx:266-276 | a checkbox field is sent as its boolean, and omitted when absent |
| ReportForm.Payload | frontend/src/components/home/ReportForm.tsx:266-276 | the payload carries the form's fields and coordinates, never images, status, tracking number or creator |
| ReportForm.Submit | frontend/src/components/home/ReportForm.tsx:242-276 | `handleSubmit` alone: blocked with the alert exactly when crime type, description or location is missing; otherwise the payload is sent, with no Authorization header in anonymous mode (the browser's check in front of it is `SubmitRendered`) |
| ReportForm.GenerateTrackingNumber | frontend/src/components/home/ReportForm.tsx:235-240 | a generated tracking number starts with `REPORT-` |
| ReportForm.GeneratedParts | frontend/src/components/home/ReportForm.tsx:235-240 | it is `REPORT-` + upper-case base-36 timestamp + `-` + at most 4 random characters, and the timestamp part reads back as the clock value |
| ReportForm.TrackingNumber | frontend/src/components/home/ReportForm.tsx:294 | the tracking number shown is the response's trackingNumber, else its id, else a generated one, and never empty |
| ReportForm.HandleReply | frontend/src/components/home/ReportForm.tsx:278-318 | success confirms with a non-empty tracking number and resets the form; failure keeps the form and alerts the server's message or the default one |
| ReportForm.ResetAfterSuccess | frontend/src/components/home/ReportForm.tsx:297-308 | after success the form is back to its initial values with isAnonymous = anonymous mode, and is again blocked |
| ReportForm.Post | backend/src/controllers/report.controller.ts:4-14 | posting the form yields 201 or 500 |
| ReportForm.AnonymousTickStillAttributed | frontend/src/components/home/ReportForm.tsx:655-672 | ticking "anonymous" while logged in and not in anonymous mode still records the user as creator |
| ReportForm.AnonymousModeUnattributed | frontend/src/components/home/ReportForm.tsx:255-264 | a report sent in anonymous mode is stored without a creator |
| ReportForm.EmptyTitleRefused | frontend/src/components/home/ReportForm.tsx:245-276 | `handleSubmit` does not check the title, and the server refuses an empty one with 500 and no write |
| ReportForm.SubmitRendered | frontend/src/components/home/ReportForm.tsx:397-689 | the browser stops the submit exactly when a `required` input (crime type, title, description, location, date) is empty or a `maxLength` is exceeded; whatever it lets through `handleSubmit` sends, never alerting |
| ReportForm.RenderedTitleAccepted | frontend/src/components/home/ReportForm.tsx:425-436 | from the rendered form the title sent is non-empty and within the schema's 100 characters |
| ReportForm.CreatedIdShown | frontend/src/components/home/ReportForm.tsx:283-308 | since the server never sets a tracking number, the confirmation shows the new report's id; `ReplyOf` is the server's answer as the page reads it |
| ReportPage.PageInitial | frontend/src/app/report/page.tsx:31-41 | urgency medium, isAnonymous false, all text fields empty, no images |
| ReportPage.Submit | frontend/src/app/report/page.tsx:113-140 | `handleSubmit` alone: blocked with the alert exactly when crime type, description or location is missing; otherwise alerts success and routes to the dashboard (the browser's check in front of it is `SubmitRendered`) |
| ReportPage.SubmitRendered | frontend/src/app/report/page.tsx:155-373 | the browser stops the submit exactly when a `required` input is empty or a `maxLength` is exceeded; whatever it lets through ends in the success alert and the dashboard route |
| ReportPage.NothingTransmitted | frontend/src/app/report/page.tsx:113-140 | the outcome depends only on whether a required field is missing: no form data is sent anywhere |
| ReportPage.ImagesIrrelevant | frontend/src/app/report/page.tsx:81-140 | uploads and removals never change the submit outcome |
| FollowUp.Plan | frontend/src/components/home/FollowUp.tsx:35-73 | no fetch without a user id; a login error without a token; otherwise a GET of the user's reports with `Bearer <token>` |
| FollowUp.SignedOutNoRequest | frontend/src/components/home/FollowUp.tsx:44-60 | after logout no request is made |
| FollowUp.PlanHeaders | frontend/src/components/home/FollowUp.tsx:62-65 | the fetch's Authorization is the one the session service builds |
| FollowUp.Receive | frontend/src/components/home/FollowUp.tsx:75-98 | a status outside 200..299 is shown as the error `Erreur HTTP: ` followed by the status in decimal, which reads back as that status; any other status shows one row per returned report, in order, each mapped as `ToDossier` maps it |
| FollowUp.ToDossier | frontend/src/components/home/FollowUp.tsx:83-92 | id is `_id`, titre defaults to 'Sans titre', statut to 'submitted', date is createdAt else date; other fields are copied |
| FollowUp.ToDossiers | frontend/src/components/home/FollowUp.tsx:83-92 | every report is mapped, in order |
| FollowUp.StoredReportShown | frontend/src/components/home/FollowUp.tsx:83-92 | for a stored valid report no default is used: its own title, status, creation time and id are shown |
| FollowUp.StatusLabel | frontend/src/components/home/FollowUp.tsx:107-114 | submitted gives Soumis, in_review gives En cours, resolved gives Résolu; any other status passes through unchanged |
| FollowUp.StatusClass | frontend/src/components/home/FollowUp.tsx:117-124 | submitted gives `status-soumis`, in_review `status-en-cours`, resolved `status-resolu`, and `status-default` exactly for a status outside the three |
| FollowUp.StatusTablesInjective | frontend/src/components/home/FollowUp.tsx:107-124 | distinct statuses get distinct labels and classes |
| FollowUp.ShortId | frontend/src/components/home/FollowUp.tsx:259 | the displayed id is the last 8 characters (all of a shorter id) |
| FollowUp.UrgencyLabel | frontend/src/components/home/FollowUp.tsx:294-295 | high gives Urgent, medium gives Moyen, and every other value Faible |
| Communication.MarkAnswered | frontend/src/app/admin/communication/page.tsx:44 | messages with that id become answered, every other message is unchanged |
| Communication.HandleSendResponse | frontend/src/app/admin/communication/page.tsx:42-49 | a blank response changes nothing; otherwise the message is answered, text and selection are cleared and the success alert is raised |
| Communication.HandleReplyClick | frontend/src/app/admin/communication/page.tsx:51-54 | the message is selected and the response text cleared |
| Communication.Cancel | frontend/src/app/admin/communication/page.tsx:169 | cancel clears the selection and the text |
| Communication.CountStatus | frontend/src/app/admin/communication/page.tsx:99-104 | a status count is at most the number of messages |
| Communication.CountsPartition | frontend/src/app/admin/communication/page.tsx:18-104 | pending and answered counts sum to the number of messages |
| Communication.AnsweringMovesCount | frontend/src/app/admin/communication/page.tsx:44-104 | answering moves exactly the pending messages with that id from the pending count to the answered count |
| Communication.SentClosesForms | frontend/src/app/admin/communication/page.tsx:42-46 | after a non-blank send no reply form is shown |
| Communication.ReplyOpensForm | frontend/src/app/admin/communication/page.tsx:145-176 | after a reply click the form is shown exactly for the pending message with that id |
| Rapports.CellText | frontend/src/app/admin/rapports/page.tsx:45 | a number cell is written as decimal digits |
| Rapports.CsvContent | frontend/src/app/admin/rapports/page.tsx:44-45 | the content is the CSV data-URL prefix followed by the body |
| Rapports.RowRoundTrip | frontend/src/app/admin/rapports/page.tsx:45 | a row of cells free of commas and newlines splits back on "," into its cells, and contains no newline |
| Rapports.CsvRoundTrip | frontend/src/app/admin/rapports/page.tsx:44-45 | after the prefix, splitting on newline gives exactly the rows in order (no trailing newline), and each line splits back into its cells |
| Rapports.CommaBreaksCell | frontend/src/app/admin/rapports/page.tsx:45 | with no quoting, a cell `a,b` reads back as two cells |
| Rapports.ExportCsv | frontend/src/app/admin/rapports/page.tsx:43-53 | the download has the given file name and the CSV content |
| Rapports.ExportMonthly | frontend/src/app/admin/rapports/page.tsx:55-63 | the monthly export is `rapport_mensuel.csv` with the monthly table |
| Rapports.ExportAnnual | frontend/src/app/admin/rapports/page.tsx:65-72 | the annual export is `rapport_annuel.csv` with the annual table |
| Rapports.HeaderFirst | frontend/src/app/admin/rapports/page.tsx:44-45 | a table whose first row is a header yields that header as its first line, and one line per row |
| Rapports.MonthlyHeaderFirst | frontend/src/app/admin/rapports/page.tsx:55-63 | the monthly export's first line is `Mois,Incidents,Résolutions`, with one line per table row |
| Rapports.AnnualHeaderFirst | frontend/src/app/admin/rapports/page.tsx:65-72 | the annual export's first line is `Année,Incidents,Résolutions`, with one line per table row |
| Rapports.MonthlyPlain | frontend/src/app/admin/rapports/page.tsx:55-63 | the monthly table has a header and three rows, none with a comma or newline in a cell |
| Rapports.AnnualPlain | frontend/src/app/admin/rapports/page.tsx:65-72 | the annual table has a header and two rows, none with a comma or newline in a cell |
| Rapports.Toggle | frontend/src/app/admin/rapports/page.tsx:31 | toggling flips the date-picker flag and keeps the dates |
| Rapports.ApplyPeriod | frontend/src/app/admin/rapports/page.tsx:33-36 | applying closes the picker, keeps the dates and announces the chosen period |
| Rapports.PickerLaws | frontend/src/app/admin/rapports/page.tsx:31-36 | toggling twice is the identity, and applying closes the picker whatever its state |
| Welcome.HandleCommentSubmit | frontend/src/app/welcom/page.tsx:38-43 | an empty comment changes nothing; otherwise exactly one entry is appended with the user's name or 'Anonyme', and comment and rating are reset |
| Welcome.SubmitIdempotent | frontend/src/app/welcom/page.tsx:38-43 | submitting twice in a row appends only once, since the first submit empties the comment |
| Welcome.Star | frontend/src/app/welcom/page.tsx:189-193 | star i is full exactly when i + 1 ≤ rating, and half exactly when i + 0.5 = rating |
| Welcome.Stars | frontend/src/app/welcom/page.tsx:189-193 | n stars are rendered, the i-th by the star rule |
| Welcome.StarCounts | frontend/src/app/welcom/page.tsx:189-193 | n stars show min(floor(rating), n) full stars, and one half star only when the rating ends in .5 and fits |
| Welcome.FiveStars | frontend/src/app/welcom/page.tsx:180-193 | on the 0..5 slider in steps of 0.5, the five stars show floor(rating) full stars and at most one half star |
| Welcome.ListStars | frontend/src/app/welcom/page.tsx:201 | the list shows floor(rating) full stars |
| Welcome.ListMatchesSlider | frontend/src/app/welcom/page.tsx:189-201 | the list shows as many full stars as the slider |
| Welcome.WelcomeLogout | frontend/src/app/welcom/page.tsx:45-49 | the page's logout removes only the user and keeps the token |
| Welcome.LogoutKeepsToken | frontend/src/app/welcom/page.tsx:45-49 | after the page's logout the session is still authenticated and still sends `Bearer <token>` |
| Welcome.ServiceLogoutSignsOut | frontend/src/services/api.ts:50-53 | the session service's logout signs out and sends no token, and removes the user just as the page does |
| MapView.MarkerColor | frontend/src/components/Map.tsx:41-49 | high, medium and low give #ef4444, #f59e0b and #10b981, and anything else the default #3b82f6 |
| MapView.MarkerIcon | frontend/src/components/Map.tsx:52-64 | the fill colour follows urgency; opacity is 0.5 exactly for resolved and 1 otherwise |
| MapView.HandleMapClick | frontend/src/components/Map.tsx:90-100 | a click is taken and reported only when the map is interactive, a callback exists and a position is given |
| MapView.UrgencyLabel | frontend/src/components/Map.tsx:225-226 | no label without an urgency; otherwise Urgent, Moyen, and Faible for every other value |
| MapView.StatusLabel | frontend/src/components/Map.tsx:232-233 | no label without a status; submitted gives Soumis, in_review gives En cours, and every other status Résolu |
| MapView.StatusLabelsCompared | frontend/src/components/Map.tsx:232-233 | the map agrees with the follow-up labels on the three statuses, but calls every other status Résolu where the follow-up view passes it through |
| MapView.UrgencyLabelsCompared | frontend/src/components/Map.tsx:225-226 | the map's urgency label is the follow-up label without its colour emoji |
| MapView.ColorMatchesLabel | frontend/src/components/Map.tsx:41-49 | on the three urgencies the marker colour and the info-window label agree |
| AuthForm.LoginErrors | frontend/src/components/auth/AuthForm.tsx:15-19 | no error exactly when the email is valid and the password has at least 8 characters, with one message per failed rule |
| AuthForm.RegisterErrors | frontend/src/components/auth/AuthForm.tsx:21-33 | no error exactly when names have 2+ characters, the email is valid, the password 8+, the confirmation equal and the terms accepted |
| AuthForm.HandleLogin | frontend/src/components/auth/AuthForm.tsx:242-268 | an error exactly without a token; /admin exactly with a token and role admin, /welcom otherwise |
| AuthForm.FullName | frontend/src/components/auth/AuthForm.tsx:276-280 | the name sent is first name, one space, last name |
| AuthForm.HandleRegister | frontend/src/components/auth/AuthForm.tsx:282-288 | /login exactly when a userId comes back, the error otherwise |
| AuthForm.LoginBody | backend/src/controllers/auth.controller.ts:37-38 | the login response carries token and userId, or the message on refusal, and never a role |
| AuthForm.LoginNeverAdmin | frontend/src/components/auth/AuthForm.tsx:257-261 | against the backend's login the form never routes to /admin: success goes to /welcom, refusal shows the error |
| AuthForm.RefusedLoginKeepsSession | frontend/src/services/api.ts:38-45 | a refused login leaves the stored session unchanged |
| AuthForm.RegisterRedirects | frontend/src/components/auth/AuthForm.tsx:270-296 | the form reaches /login exactly when the backend created the account |
| AdminLogin.HandleInputChange | frontend/src/app/admin-login/page.tsx:16-20 | an input change clears the error and updates only that field |
| AdminLogin.HandleSubmit | frontend/src/app/admin-login/page.tsx:22-44 | the dashboard exactly for a token with role admin; a token without it gives access denied and logout; no token shows the message or 'Identifiants incorrects'; a throw gives the connection error |
| AdminLogin.DashboardUnreachable | frontend/src/app/admin-login/page.tsx:30-37 | against the backend's login the dashboard is never reached: correct credentials end logged out with access denied |
| Plaintes.Reset | frontend/src/app/admin/plaintes/page.tsx:186-193 | reset restores every filter default |
| Plaintes.Filtered | frontend/src/app/admin/plaintes/page.tsx:59-70 | the filtered list holds exactly the complaints that match every filter; `Matches` is that conjunction for one complaint |
| Plaintes.DefaultsShowAll | frontend/src/app/admin/plaintes/page.tsx:59-70 | with the default filters every complaint passes |
| Plaintes.ResetShowsAll | frontend/src/app/admin/plaintes/page.tsx:59-70 | after reset every complaint passes |
| Plaintes.SearchIgnoresCase | frontend/src/app/admin/plaintes/page.tsx:60-62 | upper- or lower-casing the search term never changes the match, for the letters the case mapping covers (ASCII, Latin-1, Œ and Ÿ) |
| Plaintes.DateBoundsInclusive | frontend/src/app/admin/plaintes/page.tsx:66-68 | a complaint dated on a set bound passes it, and unset bounds admit anything |
| Plaintes.FilteredKeepsOrder | frontend/src/app/admin/plaintes/page.tsx:59 | filtering distributes over concatenation, so it keeps order |
| Plaintes.StatusChange | frontend/src/app/admin/plaintes/page.tsx:49-51 | only the status of complaints with that id changes; length and all other fields stay |
| Plaintes.Delete | frontend/src/app/admin/plaintes/page.tsx:53-57 | without confirmation nothing changes; with it exactly the complaints with that id go |
| Plaintes.DeleteAbsent | frontend/src/app/admin/plaintes/page.tsx:53-57 | deleting an id no complaint has changes nothing |
| Plaintes.DeleteOne | frontend/src/app/admin/plaintes/page.tsx:53-57 | deleting the one complaint with an id leaves the others in order |
| Plaintes.UrgencyBadge | frontend/src/app/admin/plaintes/page.tsx:72-79 | medium and high get their badges, and every other urgency the low badge |

## Left out

- `Report.findNearby` and the `$near` query: spherical geometry with floating point.
- The `2dsphere` index, the unique sparse index on trackingNumber and other storage mechanics.
- Mongoose's casting of values before validation and before the pre-save hook, apart from the `coordinates` path (`ReportModel.CastCoordinates`). Numbers, dates and booleans are taken as already cast.
- ReportModel.Create: stores coordinates as the pre-save hook intends, not as the schema is written. As written, `{lat, lng}` is dropped by strict mode and replaced by the nested defaults, so the position is lost; `CreateAsWritten` models that and the Findings table records it. The rest of the model (controllers, map) builds on the intended `Create`.
- bcrypt's hash and compare, `jwt.sign` and `jwt.verify`, and zod's email-format check: uninterpreted parameters.
- The User schema (backend/src/models/User.ts) is not part of this model. Its default role and its validation are a parameter (`Store.UserSchema`).
- `populate` projections (`select('-password')`, `'name email'`): the model returns whole records.
- getMessages' `populate('user report')` names paths the Comment schema lacks. Whether Mongoose then throws depends on its `strictPopulate` setting, so the model lists the comments as they are.
- Date arithmetic (`setMonth`, `sixWeeksAgo.setDate(sixWeeksAgo.getDate() - 42)`, `$year`, `$month`, `$week`): each report has a precomputed stamp, and the window start is an input.
- Floating point: rates and percentages are exact rationals rounded half up; float rounding error is not modelled.
- Query strings that are not integers (`NaN`, fractions): page and limit are integers. A negative skip is a 500 and limit 0 means no limit.
- `$regex` semantics and invalid patterns in getAllUsers: the search is a predicate parameter.
- ObjectId cast errors on malformed ids: ids are plain strings.
- AdminController.UpdateReportStatus: a request body without `status` is not modelled. The status is always a string, so the unset-status case is not covered.
- The order of `$group` output in getDashboardStats' `reportsByType` is unspecified by MongoDB and is not returned.
- Generated previews (`FileReader`), `JSON.stringify`, `encodeURI`, the DOM download link, fetch, geolocation and geocoding. Responses are given as inputs, and `alert`/`confirm` are inputs or outputs.
- String lengths and comparisons are per code point, not per UTF-16 unit: zod's `min` and the date comparison (`Text.LexLe`).
- Text.Lower: `toLowerCase` and `toUpperCase` are modelled for ASCII, the Latin-1 letters and Œ/Ÿ, which covers French. Other scripts are kept unchanged, and so are `ß` (upper-cased to `SS`, which changes the length) and `µ`.
- Plaintes.SearchIgnoresCase: holds only for the letters `Text.Lower` maps, not for case pairs elsewhere in Unicode.
- AdminController.GetDashboardStats: activeUsers counts only stored authors. It agrees with the unfiltered `distinct('createdBy')` because a report without an author has no `createdBy` field, and `distinct` skips missing fields. An explicit null would be one more distinct value in the source, but no handler stores one.
- Prototype keys (`constructor`, `__proto__`) looked up in the status label and class tables.
- ReportForm.FlagOf: a text value in the isAnonymous field is sent as absent. Mongoose would cast `"true"`/`"1"`/`"yes"` and the negative words to a boolean and reject any other text.
- JSX rendering, CSS and navigation side effects: routes are returned as values.
- The handlers backend/src/routes/report.routes.ts imports but report.controller.ts does not define. The admin controller's versions are modelled instead.
- FollowUp.Plan: no backend route serves `GET /reports/user/:id`. report.routes.ts declares only `/`, `/statistics`, `/:id`, `/:id/comments` and `/:id/status`, and `/:id` matches one path segment only. So, as written, the request reaches the 404 handler of backend/src/app.ts:40-42, and `FollowUp.Receive` shows `Erreur HTTP: 404`. Express's routing is not modelled, so no lemma joins the two.
- The wiring and fetch wrappers (app.ts, routes, stats.service.ts, seed and admin scripts).
- The pages frontend/src/app/admin/page.tsx, admin/dashboard, admin/utilisateurs, report-anynome, notification, login, register and layout.tsx, and the components components/FollowUp.tsx, home/StatisticsDashboard.tsx.tsx, home/notifications.tsx and context/UserContext.tsx: static, demo-data or wrapper pages outside this model. login and register mount `AuthForm`, which is modelled. register also passes an `onSuccess` that pushes /dashboard right after AuthForm's push to /login; which navigation wins is not modelled.
- AdminLogin.HandleSubmit: the login form's `required` email and password and its `type="email"` check run in the browser before the handler and are not modelled; the handler is modelled for every answer it can get.
- Concurrency: each operation is one atomic state transition.

## Findings

| source | as written | input that shows it | evidently intended | confidence | as-written member | corrected member |
|---|---|---|---|---|---|---|
| backend/src/controllers/admin.controller.ts:192-203 | the reply comment is built with `report` and `user`, keys the Comment schema lacks, so its required `reportId` is missing and every save fails with 500 before any notification | any body, e.g. reportId "r1" and content "ok" | pass the id as `reportId` (and the admin as `userId`) so the comment saves and the creator is notified | high, not executed | AdminController.SendResponseAlwaysFails | AdminController.SendResponseIntendedNotifies |
| frontend/src/app/welcom/page.tsx:45-49 | logout removes only the stored user and keeps the token, so the session still counts as authenticated and later requests still send `Bearer <token>` | a signed-in store with token "t" | sign out through the session service, which removes both keys | medium, not executed | Welcome.LogoutKeepsToken | Welcome.ServiceLogoutSignsOut |
| backend/src/models/Report.ts:45-123 | `coordinates` is declared as a nested path (its `type` key holds an object), so strict mode drops the `lat`/`lng` the report form sends, the nested defaults store `{type: 'Point', coordinates: []}` even for a body without coordinates, the hook's `typeof lat === 'number'` test never holds, and `getLatLng` returns undefined lat and lng | a body with coordinates `{lat: 48.85, lng: 2.35}` | store the sent position as a Point `[lng, lat]` and leave absent coordinates absent, so `getLatLng` reads the position back (or null) | medium, not executed | ReportModel.CoordinatesLostAsWritten | ReportModel.CreateKeepsPosition |

=== FILE: admin.dfy ===
/**
 * The admin controller: dashboard counters, paginated listings, role
 * changes, guarded deletions, status updates that notify the report's
 * author, and admin replies. Each handler is one atomic transition from a
 * database to a status code and a new database.
 */
module AdminController {
  import opened Wrappers
  import opened Seqs
  import opened Aggregate
  import opened ReportModel
  import opened CommentModel
  import opened NotificationModel
  import opened Store
  import opened Stats

  /** A handler's HTTP status and the database it leaves behind. */
  datatype Change = Change(status: nat, db: Db)

  // ----------------------------------------------------------- dashboard

  datatype DashboardStats = DashboardStats(
    totalUsers: nat,
    totalReports: nat,
    activeUsers: nat,
    pendingReports: nat,
    inProgressReports: nat,
    resolvedReports: nat,
    rejectedReports: nat,
    reportsByType: seq<Tally<string>>)

  /**
   * `getDashboardStats`. The `$group` stage returns its groups in no
   * particular order; they are given here in order of first occurrence.
   * `distinct('createdBy')` is not filtered for null here, unlike on the
   * statistics page; the two agree because a report without an author has
   * no `createdBy` field at all (`createReport` leaves it undefined), and
   * `distinct` skips a missing field.
   */
  function GetDashboardStats(db: Db): (d: DashboardStats)
    ensures d.totalUsers == |db.users| && d.totalReports == |db.reports|
    ensures d.pendingReports == multiset(StatusesOf(db.reports))["submitted"]
    ensures d.inProgressReports == multiset(StatusesOf(db.reports))["in_review"]
    ensures d.resolvedReports == multiset(StatusesOf(db.reports))["resolved"]
    ensures d.rejectedReports == multiset(StatusesOf(db.reports))["rejected"]
    ensures d.activeUsers == |Creators(db.reports)| && d.activeUsers <= d.totalReports
    ensures DistinctKeys(d.reportsByType)
    ensures forall k :: CountIn(d.reportsByType, k) == Count(KeyedBy(db.reports, CrimeTypeOf), k)
    ensures SumBy(d.reportsByType, CountOf) == d.totalReports
  {
    CreatorsBound(db.reports);
    GroupCounts(KeyedBy(db.reports, CrimeTypeOf));
    DashboardStats(
      |db.users|,
      |db.reports|,
      |Creators(db.reports)|,
      CountWhere(db.reports, "submitted"),
      CountWhere(db.reports, "in_review"),
      CountWhere(db.reports, "resolved"),
      CountWhere(db.reports, "rejected"),
      Group(KeyedBy(db.reports, CrimeTypeOf)))
  }

  /**
   * The dashboard agrees with the statistics page on every shared counter,
   * never counts a rejected report among admitted ones, and its per-type
   * groups add up to the number of reports.
   */
  lemma DashboardConsistent(db: Db)
    requires forall i :: 0 <= i < |db.reports| ==> Valid(db.reports[i])
    ensures var d := GetDashboardStats(db); var g := GetGlobalStats(db.reports);
      && d.totalReports == g.total
      && d.pendingReports == g.pending
      && d.inProgressReports == g.inReview
      && d.resolvedReports == g.resolved
      && d.activeUsers == g.activeUsers
      && d.rejectedReports == 0
      && d.pendingReports + d.inProgressReports + d.resolvedReports == d.totalReports
      && SumBy(d.reportsByType, CountOf) == d.totalReports
  {
    StatusesPartition(db.reports);
    NoRejected(db.reports);
    GroupCounts(KeyedBy(db.reports, CrimeTypeOf));
  }

  lemma {:induction false} NoRejected(rs: seq<Report>)
    requires forall i :: 0 <= i < |rs| ==> Valid(rs[i])
    ensures CountWhere(rs, "rejected") == 0
    decreases |rs|
  {
    if |rs| > 0 {
      RejectedNotAdmitted(rs[0]);
      NoRejected(rs[1..]);
    }
  }

  // ----------------------------------------------------------- pagination

  /** The `pagination` object; `totalPages` is absent where JavaScript's division yields Infinity or NaN. */
  datatype Pagination = Pagination(total: nat, page: int, limit: int, totalPages: Option<int>)

  datatype Listing<T> = Listed(items: seq<T>, pagination: Pagination) | Failed

  /**
   * `find(query).skip((page - 1) * limit).limit(limit)` together with
   * `countDocuments(query)`. MongoDB refuses a negative skip, which the
   * handler reports as 500.
   */
  function Paginate<T>(matching: seq<T>, page: int, limit: int): (l: Listing<T>)
    ensures l.Failed? <==> (page - 1) * limit < 0
    ensures l.Listed? ==> l.pagination.total == |matching|
    ensures l.Listed? ==> l.pagination.page == page && l.pagination.limit == limit
    ensures l.Listed? ==> forall i :: 0 <= i < |l.items| ==>
      (page - 1) * limit + i < |matching| && l.items[i] == matching[(page - 1) * limit + i]
    ensures l.Listed? ==> |l.items| == PageLength(|matching|, (page - 1) * limit, limit)
    ensures l.Listed? && limit > 0 ==> |l.items| <= limit
    ensures l.Listed? && limit > 0 ==>
      && l.pagination.totalPages.Some?
      && l.pagination.totalPages.value * limit >= |matching|
      && (l.pagination.totalPages.value - 1) * limit < |matching|
    ensures l.Listed? && limit == 0 ==> l.pagination.totalPages.None? && l.items == matching
  {
    var skip := (page - 1) * limit;
    if skip < 0 then Failed
    else
      var pages := if limit == 0 then None else Some(CeilDiv(|matching|, limit));
      Listed(Page(matching, skip, limit), Pagination(|matching|, page, limit, pages))
  }

  /** The default query `page = 1, limit = 10` lists the first ten matches. */
  lemma FirstPage<T>(matching: seq<T>)
    ensures Paginate(matching, 1, 10).Listed?
    ensures Paginate(matching, 1, 10).items == matching[..Min(|matching|, 10)]
  {
    var l := Paginate(matching, 1, 10);
    assert |l.items| == Min(|matching|, 10);
  }

  /** Consecutive pages are adjacent slices: page p + 1 starts where page p ends. */
  lemma PagesAdjacent<T>(matching: seq<T>, page: int, limit: int)
    requires page >= 1 && limit > 0
    requires page * limit < |matching|
    ensures Paginate(matching, page, limit).Listed? && Paginate(matching, page + 1, limit).Listed?
    ensures |Paginate(matching, page, limit).items| == limit
    ensures Paginate(matching, page, limit).items + [matching[page * limit]]
      == matching[(page - 1) * limit..page * limit + 1]
  {
    var skip := (page - 1) * limit;
    assert skip + limit == page * limit;
    var a := Paginate(matching, page, limit).items;
    assert a == matching[skip..skip + limit];
  }

  // ----------------------------------------------------------- users

  /** The `$or` of the two case-insensitive regex constraints; `matches` applies the search pattern. */
  predicate UserMatches(u: User, matches: string -> bool) {
    matches(u.name) || matches(u.email)
  }

  /** The users a `getAllUsers` query lists: all of them for an empty search. */
  function UserQuery(search: string, matches: string -> bool): User -> bool {
    (u: User) => search == "" || UserMatches(u, matches)
  }

  /**
   * `getAllUsers`: the search constrains the listing only when it is
   * non-empty. A negative skip fails; otherwise the total counts the users
   * the query admits, a page holds the next `limit` of them, and page 1
   * without a limit lists every one.
   */
  function GetAllUsers(db: Db, page: int, limit: int, search: string, matches: string -> bool): (l: Listing<User>)
    ensures l.Failed? <==> (page - 1) * limit < 0
    ensures l.Listed? && search == "" ==> l.pagination.total == |db.users|
    ensures l.Listed? && search != "" ==> l.pagination.total == |Positions(db.users, UserQuery(search, matches))|
    ensures l.Listed? ==> |l.items| == PageLength(l.pagination.total, (page - 1) * limit, limit)
    ensures l.Listed? ==> forall i :: 0 <= i < |l.items| ==>
      && (page - 1) * limit + i < |Filter(db.users, UserQuery(search, matches))|
      && l.items[i] == Filter(db.users, UserQuery(search, matches))[(page - 1) * limit + i]
    ensures l.Listed? ==> forall i :: 0 <= i < |l.items| ==>
      l.items[i] in db.users && (search != "" ==> UserMatches(l.items[i], matches))
    ensures l.Listed? && limit > 0 ==> |l.items| <= limit
    ensures page == 1 && limit == 0 ==> l.Listed?
    ensures page == 1 && limit == 0 ==> forall i ::
      0 <= i < |db.users| && UserQuery(search, matches)(db.users[i]) ==> db.users[i] in l.items
  {
    var matching := if search == "" then db.users else Filter(db.users, UserQuery(search, matches));
    FilterCount(db.users, UserQuery(search, matches));
    FilterAll(db.users, UserQuery("", matches));
    Paginate(matching, page, limit)
  }

  /** `updateUserRole`: 404 for an unknown id, otherwise the role is set and the user saved. */
  function UpdateUserRole(db: Db, id: Id, role: Option<string>, schema: UserSchema): (c: Change)
    ensures c.status == 404 <==> FindUser(db, id).None?
    ensures c.status != 200 ==> c.db == db
    ensures c.status == 200 ==>
      c.db.reports == db.reports && c.db.comments == db.comments && c.db.notifications == db.notifications
  {
    match FindUser(db, id)
    case None => Change(404, db)
    case Some(i) =>
      var u := db.users[i].(role := role);
      if schema.admits(u) then Change(200, db.(users := db.users[i := u])) else Change(500, db)
  }

  /** A successful role change alters that one user's role and nothing else. */
  lemma UpdateUserRoleOnly(db: Db, id: Id, role: Option<string>, schema: UserSchema)
    requires UpdateUserRole(db, id, role, schema).status == 200
    ensures var users := UpdateUserRole(db, id, role, schema).db.users;
      && |users| == |db.users|
      && exists i :: 0 <= i < |users| && db.users[i].id == id
          && users[i] == db.users[i].(role := role)
          && forall j :: 0 <= j < |users| && j != i ==> users[j] == db.users[j]
  {
    var i := FindUser(db, id).value;
    var users := UpdateUserRole(db, id, role, schema).db.users;
    assert users[i] == db.users[i].(role := role);
  }

  /** A user is the author of some report. */
  predicate HasReports(db: Db, id: Id) {
    exists i :: 0 <= i < |db.reports| && db.reports[i].createdBy == Some(id)
  }

  /** `deleteUser`: 404 if absent, 400 if the user created any report, else only that user is removed. */
  function DeleteUser(db: Db, id: Id): (c: Change)
    ensures c.status == 404 <==> FindUser(db, id).None?
    ensures c.status == 400 <==> FindUser(db, id).Some? && HasReports(db, id)
    ensures c.status == 200 <==> FindUser(db, id).Some? && !HasReports(db, id)
    ensures c.status != 200 ==> c.db == db
    ensures c.status == 200 ==> c.db == db.(users := RemoveAt(db.users, FindUser(db, id).value))
  {
    match FindUser(db, id)
    case None => Change(404, db)
    case Some(i) =>
      var authored := Filter(db.reports, (r: Report) => r.createdBy == Some(db.users[i].id));
      if |authored| > 0 then
        assert authored[0] in db.reports;
        Change(400, db)
      else
        Change(200, db.(users := RemoveAt(db.users, i)))
  }

  /** A successful deletion leaves no report whose author is the removed user. */
  lemma DeleteUserNoDangling(db: Db, id: Id)
    requires DeleteUser(db, id).status == 200
    ensures forall r :: r in DeleteUser(db, id).db.reports ==> r.createdBy != Some(id)
  {
  }

  // ----------------------------------------------------------- reports

  /** The `getAllReports` query: each constraint applies only when its query value is non-empty. */
  predicate ReportMatches(r: Report, status: string, crimeType: string) {
    (status == "" || r.status == status) && (crimeType == "" || r.crimeType == crimeType)
  }

  function MatchesQuery(status: string, crimeType: string): Report -> bool {
    (r: Report) => ReportMatches(r, status, crimeType)
  }

  /**
   * `getAllReports`: a negative skip fails; otherwise the total counts the
   * matching reports, every listed report matches, and page 1 without a
   * limit lists every matching report.
   */
  function GetAllReports(db: Db, page: int, limit: int, status: string, crimeType: string): (l: Listing<Report>)
    ensures l.Failed? <==> (page - 1) * limit < 0
    ensures l.Listed? ==> l.pagination.total == |Positions(db.reports, MatchesQuery(status, crimeType))|
    ensures l.Listed? ==> forall i :: 0 <= i < |l.items| ==>
      && l.items[i] in db.reports
      && (status != "" ==> l.items[i].status == status)
      && (crimeType != "" ==> l.items[i].crimeType == crimeType)
    ensures l.Listed? ==> |l.items| == PageLength(l.pagination.total, (page - 1) * limit, limit)
    ensures l.Listed? ==> forall i :: 0 <= i < |l.items| ==>
      && (page - 1) * limit + i < |Filter(db.reports, MatchesQuery(status, crimeType))|
      && l.items[i] == Filter(db.reports, MatchesQuery(status, crimeType))[(page - 1) * limit + i]
    ensures l.Listed? && limit > 0 ==> |l.items| <= limit
    ensures page == 1 && limit == 0 ==> l.Listed?
    ensures page == 1 && limit == 0 ==> forall i ::
      0 <= i < |db.reports| && ReportMatches(db.reports[i], status, crimeType) ==> db.reports[i] in l.items
  {
    var matching := Filter(db.reports, MatchesQuery(status, crimeType));
    FilterCount(db.reports, MatchesQuery(status, crimeType));
    Paginate(matching, page, limit)
  }

  /** With both filters empty the listing pages through every report. */
  lemma GetAllReportsUnfiltered(db: Db, page: int, limit: int)
    ensures GetAllReports(db, page, limit, "", "") == Paginate(db.reports, page, limit)
  {
    FilterAll(db.reports, MatchesQuery("", ""));
  }

  const StatusTitle := "Mise à jour de votre signalement"

  function StatusMessage(crimeType: string, status: string): string {
    "Le statut de votre signalement \"" + crimeType + "\" a été mis à jour : " + status
  }

  /**
   * `updateReportStatus`: find, set the status, save (which validates and
   * refreshes `updatedAt`), then notify the author when `populate` finds one.
   */
  function UpdateReportStatus(db: Db, id: Id, status: string, now: int): (c: Change)
    ensures c.status == 404 <==> FindReport(db, id).None?
    ensures c.status != 200 ==> c.db == db
    ensures c.status == 200 ==> FindReport(db, id).Some? && status in Statuses
    ensures c.status == 200 ==> c.db.users == db.users && c.db.comments == db.comments
  {
    match FindReport(db, id)
    case None => Change(404, db)
    case Some(i) =>
      var r := db.reports[i];
      var updated := r.(status := status, updatedAt := now);
      if Check(updated).Some? then Change(500, db)
      else
        var db1 := db.(reports := db.reports[i := updated]);
        if CreatorExists(db, r) then
          match NotificationModel.Save(r.createdBy, Some(StatusTitle), Some(StatusMessage(r.crimeType, status)), now)
          case Stored(n) => Change(200, db1.(notifications := db.notifications + [n]))
          case Refused(_) => Change(500, db1)
        else Change(200, db1)
  }

  /**
   * On a valid report, a status outside the enum fails the save: 500, and
   * neither the report nor the notifications change.
   */
  lemma UpdateStatusOutsideEnum(db: Db, id: Id, status: string, now: int)
    requires FindReport(db, id).Some? && status !in Statuses
    ensures UpdateReportStatus(db, id, status, now) == Change(500, db)
  {
  }

  /**
   * On a valid report and an admitted status: 200, only that report's
   * status and `updatedAt` change, and exactly one notification is added,
   * addressed to the author, precisely when the author still exists.
   */
  lemma UpdateStatusNotifies(db: Db, id: Id, status: string, now: int)
    requires FindReport(db, id).Some? && Valid(db.reports[FindReport(db, id).value])
    requires status in Statuses
    ensures var i := FindReport(db, id).value; var r := db.reports[i]; var c := UpdateReportStatus(db, id, status, now);
      && c.status == 200
      && c.db.reports == db.reports[i := r.(status := status, updatedAt := now)]
      && (CreatorExists(db, r) ==>
            c.db.notifications == db.notifications
              + [Notification(r.createdBy.value, StatusTitle, StatusMessage(r.crimeType, status), false, now)])
      && (!CreatorExists(db, r) ==> c.db.notifications == db.notifications)
  {
    var r := db.reports[FindReport(db, id).value];
    assert Valid(r.(status := status, updatedAt := now));
  }

  /** `deleteReport`: 404 if absent; otherwise only the report goes, comments and notifications stay. */
  function DeleteReport(db: Db, id: Id): (c: Change)
    ensures c.status == 404 <==> FindReport(db, id).None?
    ensures c.status == 404 ==> c.db == db
    ensures c.status == 200 ==> c.db == db.(reports := RemoveAt(db.reports, FindReport(db, id).value))
    ensures c.status == 200 || c.status == 404
  {
    match FindReport(db, id)
    case None => Change(404, db)
    case Some(i) => Change(200, db.(reports := RemoveAt(db.reports, i)))
  }

  /** Deleting a report does not cascade: every comment, including those about it, survives. */
  lemma DeleteReportNoCascade(db: Db, id: Id)
    ensures DeleteReport(db, id).db.comments == db.comments
    ensures DeleteReport(db, id).db.notifications == db.notifications
    ensures DeleteReport(db, id).db.users == db.users
    ensures DeleteReport(db, id).status == 200 ==> |DeleteReport(db, id).db.reports| == |db.reports| - 1
  {
  }

  // ----------------------------------------------------------- messages

  /** `getMessages`: every comment, paginated. */
  function GetMessages(db: Db, page: int, limit: int): (l: Listing<Comment>)
    ensures l.Failed? <==> (page - 1) * limit < 0
    ensures l.Listed? ==> l.pagination.total == |db.comments|
    ensures l.Listed? ==> |l.items| == PageLength(|db.comments|, (page - 1) * limit, limit)
    ensures l.Listed? ==> forall i :: 0 <= i < |l.items| ==>
      (page - 1) * limit + i < |db.comments| && l.items[i] == db.comments[(page - 1) * limit + i]
    ensures l.Listed? ==> forall c :: c in l.items ==> c in db.comments
    ensures l.Listed? && limit > 0 ==> |l.items| <= limit
    ensures page == 1 && limit == 0 ==> l.Listed? && l.items == db.comments
  {
    Paginate(db.comments, page, limit)
  }

  const ReplyTitle := "Nouvelle réponse de l'administration"

  function ReplyMessage(crimeType: string): string {
    "Vous avez reçu une réponse à votre signalement \"" + crimeType + "\""
  }

  /**
   * `sendResponse` as written: the comment is built with the keys
   * `content`, `user`, `report` and `isAdminResponse`. Only `content` is a
   * path of the Comment schema, so `reportId` is missing and the save fails.
   */
  function SendResponse(db: Db, adminId: Id, reportId: Option<Id>, content: Option<string>, commentId: Id, now: int): (c: Change)
  {
    var input := CommentInput(None, None, content, Some(adminId), reportId, Some(true));
    SendWith(db, input, reportId, commentId, now)
  }

  /** The comment save, then the author notification, shared by both versions of `sendResponse`. */
  function SendWith(db: Db, input: CommentInput, reportId: Option<Id>, commentId: Id, now: int): (c: Change)
    ensures c.status == 200 <==> CommentModel.Save(input, commentId, now).Stored?
    ensures c.status != 200 ==> c.db == db
  {
    match CommentModel.Save(input, commentId, now)
    case Refused(_) => Change(500, db)
    case Stored(comment) =>
      var db1 := db.(comments := db.comments + [comment]);
      var found := if reportId.Some? then FindReport(db, reportId.value) else None;
      if found.Some? && CreatorExists(db, db.reports[found.value]) then
        var r := db.reports[found.value];
        match NotificationModel.Save(r.createdBy, Some(ReplyTitle), Some(ReplyMessage(r.crimeType)), now)
        case Stored(n) => Change(200, db1.(notifications := db.notifications + [n]))
        case Refused(_) => Change(500, db1)
      else Change(200, db1)
  }

  /** As written, every reply is refused: 500, and nothing is stored or notified. */
  lemma SendResponseAlwaysFails(db: Db, adminId: Id, reportId: Option<Id>, content: Option<string>, commentId: Id, now: int)
    ensures SendResponse(db, adminId, reportId, content, commentId, now) == Change(500, db)
  {
  }

  /** `sendResponse` with the Comment schema's own keys: `reportId` and `userId`. */
  function SendResponseIntended(db: Db, adminId: Id, reportId: Option<Id>, content: Option<string>, commentId: Id, now: int): (c: Change)
    ensures c.status == 200 <==> reportId.Some? && Present(content)
    ensures c.status != 200 ==> c.db == db
  {
    var input := CommentInput(reportId, Some(adminId), content, None, None, None);
    SendWith(db, input, reportId, commentId, now)
  }

  /**
   * The corrected reply stores exactly one comment by the admin, and
   * notifies the report's author exactly when the report and its author exist.
   */
  lemma SendResponseIntendedNotifies(db: Db, adminId: Id, reportId: Id, content: string, commentId: Id, now: int)
    requires content != ""
    ensures var c := SendResponseIntended(db, adminId, Some(reportId), Some(content), commentId, now);
      var found := FindReport(db, reportId);
      && c.status == 200
      && c.db.comments == db.comments + [Comment(commentId, reportId, Some(adminId), content, now)]
      && c.db.reports == db.reports && c.db.users == db.users
      && (found.Some? && CreatorExists(db, db.reports[found.value]) ==>
            c.db.notifications == db.notifications
              + [Notification(db.reports[found.value].createdBy.value, ReplyTitle, ReplyMessage(db.reports[found.value].crimeType), false, now)])
      && (!(found.Some? && CreatorExists(db, db.reports[found.value])) ==> c.db.notifications == db.notifications)
  {
  }
}

=== FILE: admin_login.dfy ===
/**
 * The admin login page: its credential fields and the decision it takes
 * on the login service's answer.
 */
module AdminLogin {
  import opened Wrappers
  import opened Store
  import Session
  import AuthController
  import AuthForm

  /** The page state: the credentials by input name, and the error shown. */
  datatype State = State(credentials: map<string, string>, error: string)

  const InitialState := State(map["email" := "", "password" := ""], "")

  /** `handleInputChange`: store the value under the input's name and clear the error. */
  function HandleInputChange(s: State, name: string, value: string): (r: State)
    ensures r.error == ""
    ensures r.credentials.Keys == s.credentials.Keys + {name} && r.credentials[name] == value
    ensures forall k :: k in s.credentials && k != name ==> r.credentials[k] == s.credentials[k]
  {
    State(s.credentials[name := value], "")
  }

  const AccessDenied := "Accès refusé. Vous devez être administrateur."
  const BadCredentials := "Identifiants incorrects"
  const ConnectionError := "Erreur de connexion. Vérifiez vos identifiants."
  const DashboardRoute := "/admin/dashboard"

  /** What the service call produced: the answer's body, or an exception. */
  datatype Answer = Body(data: Session.LoginData) | Threw

  /** The session afterwards, the error shown and the route taken, if any. */
  datatype Decision = Decision(store: Session.Storage, error: string, route: Option<string>)

  /**
   * `handleSubmit`: `authService.login` first stores any token; then an
   * admin goes to the dashboard, anyone else with a token is refused and
   * logged out, and no token shows the answer's message.
   */
  function HandleSubmit(store: Session.Storage, a: Answer): (d: Decision)
    ensures d.route.Some? <==> a.Body? && Truthy(a.data.token) && a.data.role == Some("admin")
    ensures d.route.Some? ==> d.route.value == DashboardRoute && d.error == "" && d.store == Session.Login(store, a.data)
    ensures a.Body? && Truthy(a.data.token) && a.data.role != Some("admin") ==>
      d.error == AccessDenied && !Session.IsAuthenticated(d.store) && d.store.user.None?
    ensures a.Body? && !Truthy(a.data.token) ==>
      d.store == store && d.error == (if Truthy(a.data.message) then a.data.message.value else BadCredentials)
    ensures a.Threw? ==> d == Decision(store, ConnectionError, None)
  {
    match a
    case Threw => Decision(store, ConnectionError, None)
    case Body(data) =>
      var stored := Session.Login(store, data);
      if Truthy(data.token) && data.role == Some("admin") then Decision(stored, "", Some(DashboardRoute))
      else if Truthy(data.token) then Decision(Session.Logout(stored), AccessDenied, None)
      else Decision(stored, if Truthy(data.message) then data.message.value else BadCredentials, None)
  }

  /**
   * Against the backend's login, which sends no role, the dashboard is
   * never reached: correct credentials end logged out with the
   * access-denied error, and wrong ones show the backend's message.
   */
  lemma DashboardUnreachable(store: Session.Storage, db: Db, email: Option<string>, password: Option<string>,
                             compare: (string, string) -> bool, sign: string -> string)
    ensures var reply := AuthController.Login(db, email, password, compare, sign);
      HandleSubmit(store, Body(AuthForm.LoginBody(reply))).route.None?
    ensures var reply := AuthController.Login(db, email, password, compare, sign);
      reply.LoggedIn? && reply.token != "" ==>
        HandleSubmit(store, Body(AuthForm.LoginBody(reply))) == Decision(Session.EmptyStorage, AccessDenied, None)
    ensures var reply := AuthController.Login(db, email, password, compare, sign);
      reply.LoginRefused? ==>
        HandleSubmit(store, Body(AuthForm.LoginBody(reply))) == Decision(store, reply.message, None)
  {
  }
}

=== FILE: admin_middleware.dfy ===
/** `verifyAdmin`: a second role check with the same decisions as `adminMiddleware`. */
module AdminMiddleware {
  import opened Wrappers
  import opened Store
  import opened RoleMiddleware

  /** `verifyAdmin`, with its own messages. */
  function VerifyAdmin(user: Option<User>): (d: Decision)
    ensures d.Pass? <==> IsAdmin(user)
    ensures user.None? ==> d == Deny(401, "Utilisateur non authentifié")
    ensures user.Some? && !IsAdmin(user) ==> d == Deny(403, "Accès refusé, rôle admin requis")
  {
    RoleCheck(user, "Utilisateur non authentifié", "Accès refusé, rôle admin requis")
  }

  /** The two role checks take the same decision on every input and differ only in their messages. */
  lemma SameDecisions(user: Option<User>)
    ensures VerifyAdmin(user).Pass? <==> AdminMiddleware(user).Pass?
    ensures VerifyAdmin(user).Deny? ==> VerifyAdmin(user).status == AdminMiddleware(user).status
    ensures VerifyAdmin(user).Deny? ==> VerifyAdmin(user).message != AdminMiddleware(user).message
  {
  }
}

=== FILE: aggregate.dfy ===
/**
 * The aggregation-pipeline stages the statistics use, as folds over a
 * sequence: `$group` with a `$sum: 1` counter and a conditional "resolved"
 * counter, `$sort` on an integer rank, and `$limit`.
 */
module Aggregate {

  /** One `$group` output document: the key, how many items, how many resolved. */
  datatype Tally<K> = Tally(key: K, count: nat, resolved: nat)

  /** Number of items with key `k` (folded from the right end). */
  function Count<K(==)>(items: seq<(K, bool)>, k: K): nat
    decreases |items|
  {
    if |items| == 0 then 0
    else Count(items[..|items| - 1], k) + (if items[|items| - 1].0 == k then 1 else 0)
  }

  /** Number of items with key `k` whose flag is set. */
  function CountResolved<K(==)>(items: seq<(K, bool)>, k: K): nat
    decreases |items|
  {
    if |items| == 0 then 0
    else
      var last := items[|items| - 1];
      CountResolved(items[..|items| - 1], k) + (if last.0 == k && last.1 then 1 else 0)
  }

  /** No key occurs twice. */
  predicate DistinctKeys<K(==)>(g: seq<Tally<K>>) {
    forall i, j :: 0 <= i < j < |g| ==> g[i].key != g[j].key
  }

  predicate HasKey<K(==)>(g: seq<Tally<K>>, k: K) {
    exists i :: 0 <= i < |g| && g[i].key == k
  }

  /** Every tally counted something, and never more resolved than counted. */
  predicate WellFormed<K(==)>(g: seq<Tally<K>>) {
    forall i :: 0 <= i < |g| ==> 1 <= g[i].count && g[i].resolved <= g[i].count
  }

  /** Sum of the counts of tallies with key `k`. */
  function CountIn<K(==)>(g: seq<Tally<K>>, k: K): nat
    decreases |g|
  {
    if |g| == 0 then 0 else (if g[0].key == k then g[0].count else 0) + CountIn(g[1..], k)
  }

  function ResolvedIn<K(==)>(g: seq<Tally<K>>, k: K): nat
    decreases |g|
  {
    if |g| == 0 then 0 else (if g[0].key == k then g[0].resolved else 0) + ResolvedIn(g[1..], k)
  }

  /** Sum of a weight over a sequence. */
  function SumBy<T>(s: seq<T>, w: T -> int): int
    decreases |s|
  {
    if |s| == 0 then 0 else w(s[0]) + SumBy(s[1..], w)
  }

  function CountOf<K(==)>(t: Tally<K>): int { t.count }

  /** Add one item to the running groups: bump its key's tally, or open a new one at the end. */
  function Bump<K(==)>(acc: seq<Tally<K>>, item: (K, bool)): seq<Tally<K>>
    decreases |acc|
  {
    if |acc| == 0 then [Tally(item.0, 1, if item.1 then 1 else 0)]
    else if acc[0].key == item.0 then
      [acc[0].(count := acc[0].count + 1, resolved := acc[0].resolved + (if item.1 then 1 else 0))] + acc[1..]
    else [acc[0]] + Bump(acc[1..], item)
  }

  /** `$group` over the whole sequence, keys in first-occurrence order. */
  function Group<K(==)>(items: seq<(K, bool)>): seq<Tally<K>>
    decreases |items|
  {
    if |items| == 0 then [] else Bump(Group(items[..|items| - 1]), items[|items| - 1])
  }

  lemma {:induction false} BumpCounts<K>(acc: seq<Tally<K>>, item: (K, bool), k: K)
    ensures CountIn(Bump(acc, item), k) == CountIn(acc, k) + (if item.0 == k then 1 else 0)
    ensures ResolvedIn(Bump(acc, item), k) == ResolvedIn(acc, k) + (if item.0 == k && item.1 then 1 else 0)
    decreases |acc|
  {
    if |acc| > 0 && acc[0].key != item.0 {
      BumpCounts(acc[1..], item, k);
      assert Bump(acc, item)[1..] == Bump(acc[1..], item);
    } else if |acc| > 0 {
      assert Bump(acc, item)[1..] == acc[1..];
    }
  }

  lemma {:induction false} BumpSum<K>(acc: seq<Tally<K>>, item: (K, bool))
    ensures SumBy(Bump(acc, item), CountOf) == SumBy(acc, CountOf) + 1
    decreases |acc|
  {
    if |acc| > 0 && acc[0].key != item.0 {
      BumpSum(acc[1..], item);
      assert Bump(acc, item)[1..] == Bump(acc[1..], item);
    } else if |acc| > 0 {
      assert Bump(acc, item)[1..] == acc[1..];
    }
  }

  lemma {:induction false} BumpWellFormed<K>(acc: seq<Tally<K>>, item: (K, bool))
    requires WellFormed(acc)
    ensures WellFormed(Bump(acc, item))
    decreases |acc|
  {
    if |acc| > 0 && acc[0].key != item.0 {
      BumpWellFormed(acc[1..], item);
      assert Bump(acc, item) == [acc[0]] + Bump(acc[1..], item);
    }
  }

  /** Every tally after a bump carries the item's key or was already there. */
  lemma {:induction false} BumpKeys<K>(acc: seq<Tally<K>>, item: (K, bool))
    ensures forall t :: t in Bump(acc, item) ==> t.key == item.0 || t in acc
    decreases |acc|
  {
    var b := Bump(acc, item);
    if |acc| == 0 {
    } else if acc[0].key == item.0 {
      assert b == [b[0]] + acc[1..];
    } else {
      var rest := acc[1..];
      BumpKeys(rest, item);
      assert b == [acc[0]] + Bump(rest, item);
      assert forall t :: t in rest ==> t in acc;
    }
  }

  lemma {:induction false} BumpDistinct<K>(acc: seq<Tally<K>>, item: (K, bool))
    requires DistinctKeys(acc)
    ensures DistinctKeys(Bump(acc, item))
    decreases |acc|
  {
    if |acc| > 0 && acc[0].key != item.0 {
      var rest := acc[1..];
      var br := Bump(rest, item);
      BumpDistinct(rest, item);
      BumpKeys(rest, item);
      var b := Bump(acc, item);
      assert b == [acc[0]] + br;
      forall i, j | 0 <= i < j < |b|
        ensures b[i].key != b[j].key
      {
        if i == 0 {
          var t := br[j - 1];
          assert t in br;
          if t in rest {
            var m :| 0 <= m < |rest| && rest[m] == t;
            assert acc[m + 1] == t;
          }
        }
      }
    } else if |acc| > 0 {
      assert Bump(acc, item)[1..] == acc[1..];
    }
  }

  /** What `$group` computes: each key's tally counts exactly its items. */
  lemma {:induction false} GroupCounts<K>(items: seq<(K, bool)>)
    ensures DistinctKeys(Group(items)) && WellFormed(Group(items))
    ensures SumBy(Group(items), CountOf) == |items|
    ensures forall k :: CountIn(Group(items), k) == Count(items, k)
    ensures forall k :: ResolvedIn(Group(items), k) == CountResolved(items, k)
    ensures forall k :: HasKey(Group(items), k) <==> Count(items, k) > 0
    decreases |items|
  {
    if |items| > 0 {
      var init := items[..|items| - 1];
      var last := items[|items| - 1];
      GroupCounts(init);
      BumpSum(Group(init), last);
      BumpWellFormed(Group(init), last);
      BumpKeys(Group(init), last);
      BumpDistinct(Group(init), last);
      forall k
        ensures CountIn(Group(items), k) == Count(items, k)
        ensures ResolvedIn(Group(items), k) == CountResolved(items, k)
      {
        BumpCounts(Group(init), last, k);
      }
      var g := Group(items);
      forall k
        ensures HasKey(g, k) <==> Count(items, k) > 0
      {
        if HasKey(g, k) {
          var i :| 0 <= i < |g| && g[i].key == k;
          TallyCount(g, i);
        }
        if Count(items, k) > 0 {
          NonZeroHasKey(g, k);
        }
      }
    }
  }

  /** In a duplicate-free group list, a tally's count is its key's `CountIn`. */
  lemma {:induction false} TallyCount<K>(g: seq<Tally<K>>, i: nat)
    requires DistinctKeys(g) && i < |g|
    ensures CountIn(g, g[i].key) == g[i].count
    ensures ResolvedIn(g, g[i].key) == g[i].resolved
    decreases |g|
  {
    if i == 0 {
      AbsentKey(g[1..], g[0].key);
    } else {
      TallyCount(g[1..], i - 1);
    }
  }

  lemma {:induction false} AbsentKey<K>(g: seq<Tally<K>>, k: K)
    requires forall i :: 0 <= i < |g| ==> g[i].key != k
    ensures CountIn(g, k) == 0 && ResolvedIn(g, k) == 0
    decreases |g|
  {
    if |g| > 0 {
      AbsentKey(g[1..], k);
    }
  }

  lemma NonZeroHasKey<K>(g: seq<Tally<K>>, k: K)
    requires CountIn(g, k) > 0
    ensures HasKey(g, k)
  {
    if !HasKey(g, k) {
      AbsentKey(g, k);
    }
  }

  /** Each tally of `Group(items)` records the exact count of its key. */
  lemma GroupTally<K>(items: seq<(K, bool)>, t: Tally<K>)
    requires t in Group(items)
    ensures t.count == Count(items, t.key) && t.resolved == CountResolved(items, t.key)
    ensures 1 <= t.count && t.resolved <= t.count
  {
    GroupCounts(items);
    var i :| 0 <= i < |Group(items)| && Group(items)[i] == t;
    TallyCount(Group(items), i);
  }

  // ---------------------------------------------------------------- sorting

  /** Ascending in the rank `f`. */
  predicate SortedBy<T>(s: seq<T>, f: T -> int) {
    forall i, j :: 0 <= i < j < |s| ==> f(s[i]) <= f(s[j])
  }

  function Insert<T>(x: T, s: seq<T>, f: T -> int): seq<T>
    decreases |s|
  {
    if |s| == 0 then [x]
    else if f(x) <= f(s[0]) then [x] + s
    else [s[0]] + Insert(x, s[1..], f)
  }

  /** A property of `x` and of every element of `s` holds of every element after insertion. */
  lemma {:induction false} InsertAll<T>(x: T, s: seq<T>, f: T -> int, p: T -> bool)
    requires p(x) && forall k :: 0 <= k < |s| ==> p(s[k])
    ensures forall k :: 0 <= k < |Insert(x, s, f)| ==> p(Insert(x, s, f)[k])
    decreases |s|
  {
    if |s| > 0 && f(x) > f(s[0]) {
      InsertAll(x, s[1..], f, p);
    }
  }

  /** Insertion adds exactly `x`. */
  lemma {:induction false} InsertPerm<T>(x: T, s: seq<T>, f: T -> int)
    ensures multiset(Insert(x, s, f)) == multiset(s) + multiset{x}
    decreases |s|
  {
    if |s| > 0 && f(x) > f(s[0]) {
      InsertPerm(x, s[1..], f);
      assert s == [s[0]] + s[1..];
    }
  }

  function AtLeast<T>(b: int, f: T -> int): T -> bool {
    (y: T) => b <= f(y)
  }

  /** Inserting into a sorted sequence keeps it sorted and adds exactly `x`. */
  lemma {:induction false} InsertSorted<T>(x: T, s: seq<T>, f: T -> int)
    requires SortedBy(s, f)
    ensures SortedBy(Insert(x, s, f), f)
    ensures multiset(Insert(x, s, f)) == multiset(s) + multiset{x}
    decreases |s|
  {
    InsertPerm(x, s, f);
    var r := Insert(x, s, f);
    if |s| == 0 {
    } else if f(x) <= f(s[0]) {
      forall i, j | 0 <= i < j < |r|
        ensures f(r[i]) <= f(r[j])
      {
        if i == 0 && j > 1 {
          assert f(s[0]) <= f(s[j - 1]);
        }
      }
    } else {
      var rest := Insert(x, s[1..], f);
      InsertSorted(x, s[1..], f);
      InsertAll(x, s[1..], f, AtLeast(f(s[0]), f));
      assert r == [s[0]] + rest;
      forall i, j | 0 <= i < j < |r|
        ensures f(r[i]) <= f(r[j])
      {
        if i == 0 {
          assert AtLeast(f(s[0]), f)(rest[j - 1]);
        } else {
          assert r[i] == rest[i - 1] && r[j] == rest[j - 1];
        }
      }
    }
  }

  /** `$sort` on an integer rank (insertion sort). */
  function SortBy<T>(s: seq<T>, f: T -> int): (r: seq<T>)
    ensures SortedBy(r, f)
    ensures multiset(r) == multiset(s)
    ensures |r| == |s|
    decreases |s|
  {
    if |s| == 0 then []
    else
      var sorted := SortBy(s[1..], f);
      InsertSorted(s[0], sorted, f);
      assert s == [s[0]] + s[1..];
      Insert(s[0], sorted, f)
  }

  lemma {:induction false} InsertSum<T>(x: T, s: seq<T>, f: T -> int, w: T -> int)
    requires SortedBy(s, f)
    ensures SumBy(Insert(x, s, f), w) == w(x) + SumBy(s, w)
    decreases |s|
  {
    if |s| > 0 && f(x) > f(s[0]) {
      InsertSum(x, s[1..], f, w);
    } else if |s| > 0 {
      assert ([x] + s)[1..] == s;
    }
  }

  lemma {:induction false} SortSum<T>(s: seq<T>, f: T -> int, w: T -> int)
    ensures SumBy(SortBy(s, f), w) == SumBy(s, w)
    decreases |s|
  {
    if |s| > 0 {
      SortSum(s[1..], f, w);
      InsertSum(s[0], SortBy(s[1..], f), f, w);
    }
  }

  function KeyIsNot<K(==)>(k: K): Tally<K> -> bool {
    (y: Tally<K>) => y.key != k
  }

  lemma {:induction false} InsertDistinct<K>(x: Tally<K>, s: seq<Tally<K>>, f: Tally<K> -> int)
    requires DistinctKeys(s)
    requires forall y :: y in s ==> y.key != x.key
    ensures DistinctKeys(Insert(x, s, f))
    decreases |s|
  {
    var r := Insert(x, s, f);
    if |s| == 0 {
    } else if f(x) <= f(s[0]) {
      forall i, j | 0 <= i < j < |r|
        ensures r[i].key != r[j].key
      {
        if i == 0 {
          assert r[j] in s;
        }
      }
    } else {
      var rest := Insert(x, s[1..], f);
      assert forall y :: y in s[1..] ==> y in s;
      InsertDistinct(x, s[1..], f);
      assert forall k :: 0 <= k < |s[1..]| ==> s[1..][k] == s[k + 1];
      InsertAll(x, s[1..], f, KeyIsNot(s[0].key));
      assert r == [s[0]] + rest;
      forall i, j | 0 <= i < j < |r|
        ensures r[i].key != r[j].key
      {
        if i == 0 {
          assert KeyIsNot(s[0].key)(rest[j - 1]);
        } else {
          assert r[i] == rest[i - 1] && r[j] == rest[j - 1];
        }
      }
    }
  }

  /** Sorting a duplicate-free group list keeps it duplicate-free. */
  lemma {:induction false} SortDistinct<K>(g: seq<Tally<K>>, f: Tally<K> -> int)
    requires DistinctKeys(g)
    ensures DistinctKeys(SortBy(g, f))
    decreases |g|
  {
    if |g| > 0 {
      var tail := g[1..];
      SortDistinct(tail, f);
      forall y | y in SortBy(tail, f)
        ensures y.key != g[0].key
      {
        assert y in multiset(SortBy(tail, f));
        assert y in multiset(tail);
        var m :| 0 <= m < |tail| && tail[m] == y;
        assert g[m + 1] == y;
      }
      InsertDistinct(g[0], SortBy(tail, f), f);
    }
  }

  /** `$limit`: the first `n` entries, or all of them when there are fewer. */
  function Take<T>(s: seq<T>, n: nat): (r: seq<T>)
    ensures |r| <= n && |r| <= |s|
    ensures r == s[..|r|]
    ensures |s| <= n ==> r == s
  {
    if |s| <= n then s else s[..n]
  }
}

=== FILE: auth_controller.dfy ===
/**
 * The authentication controller: `register` and `login` over the users
 * collection. bcrypt's `hash` and `compare` and `jwt.sign` are taken as
 * uninterpreted functions.
 */
module AuthController {
  import opened Wrappers
  import opened Seqs
  import opened ReportModel
  import opened Store

  /** The status, the database afterwards and, on 201, the new user's id. */
  datatype Registration = Registration(status: nat, db: Db, userId: Option<Id>)

  /** `register`: all three fields required, email unused, password stored hashed. */
  function Register(db: Db, name: Option<string>, email: Option<string>, password: Option<string>,
                    hash: string -> string, newId: Id, schema: UserSchema): (r: Registration)
    ensures r.status in {201, 400, 500}
    ensures r.status == 400 <==>
      !Truthy(name) || !Truthy(email) || !Truthy(password) || FindByEmail(db, email.value).Some?
    ensures r.status != 201 ==> r.db == db && r.userId.None?
    ensures r.status == 201 ==>
      && r.userId == Some(newId)
      && r.db == db.(users := db.users + [User(newId, name.value, email.value, hash(password.value), schema.defaultRole)])
  {
    if !Truthy(name) || !Truthy(email) || !Truthy(password) then Registration(400, db, None)
    else if FindByEmail(db, email.value).Some? then Registration(400, db, None)
    else
      var u := User(newId, name.value, email.value, hash(password.value), schema.defaultRole);
      if schema.admits(u) then Registration(201, db.(users := db.users + [u]), Some(newId))
      else Registration(500, db, None)
  }

  /** Registration never introduces a second user with an email already in use. */
  lemma RegisterKeepsEmailsDistinct(db: Db, name: Option<string>, email: Option<string>, password: Option<string>,
                                    hash: string -> string, newId: Id, schema: UserSchema)
    requires EmailsDistinct(db.users)
    ensures EmailsDistinct(Register(db, name, email, password, hash, newId, schema).db.users)
  {
    var r := Register(db, name, email, password, hash, newId, schema);
    if r.status == 201 {
      var users := r.db.users;
      forall i, j | 0 <= i < j < |users|
        ensures users[i].email != users[j].email
      {
        if j == |users| - 1 {
          assert users[i] == db.users[i];
        }
      }
    }
  }

  /** What a successful login sends back; there is no `role` in it. */
  datatype LoginReply = LoggedIn(token: string, userId: Id, name: string, email: string) | LoginRefused(status: nat, message: string)

  /** `login`: both fields required, the first user with that email, and a matching password. */
  function Login(db: Db, email: Option<string>, password: Option<string>,
                 compare: (string, string) -> bool, sign: Id -> string): (r: LoginReply)
    ensures r.LoginRefused? ==> r.status == 400
    ensures r.LoggedIn? <==>
      && Truthy(email) && Truthy(password)
      && FindByEmail(db, email.value).Some?
      && compare(password.value, db.users[FindByEmail(db, email.value).value].password)
    ensures r.LoggedIn? ==>
      var u := db.users[FindByEmail(db, email.value).value];
      r == LoggedIn(sign(u.id), u.id, u.name, u.email)
  {
    if !Truthy(email) || !Truthy(password) then LoginRefused(400, "Email et mot de passe requis")
    else
      match FindByEmail(db, email.value)
      case None => LoginRefused(400, "Utilisateur non trouvé")
      case Some(i) =>
        var u := db.users[i];
        if !compare(password.value, u.password) then LoginRefused(400, "Mot de passe incorrect")
        else LoggedIn(sign(u.id), u.id, u.name, u.email)
  }

  /** When bcrypt's compare accepts a password against its own hash, a fresh registration can log in at once. */
  lemma RegisterThenLogin(db: Db, name: string, email: string, password: string,
                          hash: string -> string, compare: (string, string) -> bool, sign: Id -> string,
                          newId: Id, schema: UserSchema)
    requires compare(password, hash(password))
    requires Register(db, Some(name), Some(email), Some(password), hash, newId, schema).status == 201
    ensures var db1 := Register(db, Some(name), Some(email), Some(password), hash, newId, schema).db;
      Login(db1, Some(email), Some(password), compare, sign) == LoggedIn(sign(newId), newId, name, email)
  {
    var db1 := Register(db, Some(name), Some(email), Some(password), hash, newId, schema).db;
    assert FindByEmail(db, email).None?;
    assert db1.users[|db.users|].email == email;
    var k := FindByEmail(db1, email);
    assert k.Some?;
  }

  /** With unique emails, a password that the account's hash rejects is refused with its own message. */
  lemma WrongPasswordRefused(db: Db, email: string, password: string,
                             compare: (string, string) -> bool, sign: Id -> string, i: nat)
    requires EmailsDistinct(db.users)
    requires email != "" && password != ""
    requires i < |db.users| && db.users[i].email == email
    requires !compare(password, db.users[i].password)
    ensures Login(db, Some(email), Some(password), compare, sign) == LoginRefused(400, "Mot de passe incorrect")
  {
    var k := FindByEmail(db, email);
    assert k.Some?;
    assert k.value == i;
  }
}

=== FILE: auth_form.dfy ===
/**
 * The login and registration form (`AuthForm`): the two zod schemas, and
 * what the form does with the service's answer. Email syntax is an
 * uninterpreted predicate.
 */
module AuthForm {
  import opened Wrappers
  import opened Store
  import Session
  import AuthController

  /** A schema violation: the field it is reported on and its message. */
  datatype FieldError = FieldError(field: string, message: string)

  const MinPassword := 8
  const MinName := 2

  /** `loginSchema`: a valid email and a password of at least eight characters. */
  function LoginErrors(email: string, password: string, isEmail: string -> bool): (es: seq<FieldError>)
    ensures es == [] <==> isEmail(email) && |password| >= MinPassword
    ensures FieldError("email", "Email invalide") in es <==> !isEmail(email)
    ensures FieldError("password", "Minimum 8 caractères") in es <==> |password| < MinPassword
  {
    (if isEmail(email) then [] else [FieldError("email", "Email invalide")])
    + (if |password| >= MinPassword then [] else [FieldError("password", "Minimum 8 caractères")])
  }

  datatype RegisterInput = RegisterInput(
    firstName: string, lastName: string, email: string,
    password: string, confirmPassword: string, acceptTerms: bool)

  const ConfirmMismatch := FieldError("confirmPassword", "Les mots de passe ne correspondent pas")
  const TermsRefused := FieldError("acceptTerms", "Vous devez accepter les conditions")

  /** One zod rule: no error when it holds, its one error otherwise. */
  function Rule(holds: bool, e: FieldError): seq<FieldError> {
    if holds then [] else [e]
  }

  /** The per-field rules of `registerSchema`, in declaration order. */
  function FieldRules(d: RegisterInput, isEmail: string -> bool): (es: seq<FieldError>)
    ensures es == [] <==>
      |d.firstName| >= MinName && |d.lastName| >= MinName && isEmail(d.email)
      && |d.password| >= MinPassword && d.acceptTerms
    ensures TermsRefused in es <==> !d.acceptTerms
    ensures ConfirmMismatch !in es
  {
    var names := Rule(|d.firstName| >= MinName, FieldError("first_name", "Prénom requis"))
      + Rule(|d.lastName| >= MinName, FieldError("last_name", "Nom requis"));
    var secrets := Rule(isEmail(d.email), FieldError("email", "Email invalide"))
      + Rule(|d.password| >= MinPassword, FieldError("password", "Minimum 8 caractères"));
    assert forall e :: e in names + secrets ==> e.field != "acceptTerms" && e.field != "confirmPassword";
    names + secrets + Rule(d.acceptTerms, TermsRefused)
  }

  /**
   * `registerSchema`: field checks in declaration order, then the
   * password confirmation, which zod still runs when a field check failed.
   */
  function RegisterErrors(d: RegisterInput, isEmail: string -> bool): (es: seq<FieldError>)
    ensures es == [] <==>
      && |d.firstName| >= MinName && |d.lastName| >= MinName && isEmail(d.email)
      && |d.password| >= MinPassword && d.acceptTerms && d.password == d.confirmPassword
    ensures ConfirmMismatch in es <==> d.password != d.confirmPassword
    ensures TermsRefused in es <==> !d.acceptTerms
  {
    FieldRules(d, isEmail) + Rule(d.password == d.confirmPassword, ConfirmMismatch)
  }

  /** The form's visible result: an error message, or a route to navigate to. */
  datatype Outcome = Error(message: string) | Navigate(route: string)

  const LoginFailed := "Email ou mot de passe incorrect"
  const RegisterFailed := "Impossible de créer le compte"

  /** `handleLoginSubmit` after `authService.login` has stored (or not) the session. */
  function HandleLogin(data: Session.LoginData): (o: Outcome)
    ensures o.Error? <==> !Truthy(data.token)
    ensures o.Error? ==> o.message == LoginFailed
    ensures o == Navigate("/admin") <==> Truthy(data.token) && data.role == Some("admin")
    ensures o == Navigate("/welcom") <==> Truthy(data.token) && data.role != Some("admin")
  {
    if !Truthy(data.token) then Error(LoginFailed)
    else if data.role == Some("admin") then Navigate("/admin")
    else Navigate("/welcom")
  }

  /** The name the registration sends: first and last name with one space between. */
  function FullName(first: string, last: string): (n: string)
    ensures |n| == |first| + |last| + 1 && n[|first|] == ' '
    ensures n[..|first|] == first && n[|first| + 1..] == last
  {
    first + " " + last
  }

  /** `handleRegisterSubmit` given the `userId` of the service's answer. */
  function HandleRegister(userId: Option<string>): (o: Outcome)
    ensures o == Navigate("/login") <==> Truthy(userId)
    ensures o == Error(RegisterFailed) <==> !Truthy(userId)
  {
    if Truthy(userId) then Navigate("/login") else Error(RegisterFailed)
  }

  /** The JSON body of the login endpoint's answer, as the front end reads it. */
  function LoginBody(r: AuthController.LoginReply): (d: Session.LoginData)
    ensures d.role.None?
    ensures r.LoggedIn? ==> d.token == Some(r.token) && d.userId == Some(r.userId)
    ensures r.LoginRefused? ==> d.token.None? && d.message == Some(r.message)
  {
    match r
    case LoggedIn(token, userId, name, email) =>
      Session.LoginData(Some(token), Some(userId), Some(name), Some(email), None, None)
    case LoginRefused(_, message) =>
      Session.LoginData(None, None, None, None, None, Some(message))
  }

  /**
   * The login endpoint never sends a role, so the admin redirect is
   * unreachable: a successful login always lands on /welcom.
   */
  lemma LoginNeverAdmin(db: Db, email: Option<string>, password: Option<string>,
                        compare: (string, string) -> bool, sign: string -> string)
    ensures var reply := AuthController.Login(db, email, password, compare, sign);
      HandleLogin(LoginBody(reply)) != Navigate("/admin")
    ensures var reply := AuthController.Login(db, email, password, compare, sign);
      reply.LoggedIn? && reply.token != "" ==> HandleLogin(LoginBody(reply)) == Navigate("/welcom")
    ensures var reply := AuthController.Login(db, email, password, compare, sign);
      reply.LoginRefused? ==> HandleLogin(LoginBody(reply)) == Error(LoginFailed)
  {
  }

  /** A login the backend refuses leaves the stored session as it was. */
  lemma RefusedLoginKeepsSession(store: Session.Storage, r: AuthController.LoginReply)
    requires r.LoginRefused?
    ensures Session.Login(store, LoginBody(r)) == store
  {
  }

  /** The form's registration reaches /login exactly when the backend created the account. */
  lemma RegisterRedirects(db: Db, d: RegisterInput, hash: string -> string, newId: string, schema: UserSchema)
    requires newId != ""
    ensures var reg := AuthController.Register(db, Some(FullName(d.firstName, d.lastName)), Some(d.email), Some(d.password), hash, newId, schema);
      HandleRegister(reg.userId) == (if reg.status == 201 then Navigate("/login") else Error(RegisterFailed))
  {
  }
}

=== FILE: auth_middleware.dfy ===
/**
 * The token middlewares: the token is the `Authorization` header with its
 * first "Bearer " removed; `jwt.verify` is an uninterpreted function that
 * yields the token's user id or fails.
 */
module AuthMiddleware {
  import opened Wrappers
  import opened Text
  import opened ReportModel
  import opened Store

  const BearerPrefix := "Bearer "

  /** `req.header('Authorization')?.replace('Bearer ', '')`. */
  function Token(header: Option<string>): (t: Option<string>)
    ensures t.Some? <==> header.Some?
  {
    match header
    case None => None
    case Some(h) => Some(ReplaceFirst(h, BearerPrefix, ""))
  }

  /** A header built as "Bearer " + t yields exactly t. */
  lemma TokenOfBearer(t: string)
    ensures Token(Some(BearerPrefix + t)) == Some(t)
  {
    ReplaceLeading(BearerPrefix, t, "");
    assert "" + t == t;
  }

  /** A header without "Bearer " anywhere is taken whole as the token. */
  lemma TokenWithoutBearer(h: string)
    requires forall i :: !OccursAt(h, BearerPrefix, i)
    ensures Token(Some(h)) == Some(h)
  {
  }

  /** The outcome of a middleware: continue with the user attached (if any), or answer with an error. */
  datatype Gate = Next(user: Option<User>) | Reject(status: nat, message: string)

  /** The user a token designates, when the token verifies and that user exists. */
  function Resolve(db: Db, token: string, verify: string -> Option<Id>): (u: Option<User>)
    ensures u.Some? <==> verify(token).Some? && FindUser(db, verify(token).value).Some?
    ensures u.Some? ==> u.value in db.users && u.value.id == verify(token).value
  {
    match verify(token)
    case None => None
    case Some(id) =>
      match FindUser(db, id)
      case None => None
      case Some(i) => Some(db.users[i])
  }

  /** `authMiddleware`: 401 unless the token is present, verifies and names an existing user. */
  function Authenticate(db: Db, header: Option<string>, verify: string -> Option<Id>): (g: Gate)
    ensures g.Reject? ==> g.status == 401
    ensures g.Next? <==> Truthy(Token(header)) && Resolve(db, Token(header).value, verify).Some?
    ensures g.Next? ==> g.user == Resolve(db, Token(header).value, verify) && g.user.Some?
  {
    var token := Token(header);
    if !Truthy(token) then Reject(401, "Token manquant, authentification requise")
    else
      match verify(token.value)
      case None => Reject(401, "Token invalide")
      case Some(id) =>
        match FindUser(db, id)
        case None => Reject(401, "Utilisateur non trouvé")
        case Some(i) => Next(Some(db.users[i]))
  }

  /** `authOptionalMiddleware`: never rejects; a bad or missing token only means no user. */
  function AuthenticateOptional(db: Db, header: Option<string>, verify: string -> Option<Id>): (g: Gate)
    ensures g.Next?
  {
    var token := Token(header);
    if !Truthy(token) then Next(None)
    else
      match verify(token.value)
      case None => Next(None)
      case Some(id) =>
        match FindUser(db, id)
        case None => Next(None)
        case Some(i) => Next(Some(db.users[i]))
  }

  /**
   * The two middlewares agree: where the strict one lets a user through,
   * the optional one attaches the same user; where it rejects, the optional
   * one continues anonymously.
   */
  lemma OptionalAgreesWithStrict(db: Db, header: Option<string>, verify: string -> Option<Id>)
    ensures Authenticate(db, header, verify).Next? ==>
      AuthenticateOptional(db, header, verify) == Authenticate(db, header, verify)
    ensures Authenticate(db, header, verify).Reject? ==>
      AuthenticateOptional(db, header, verify) == Next(None)
  {
  }

  /** A valid token for an existing user attaches that user, through either middleware. */
  lemma ValidTokenAttaches(db: Db, t: string, verify: string -> Option<Id>, i: nat)
    requires t != "" && i < |db.users|
    requires verify(t) == Some(db.users[i].id)
    requires forall j :: 0 <= j < i ==> db.users[j].id != db.users[i].id
    ensures Authenticate(db, Some(BearerPrefix + t), verify) == Next(Some(db.users[i]))
    ensures AuthenticateOptional(db, Some(BearerPrefix + t), verify) == Next(Some(db.users[i]))
  {
    TokenOfBearer(t);
    FirstMatch(db, db.users[i].id, i);
  }

  lemma FirstMatch(db: Db, id: Id, i: nat)
    requires i < |db.users| && db.users[i].id == id
    ensures FindUser(db, id).Some? && FindUser(db, id).value <= i
  {
  }
}

=== FILE: comment_model.dfy ===
/**
 * The Comment schema: `reportId` and `content` are required, `userId` is
 * optional, `createdAt` defaults to the creation time. The schema has no
 * `user`, `report` or `isAdminResponse` path, so strict mode drops such keys.
 */
module CommentModel {
  import opened Wrappers
  import opened ReportModel

  /** A persisted comment. */
  datatype Comment = Comment(id: Id, reportId: Id, userId: Option<Id>, content: string, createdAt: int)

  /**
   * The keys a caller passes to `new Comment({...})`. Only the schema's own
   * paths survive; the other three are listed to show they are discarded.
   */
  datatype CommentInput = CommentInput(
    reportId: Option<Id>,
    userId: Option<Id>,
    content: Option<string>,
    user: Option<Id>,
    report: Option<Id>,
    isAdminResponse: Option<bool>)

  datatype Saved = Stored(comment: Comment) | Refused(error: ValidationError)

  /** `comment.save()`: required paths checked, unknown keys ignored. */
  function Save(input: CommentInput, id: Id, now: int): (s: Saved)
    ensures s.Stored? <==> input.reportId.Some? && Present(input.content)
    ensures s.Stored? ==> s.comment == Comment(id, input.reportId.value, input.userId, input.content.value, now)
  {
    if input.reportId.None? then Refused(Missing("reportId"))
    else if !Present(input.content) then Refused(Missing("content"))
    else Stored(Comment(id, input.reportId.value, input.userId, input.content.value, now))
  }

  /** The keys outside the schema never influence whether a comment is stored. */
  lemma UnknownKeysIgnored(input: CommentInput, id: Id, now: int, user: Option<Id>, report: Option<Id>, flag: Option<bool>)
    ensures Save(input.(user := user, report := report, isAdminResponse := flag), id, now) == Save(input, id, now)
  {
  }
}

=== FILE: communication.dfy ===
/**
 * The admin communication page: a list of user messages, each pending or
 * answered, one reply form open at a time, and the pending/answered
 * counters. The messages are the page's own demo data; nothing is sent.
 */
module Communication {
  import opened Wrappers
  import opened Text

  datatype MsgStatus = Pending | Answered

  datatype Message = Message(
    id: string, complaintId: string, user: string, email: string,
    content: string, date: string, status: MsgStatus)

  /** The page state: the messages, the reply being typed and the message it answers. */
  datatype Page = Page(messages: seq<Message>, response: string, selected: Option<string>)

  const SentAlert := "Réponse envoyée avec succès !"

  /** The page after an action, and the alert it raised if any. */
  datatype Step = Step(page: Page, alert: Option<string>)

  /** Every message with that id becomes answered; the others are kept as they are. */
  function MarkAnswered(ms: seq<Message>, id: string): (r: seq<Message>)
    ensures |r| == |ms|
    ensures forall i :: 0 <= i < |ms| && ms[i].id == id ==> r[i] == ms[i].(status := Answered)
    ensures forall i :: 0 <= i < |ms| && ms[i].id != id ==> r[i] == ms[i]
  {
    seq(|ms|, i requires 0 <= i < |ms| => if ms[i].id == id then ms[i].(status := Answered) else ms[i])
  }

  /** `handleSendResponse`: a blank reply does nothing; otherwise the message is answered and the form closed. */
  function HandleSendResponse(p: Page, id: string): (s: Step)
    ensures IsBlank(p.response) ==> s == Step(p, None)
    ensures !IsBlank(p.response) ==>
      && s.page.messages == MarkAnswered(p.messages, id)
      && s.page.response == "" && s.page.selected.None?
      && s.alert == Some(SentAlert)
  {
    if IsBlank(p.response) then Step(p, None)
    else Step(Page(MarkAnswered(p.messages, id), "", None), Some(SentAlert))
  }

  /** `handleReplyClick`: select the message and start from an empty reply. */
  function HandleReplyClick(p: Page, id: string): (r: Page)
    ensures r.selected == Some(id) && r.response == "" && r.messages == p.messages
  {
    p.(selected := Some(id), response := "")
  }

  /** The cancel button: close the form and drop the reply. */
  function Cancel(p: Page): (r: Page)
    ensures r.selected.None? && r.response == "" && r.messages == p.messages
  {
    p.(selected := None, response := "")
  }

  /** Whether the reply form is drawn under a message. */
  predicate ShowsReplyForm(p: Page, m: Message) {
    m.status == Pending && p.selected == Some(m.id)
  }

  /** The number of messages with a given status (`messages.filter(...).length`). */
  function CountStatus(ms: seq<Message>, st: MsgStatus): (n: nat)
    ensures n <= |ms|
    decreases |ms|
  {
    if |ms| == 0 then 0
    else (if ms[0].status == st then 1 else 0) + CountStatus(ms[1..], st)
  }

  /** The two counters always add up to the number of messages. */
  lemma {:induction false} CountsPartition(ms: seq<Message>)
    ensures CountStatus(ms, Pending) + CountStatus(ms, Answered) == |ms|
    decreases |ms|
  {
    if |ms| > 0 {
      CountsPartition(ms[1..]);
    }
  }

  /** Answering moves the messages with that id from one counter to the other and changes nothing else. */
  lemma {:induction false} AnsweringMovesCount(ms: seq<Message>, id: string)
    ensures CountStatus(MarkAnswered(ms, id), Answered) == CountStatus(ms, Answered) + CountPendingWithId(ms, id)
    ensures CountStatus(MarkAnswered(ms, id), Pending) + CountPendingWithId(ms, id) == CountStatus(ms, Pending)
    decreases |ms|
  {
    if |ms| > 0 {
      AnsweringMovesCount(ms[1..], id);
      assert MarkAnswered(ms, id)[1..] == MarkAnswered(ms[1..], id);
    }
  }

  /** How many pending messages carry the id. */
  function CountPendingWithId(ms: seq<Message>, id: string): nat
    decreases |ms|
  {
    if |ms| == 0 then 0
    else (if ms[0].status == Pending && ms[0].id == id then 1 else 0) + CountPendingWithId(ms[1..], id)
  }

  /** After a reply is sent no message shows a reply form, and the answered message shows none again. */
  lemma SentClosesForms(p: Page, id: string, m: Message)
    requires !IsBlank(p.response)
    ensures !ShowsReplyForm(HandleSendResponse(p, id).page, m)
  {
  }

  /** After "reply" the form shows exactly under the pending messages with that id. */
  lemma ReplyOpensForm(p: Page, id: string, m: Message)
    ensures ShowsReplyForm(HandleReplyClick(p, id), m) <==> m.status == Pending && m.id == id
  {
  }
}

=== FILE: follow_up.dfy ===
/**
 * The follow-up panel (`FollowUp`): when it fetches the signed-in user's
 * reports, how each backend document becomes a row ("dossier"), and the
 * status and urgency labels of a row.
 */
module FollowUp {
  import opened Wrappers
  import opened Text
  import opened ReportModel
  import Session

  const LoginRequired := "Vous devez être connecté pour voir vos signalements"

  /** What the effect does: nothing, an error without a request, or a GET with these headers. */
  datatype FetchPlan =
    | NoFetch
    | NeedLogin(error: string)
    | Get(path: string, authorization: string, contentType: string)

  /** `fetchDossiers`: a stored user id is needed, then a stored token. */
  function Plan(store: Session.Storage): (p: FetchPlan)
    ensures p.NoFetch? <==> store.user.None? || !Truthy(store.user.value.id)
    ensures p.NeedLogin? <==> store.user.Some? && Truthy(store.user.value.id) && !Truthy(store.token)
    ensures p.NeedLogin? ==> p.error == LoginRequired
    ensures p.Get? ==>
      && p.path == "/reports/user/" + store.user.value.id.value
      && p.authorization == "Bearer " + store.token.value
  {
    if store.user.None? || !Truthy(store.user.value.id) then NoFetch
    else if !Truthy(store.token) then NeedLogin(LoginRequired)
    else Get("/reports/user/" + store.user.value.id.value, "Bearer " + store.token.value, "application/json")
  }

  /** A signed-out session never issues a request. */
  lemma SignedOutNoRequest(store: Session.Storage)
    ensures !Plan(Session.Logout(store)).Get?
    ensures Plan(Session.Logout(store)) == NoFetch
  {
  }

  /** The request carries the same bearer header `getHeaders` would build. */
  lemma PlanHeaders(store: Session.Storage)
    requires Plan(store).Get?
    ensures Session.GetHeaders(store, true).authorization == Some(Plan(store).authorization)
  {
  }

  /** A report as the JSON response presents it; any field may be missing. */
  datatype RawReport = RawReport(
    id: string,
    title: Option<string>,
    status: Option<string>,
    createdAt: Option<string>,
    date: Option<string>,
    crimeType: Option<string>,
    description: Option<string>,
    urgency: Option<string>,
    location: Option<string>)

  /** A row of the panel. */
  datatype Dossier = Dossier(
    id: string,
    titre: string,
    statut: string,
    date: Option<string>,
    kind: Option<string>,
    description: Option<string>,
    urgency: Option<string>,
    location: Option<string>)

  const Untitled := "Sans titre"

  /** The mapping with its defaults: untitled, submitted, and the creation date before the incident date. */
  function ToDossier(r: RawReport): (d: Dossier)
    ensures d.id == r.id
    ensures d.titre == (if Truthy(r.title) then r.title.value else Untitled)
    ensures d.statut == (if Truthy(r.status) then r.status.value else DefaultStatus)
    ensures d.date == (if Truthy(r.createdAt) then r.createdAt else r.date)
    ensures d.kind == r.crimeType && d.description == r.description
    ensures d.urgency == r.urgency && d.location == r.location
  {
    Dossier(
      r.id,
      if Truthy(r.title) then r.title.value else Untitled,
      if Truthy(r.status) then r.status.value else DefaultStatus,
      if Truthy(r.createdAt) then r.createdAt else r.date,
      r.crimeType, r.description, r.urgency, r.location)
  }

  /** `data.map(...)`: one row per report, in order. */
  function ToDossiers(rs: seq<RawReport>): (ds: seq<Dossier>)
    ensures |ds| == |rs|
    ensures forall i :: 0 <= i < |rs| ==> ds[i] == ToDossier(rs[i])
  {
    seq(|rs|, i requires 0 <= i < |rs| => ToDossier(rs[i]))
  }

  /** The JSON the backend sends for a stored report; `createdAt` is its rendered timestamp. */
  function Serialise(r: Report, createdAt: string): RawReport {
    RawReport(r.id, Some(r.title), Some(r.status), Some(createdAt), Some(r.date),
      Some(r.crimeType), Some(r.description), Some(r.urgency), Some(r.location))
  }

  /** The fetch's answer: the HTTP status and, when it is JSON, the reports it lists. */
  datatype Response = Response(status: nat, body: seq<RawReport>)

  /** What the panel ends up showing. */
  datatype Outcome = Shown(dossiers: seq<Dossier>) | Error(message: string)

  const HttpError := "Erreur HTTP: "

  /** `response.ok`: a status in the 200 range. */
  predicate Ok(status: nat) {
    200 <= status <= 299
  }

  /**
   * The rest of `fetchDossiers`: a status outside the 200 range throws
   * "Erreur HTTP: <status>", which the catch shows (the status reads back
   * from the message); otherwise the body's reports become the rows.
   */
  function Receive(r: Response): (o: Outcome)
    ensures o.Shown? <==> Ok(r.status)
    ensures o.Shown? ==> |o.dossiers| == |r.body| && forall i :: 0 <= i < |r.body| ==> o.dossiers[i] == ToDossier(r.body[i])
    ensures o.Error? ==> IsPrefix(HttpError, o.message) && |o.message| > |HttpError|
    ensures o.Error? ==> forall i :: |HttpError| <= i < |o.message| ==> IsDigitChar(o.message[i])
    ensures o.Error? ==> RadixValue(o.message[|HttpError|..], 10) == r.status
  {
    if !Ok(r.status) then
      var m := HttpError + NatToString(r.status);
      assert m[|HttpError|..] == NatToRadix(r.status, 10);
      RadixRoundTrip(r.status, 10);
      Error(m)
    else Shown(ToDossiers(r.body))
  }

  /** For a report the schema accepted, the defaults never apply: title and status come through. */
  lemma StoredReportShown(r: Report, createdAt: string)
    requires Valid(r) && createdAt != ""
    ensures var d := ToDossier(Serialise(r, createdAt));
      d.titre == r.title && d.statut == r.status && d.date == Some(createdAt) && d.id == r.id
  {
  }

  /** `getStatusLabel`: the three schema statuses in French, anything else unchanged. */
  function StatusLabel(status: string): (l: string)
    ensures status !in Statuses ==> l == status
    ensures status in Statuses ==> l in ["Soumis", "En cours", "Résolu"]
    ensures status == "submitted" ==> l == "Soumis"
    ensures status == "in_review" ==> l == "En cours"
    ensures status == "resolved" ==> l == "Résolu"
  {
    if status == "submitted" then "Soumis"
    else if status == "in_review" then "En cours"
    else if status == "resolved" then "Résolu"
    else status
  }

  /** `getStatusClass`: one class per schema status, and `status-default` for the rest. */
  function StatusClass(status: string): (c: string)
    ensures c == "status-default" <==> status !in Statuses
    ensures status == "submitted" ==> c == "status-soumis"
    ensures status == "in_review" ==> c == "status-en-cours"
    ensures status == "resolved" ==> c == "status-resolu"
  {
    if status == "submitted" then "status-soumis"
    else if status == "in_review" then "status-en-cours"
    else if status == "resolved" then "status-resolu"
    else "status-default"
  }

  /** Distinct schema statuses get distinct labels and classes. */
  lemma StatusTablesInjective(a: string, b: string)
    requires a in Statuses && b in Statuses && a != b
    ensures StatusLabel(a) != StatusLabel(b)
    ensures StatusClass(a) != StatusClass(b)
  {
  }

  /** The id column: the last eight characters of the id. */
  function ShortId(id: string): (s: string)
    ensures |s| == if |id| <= 8 then |id| else 8
    ensures IsSuffix(s, id)
  {
    TakeLast(id, 8)
  }

  /** The urgency column: high and medium by name, anything else (missing included) as low. */
  function UrgencyLabel(urgency: Option<string>): (l: string)
    ensures urgency == Some("high") <==> l == "\U{1F534} Urgent"
    ensures urgency == Some("medium") <==> l == "\U{1F7E1} Moyen"
    ensures urgency != Some("high") && urgency != Some("medium") <==> l == "\U{1F7E2} Faible"
  {
    if urgency == Some("high") then "\U{1F534} Urgent"
    else if urgency == Some("medium") then "\U{1F7E1} Moyen"
    else "\U{1F7E2} Faible"
  }
}

=== FILE: form.dfy ===
/**
 * The state both report forms keep (the home page's `ReportForm` and the
 * `/report` page) and the handlers they share: the input change handler,
 * the urgency buttons, the image upload with its five-image cap, image
 * removal and the required-field check before submitting.
 */
module FormState {
  import opened Wrappers
  import opened Seqs
  import opened ReportModel

  /** What an input stores: a text input's `value` or a checkbox's `checked`. */
  datatype Value = Text(s: string) | Flag(b: bool)

  /** `formData` without its images: a record whose keys are input names. */
  type Fields = map<string, Value>

  /** An uploaded file, known by its name; its contents are not modelled. */
  type File = string

  const MaxImages := 5
  const TooManyImages := "Vous pouvez télécharger maximum 5 images"
  const MissingFields := "Veuillez remplir tous les champs obligatoires"

  /**
   * A form: the fields, the coordinates picked on the map (the `/report`
   * page has none), the uploaded files and their preview URLs.
   */
  datatype Form = Form(fields: Fields, coordinates: Option<Coordinates>, images: seq<File>, previews: seq<string>)

  /** The text inputs, which start out empty. */
  const TextFields: set<string> := {"crimeType", "title", "description", "location", "date", "time"}

  /** The initial form: empty texts, medium urgency and the given anonymity flag. */
  function Initial(isAnonymous: bool): (f: Form)
    ensures forall k :: k in TextFields ==> k in f.fields && f.fields[k] == Text("")
    ensures f.fields.Keys == TextFields + {"urgency", "isAnonymous"}
    ensures f.fields["urgency"] == Text(DefaultUrgency) && f.fields["isAnonymous"] == Flag(isAnonymous)
    ensures f.coordinates.None? && f.images == [] && f.previews == []
  {
    var fields := map[
      "crimeType" := Text(""), "title" := Text(""), "description" := Text(""),
      "location" := Text(""), "date" := Text(""), "time" := Text(""),
      "urgency" := Text("medium"), "isAnonymous" := Flag(isAnonymous)];
    Form(fields, None, [], [])
  }

  /** The target of a change event. */
  datatype InputEvent = InputEvent(name: string, value: string, kind: string, checked: bool)

  /** `handleInputChange`: a checkbox stores `checked`, any other input its `value`, under the input's name. */
  function HandleInputChange(form: Form, e: InputEvent): (r: Form)
    ensures r.fields.Keys == form.fields.Keys + {e.name}
    ensures e.kind == "checkbox" ==> r.fields[e.name] == Flag(e.checked)
    ensures e.kind != "checkbox" ==> r.fields[e.name] == Text(e.value)
    ensures forall k :: k in form.fields && k != e.name ==> r.fields[k] == form.fields[k]
    ensures r.coordinates == form.coordinates && r.images == form.images && r.previews == form.previews
  {
    var v := if e.kind == "checkbox" then Flag(e.checked) else Text(e.value);
    form.(fields := form.fields[e.name := v])
  }

  /** An urgency button: only `urgency` changes. */
  function SetUrgency(form: Form, level: string): (r: Form)
    ensures r.fields.Keys == form.fields.Keys + {"urgency"} && r.fields["urgency"] == Text(level)
    ensures forall k :: k in form.fields && k != "urgency" ==> r.fields[k] == form.fields[k]
    ensures r.(fields := form.fields) == form
  {
    form.(fields := form.fields["urgency" := Text(level)])
  }

  /** The form after an upload, and the alert shown when it was refused. */
  datatype Upload = Upload(form: Form, alert: Option<string>)

  /**
   * `handleImageUpload`: refused with an alert when the images already
   * chosen and the new ones would be more than five; otherwise the new
   * files are appended in order. Previews arrive later from a
   * `FileReader`, which is not modelled.
   */
  function HandleImageUpload(form: Form, files: seq<File>): (u: Upload)
    ensures u.alert.Some? <==> |form.images| + |files| > MaxImages
    ensures u.alert.Some? ==> u.form == form && u.alert.value == TooManyImages
    ensures u.alert.None? ==> u.form == form.(images := form.images + files)
    ensures |form.images| <= MaxImages ==> |u.form.images| <= MaxImages
  {
    if |files| + |form.images| > MaxImages then Upload(form, Some(TooManyImages))
    else Upload(form.(images := form.images + files), None)
  }

  /** Uploads never take a form past five images, whatever the sequence of uploads. */
  lemma {:induction false} UploadsStayBounded(form: Form, batches: seq<seq<File>>)
    requires |form.images| <= MaxImages
    ensures |UploadAll(form, batches).images| <= MaxImages
    decreases |batches|
  {
    if |batches| > 0 {
      UploadsStayBounded(HandleImageUpload(form, batches[0]).form, batches[1..]);
    }
  }

  /** A series of uploads, one after the other. */
  function UploadAll(form: Form, batches: seq<seq<File>>): Form
    decreases |batches|
  {
    if |batches| == 0 then form else UploadAll(HandleImageUpload(form, batches[0]).form, batches[1..])
  }

  /** `list.filter((_, i) => i !== index)`, scanning positions from `i` on. */
  function KeepOthers<T>(s: seq<T>, index: int, i: nat): seq<T>
    requires i <= |s|
    decreases |s| - i
  {
    if i == |s| then []
    else (if i == index then [] else [s[i]]) + KeepOthers(s, index, i + 1)
  }

  /** Filtering out one position drops exactly that element; an index outside the list keeps it whole. */
  lemma {:induction false} KeepOthersSpec<T>(s: seq<T>, index: int, i: nat)
    requires i <= |s|
    ensures i <= index < |s| ==> KeepOthers(s, index, i) == s[i..index] + s[index + 1..]
    ensures !(i <= index < |s|) ==> KeepOthers(s, index, i) == s[i..]
    decreases |s| - i
  {
    if i < |s| {
      KeepOthersSpec(s, index, i + 1);
      if i == index {
        assert s[i..index] == [];
      } else if i < index < |s| {
        assert s[i..index] == [s[i]] + s[i + 1..index];
      } else {
        assert s[i..] == [s[i]] + s[i + 1..];
      }
    }
  }

  /** `filter` by position: exactly `RemoveAt` for an index in range, the identity otherwise. */
  function RemoveIndex<T>(s: seq<T>, index: int): (r: seq<T>)
    ensures 0 <= index < |s| ==> r == RemoveAt(s, index)
    ensures !(0 <= index < |s|) ==> r == s
  {
    KeepOthersSpec(s, index, 0);
    KeepOthers(s, index, 0)
  }

  /** `removeImage(index)`: the same position leaves both the files and the previews. */
  function RemoveImage(form: Form, index: int): (r: Form)
    ensures 0 <= index < |form.images| ==> r.images == RemoveAt(form.images, index)
    ensures 0 <= index < |form.previews| ==> r.previews == RemoveAt(form.previews, index)
    ensures !(0 <= index < |form.images|) ==> r.images == form.images
    ensures !(0 <= index < |form.previews|) ==> r.previews == form.previews
    ensures r.fields == form.fields && r.coordinates == form.coordinates
  {
    form.(images := RemoveIndex(form.images, index), previews := RemoveIndex(form.previews, index))
  }

  /** Removing an image never breaks the five-image bound. */
  lemma RemoveKeepsBound(form: Form, index: int)
    requires |form.images| <= MaxImages
    ensures |RemoveImage(form, index).images| <= MaxImages
  {
  }

  /** JavaScript truthiness of a field: a non-empty text or a checked box. */
  predicate Filled(fields: Fields, key: string) {
    key in fields && match fields[key] { case Text(s) => s != "" case Flag(b) => b }
  }

  /** `!formData.crimeType || !formData.description || !formData.location` blocks the submit. */
  predicate MissingRequired(form: Form) {
    !Filled(form.fields, "crimeType") || !Filled(form.fields, "description") || !Filled(form.fields, "location")
  }

  /** A freshly initialised form cannot be submitted. */
  lemma InitialBlocked(isAnonymous: bool)
    ensures MissingRequired(Initial(isAnonymous))
  {
  }

  /** `handleSubmit` checks only these three inputs; title, date and time are left to the browser and the server. */
  lemma RequiredInputsSuffice(form: Form, crimeType: string, description: string, location: string)
    requires crimeType != "" && description != "" && location != ""
    ensures var f := HandleInputChange(HandleInputChange(HandleInputChange(form,
        InputEvent("crimeType", crimeType, "select", false)),
        InputEvent("description", description, "textarea", false)),
        InputEvent("location", location, "text", false));
      !MissingRequired(f)
  {
  }

  // ----------------------------------------------------------- browser validation

  /** The `maxLength` attributes of the title and description inputs. */
  const TitleMaxLength := 100
  const DescriptionMaxLength := 1000

  /** A text input holds at most `n` characters; the browser stops typing beyond `maxLength`. */
  predicate FitsLength(fields: Fields, key: string, n: nat) {
    key !in fields || match fields[key] { case Text(s) => |s| <= n case Flag(_) => true }
  }

  /**
   * The browser's constraint validation of both rendered report forms, which
   * runs before the submit event reaches `handleSubmit` (neither form sets
   * `noValidate`): crime type, title, description, location and date are
   * `required`, and title and description carry a `maxLength`.
   */
  predicate ConstraintsMet(form: Form) {
    && Filled(form.fields, "crimeType") && Filled(form.fields, "title") && Filled(form.fields, "description")
    && Filled(form.fields, "location") && Filled(form.fields, "date")
    && FitsLength(form.fields, "title", TitleMaxLength)
    && FitsLength(form.fields, "description", DescriptionMaxLength)
  }

  /** Pressing "submit": either the browser stops it, or the handler runs. */
  datatype Attempt<S> = NotSubmitted | Handled(outcome: S)

  /** The browser's check is stricter than the handler's: what it lets through, `handleSubmit` never blocks. */
  lemma ConstraintsCoverCheck(form: Form)
    requires ConstraintsMet(form)
    ensures !MissingRequired(form)
  {
  }

  /** A fresh form does not get past the browser. */
  lemma InitialNotSubmittable(isAnonymous: bool)
    ensures !ConstraintsMet(Initial(isAnonymous))
  {
  }
}

=== FILE: map.dfy ===
/**
 * The map component: marker colours by urgency, marker opacity by status,
 * the click guard, and the labels of the info window.
 */
module MapView {
  import opened Wrappers
  import opened ReportModel
  import FollowUp

  const DefaultColor := "#3b82f6"

  /** `getMarkerColor`: one colour per urgency, blue for anything else or nothing. */
  function MarkerColor(urgency: Option<string>): (c: string)
    ensures urgency == Some("high") <==> c == "#ef4444"
    ensures urgency == Some("medium") <==> c == "#f59e0b"
    ensures urgency == Some("low") <==> c == "#10b981"
    ensures c == DefaultColor <==> urgency.None? || urgency.value !in Urgencies
  {
    match urgency
    case Some("high") => "#ef4444"
    case Some("medium") => "#f59e0b"
    case Some("low") => "#10b981"
    case _ => DefaultColor
  }

  /** The marker symbol's style. */
  datatype Icon = Icon(fillColor: string, fillOpacity: real, strokeColor: string, strokeWeight: nat, scale: nat)

  /** `getMarkerIcon`: the urgency's colour, half transparent once resolved. */
  function MarkerIcon(status: Option<string>, urgency: Option<string>): (i: Icon)
    ensures i.fillColor == MarkerColor(urgency)
    ensures i.fillOpacity == 0.5 <==> status == Some("resolved")
    ensures i.fillOpacity == 1.0 <==> status != Some("resolved")
    ensures i.strokeColor == "#ffffff" && i.strokeWeight == 2 && i.scale == 2
  {
    Icon(MarkerColor(urgency), if status == Some("resolved") then 0.5 else 1.0, "#ffffff", 2, 2)
  }

  datatype Location = Location(lat: real, lng: real)

  /** The clicked location kept by the component, and the location handed to `onLocationSelect`. */
  datatype Click = Click(clicked: Option<Location>, selected: Option<Location>)

  /** `handleMapClick`: ignored unless the map is interactive, has a callback and the event has a position. */
  function HandleMapClick(clicked: Option<Location>, interactive: bool, hasCallback: bool, latLng: Option<Location>): (c: Click)
    ensures !(interactive && hasCallback && latLng.Some?) ==> c == Click(clicked, None)
    ensures interactive && hasCallback && latLng.Some? ==> c == Click(latLng, latLng)
  {
    if !interactive || !hasCallback || latLng.None? then Click(clicked, None)
    else Click(latLng, latLng)
  }

  /** The info window's urgency line: shown only for a non-empty urgency, low by default. */
  function UrgencyLabel(urgency: Option<string>): (l: Option<string>)
    ensures l.None? <==> !Truthy(urgency)
    ensures l.Some? ==> l.value in ["Urgent", "Moyen", "Faible"]
    ensures l == Some("Faible") <==> Truthy(urgency) && urgency.value != "high" && urgency.value != "medium"
  {
    if !Truthy(urgency) then None
    else if urgency.value == "high" then Some("Urgent")
    else if urgency.value == "medium" then Some("Moyen")
    else Some("Faible")
  }

  /** The info window's status line: shown only for a non-empty status; anything past review reads as resolved. */
  function StatusLabel(status: Option<string>): (l: Option<string>)
    ensures l.None? <==> !Truthy(status)
    ensures l == Some("Résolu") <==> Truthy(status) && status.value != "submitted" && status.value != "in_review"
    ensures status == Some("submitted") ==> l == Some("Soumis")
    ensures status == Some("in_review") ==> l == Some("En cours")
  {
    if !Truthy(status) then None
    else if status.value == "submitted" then Some("Soumis")
    else if status.value == "in_review" then Some("En cours")
    else Some("Résolu")
  }

  /**
   * The map and the follow-up panel name the schema's statuses alike, but
   * an unknown status reads "Résolu" on the map and as itself in the panel.
   */
  lemma StatusLabelsCompared(s: string)
    requires s != ""
    ensures s in Statuses ==> StatusLabel(Some(s)) == Some(FollowUp.StatusLabel(s))
    ensures s !in Statuses ==> StatusLabel(Some(s)) == Some("Résolu") && FollowUp.StatusLabel(s) == s
  {
  }

  /** For a present urgency, the panel's label is the map's label behind a coloured dot and a space. */
  lemma UrgencyLabelsCompared(u: string)
    requires u != ""
    ensures FollowUp.UrgencyLabel(Some(u))[2..] == UrgencyLabel(Some(u)).value
  {
  }

  /** A marker's colour and its info-window label always name the same urgency level. */
  lemma ColorMatchesLabel(u: string)
    requires u in Urgencies
    ensures MarkerColor(Some(u)) == "#ef4444" <==> UrgencyLabel(Some(u)) == Some("Urgent")
    ensures MarkerColor(Some(u)) == "#f59e0b" <==> UrgencyLabel(Some(u)) == Some("Moyen")
    ensures MarkerColor(Some(u)) == "#10b981" <==> UrgencyLabel(Some(u)) == Some("Faible")
  {
  }
}

=== FILE: notification_model.dfy ===
/**
 * The Notification schema: `user`, `title` and `message` are required,
 * `isRead` defaults to false and `createdAt` to the creation time.
 */
module NotificationModel {
  import opened Wrappers
  import opened ReportModel

  datatype Notification = Notification(user: Id, title: string, message: string, isRead: bool, createdAt: int)

  datatype Saved = Stored(notification: Notification) | Refused(error: ValidationError)

  /** `new Notification({user, title, message}).save()`. */
  function Save(user: Option<Id>, title: Option<string>, message: Option<string>, now: int): (s: Saved)
    ensures s.Stored? <==> user.Some? && Present(title) && Present(message)
    ensures s.Stored? ==> s.notification.user == user.value
    ensures s.Stored? ==> s.notification.title == title.value && s.notification.message == message.value
    ensures s.Stored? ==> !s.notification.isRead && s.notification.createdAt == now
  {
    if user.None? then Refused(Missing("user"))
    else if !Present(title) then Refused(Missing("title"))
    else if !Present(message) then Refused(Missing("message"))
    else Stored(Notification(user.value, title.value, message.value, false, now))
  }
}

=== FILE: plaintes.dfy ===
/**
 * The admin complaints page: the filter bar (search, three selects and a
 * date range), status changes, deletion after confirmation, urgency
 * badges and the reset button. The complaints are the page's own demo
 * data, with statuses of its own that differ from the Report schema's.
 */
module Plaintes {
  import opened Text
  import opened Seqs

  datatype Complaint = Complaint(
    id: string, kind: string, date: string, location: string,
    status: string, user: string, urgency: string, description: string)

  /** The filter bar; "all" leaves a select unconstrained and "" leaves a date unbounded. */
  datatype Filters = Filters(search: string, status: string, kind: string, urgency: string, dateFrom: string, dateTo: string)

  const All := "all"

  /** The filters the page starts with, and which the reset button restores. */
  const DefaultFilters := Filters("", All, All, All, "", "")

  /** The reset button. */
  function Reset(f: Filters): (r: Filters)
    ensures r.search == "" && r.status == All && r.kind == All && r.urgency == All
    ensures r.dateFrom == "" && r.dateTo == ""
  {
    DefaultFilters
  }

  /** The search box: a case-insensitive substring of the type, the location or the user. */
  predicate MatchesSearch(c: Complaint, term: string) {
    var t := Lower(term);
    Contains(Lower(c.kind), t) || Contains(Lower(c.location), t) || Contains(Lower(c.user), t)
  }

  /** Date strings compare as JavaScript strings; each bound applies only when set and includes its own day. */
  predicate MatchesDates(c: Complaint, from: string, to: string) {
    (from == "" || LexLe(from, c.date)) && (to == "" || LexLe(c.date, to))
  }

  /** The predicate of `filteredComplaints`. */
  predicate Matches(c: Complaint, f: Filters) {
    && MatchesSearch(c, f.search)
    && (f.status == All || c.status == f.status)
    && (f.kind == All || c.kind == f.kind)
    && (f.urgency == All || c.urgency == f.urgency)
    && MatchesDates(c, f.dateFrom, f.dateTo)
  }

  function MatchesFilters(f: Filters): Complaint -> bool {
    (c: Complaint) => Matches(c, f)
  }

  /** `filteredComplaints`: the matching complaints, in list order. */
  function Filtered(cs: seq<Complaint>, f: Filters): (r: seq<Complaint>)
    ensures |r| <= |cs|
    ensures forall i :: 0 <= i < |r| ==> r[i] in cs && Matches(r[i], f)
    ensures forall i :: 0 <= i < |cs| && Matches(cs[i], f) ==> cs[i] in r
  {
    Filter(cs, MatchesFilters(f))
  }

  /** With the default filters every complaint is listed. */
  lemma DefaultsShowAll(cs: seq<Complaint>)
    ensures Filtered(cs, DefaultFilters) == cs
  {
    assert Lower("") == "";
    forall i | 0 <= i < |cs|
      ensures Matches(cs[i], DefaultFilters)
    {
      ContainsEmpty(Lower(cs[i].kind));
    }
    FilterAll(cs, MatchesFilters(DefaultFilters));
  }

  /** After a reset every complaint is listed again, whatever the filters were. */
  lemma ResetShowsAll(cs: seq<Complaint>, f: Filters)
    ensures Filtered(cs, Reset(f)) == cs
  {
    DefaultsShowAll(cs);
  }

  /** The search ignores the case of the term. */
  lemma SearchIgnoresCase(c: Complaint, term: string)
    ensures MatchesSearch(c, Upper(term)) <==> MatchesSearch(c, term)
    ensures MatchesSearch(c, Lower(term)) <==> MatchesSearch(c, term)
  {
    LowerUpper(term);
    LowerLower(term);
  }

  lemma LowerLower(s: string)
    ensures Lower(Lower(s)) == Lower(s)
  {
    forall i | 0 <= i < |s|
      ensures Lower(Lower(s))[i] == Lower(s)[i]
    {
      CaseRoundTrip(s[i]);
    }
  }

  /** A complaint dated exactly on a bound passes that bound. */
  lemma DateBoundsInclusive(c: Complaint, f: Filters)
    requires f.dateFrom == c.date || f.dateFrom == ""
    requires f.dateTo == c.date || f.dateTo == ""
    ensures MatchesDates(c, f.dateFrom, f.dateTo)
  {
    LexLeReflexive(c.date);
  }

  /** Filtering keeps the list's order: it distributes over concatenation. */
  lemma FilteredKeepsOrder(a: seq<Complaint>, b: seq<Complaint>, f: Filters)
    ensures Filtered(a + b, f) == Filtered(a, f) + Filtered(b, f)
  {
    FilterAppend(a, b, MatchesFilters(f));
  }

  /** `handleStatusChange`: the complaints with that id take the new status; nothing else changes. */
  function StatusChange(cs: seq<Complaint>, id: string, status: string): (r: seq<Complaint>)
    ensures |r| == |cs|
    ensures forall i :: 0 <= i < |cs| ==> r[i].(status := cs[i].status) == cs[i]
    ensures forall i :: 0 <= i < |cs| ==> r[i].status == if cs[i].id == id then status else cs[i].status
  {
    seq(|cs|, i requires 0 <= i < |cs| => if cs[i].id == id then cs[i].(status := status) else cs[i])
  }

  function IdIsNot(id: string): Complaint -> bool {
    (c: Complaint) => c.id != id
  }

  /** `handleDeleteComplaint`: after confirmation, the complaints with that id go; others stay in order. */
  function Delete(cs: seq<Complaint>, id: string, confirmed: bool): (r: seq<Complaint>)
    ensures !confirmed ==> r == cs
    ensures confirmed ==> forall i :: 0 <= i < |r| ==> r[i].id != id && r[i] in cs
    ensures confirmed ==> forall i :: 0 <= i < |cs| && cs[i].id != id ==> cs[i] in r
  {
    if confirmed then Filter(cs, IdIsNot(id)) else cs
  }

  /** Deleting an id nobody has changes nothing. */
  lemma DeleteAbsent(cs: seq<Complaint>, id: string, confirmed: bool)
    requires forall i :: 0 <= i < |cs| ==> cs[i].id != id
    ensures Delete(cs, id, confirmed) == cs
  {
    FilterAll(cs, IdIsNot(id));
  }

  /** Deleting one complaint from a list with distinct ids removes exactly one. */
  lemma DeleteOne(a: seq<Complaint>, c: Complaint, b: seq<Complaint>)
    requires forall i :: 0 <= i < |a| ==> a[i].id != c.id
    requires forall i :: 0 <= i < |b| ==> b[i].id != c.id
    ensures Delete(a + [c] + b, c.id, true) == a + b
  {
    var p := IdIsNot(c.id);
    assert !p(c);
    assert [c][1..] == [];
    assert Filter([c], p) == [];
    FilterAll(a, p);
    FilterAll(b, p);
    FilterAppend(a, [c], p);
    assert Filter(a + [c], p) == a;
    FilterAppend(a + [c], b, p);
  }

  datatype Badge = Badge(text: string, cssClass: string)

  /** `getUrgencyBadge`: one badge per level, the low one for anything else. */
  function UrgencyBadge(urgency: string): (b: Badge)
    ensures urgency == "medium" ==> b == Badge("Moyenne", "urgency-medium")
    ensures urgency == "high" ==> b == Badge("Élevée", "urgency-high")
    ensures urgency != "medium" && urgency != "high" ==> b == Badge("Faible", "urgency-low")
  {
    if urgency == "medium" then Badge("Moyenne", "urgency-medium")
    else if urgency == "high" then Badge("Élevée", "urgency-high")
    else Badge("Faible", "urgency-low")
  }
}

=== FILE: rapports.dfy ===
/**
 * The admin reports page: the CSV export (rows of cells joined by commas,
 * rows joined by newlines, behind a `data:` URI prefix), its two fixed
 * tables, and the period picker.
 */
module Rapports {
  import opened Wrappers
  import opened Text

  /** A table cell: a string or a number, as the page's arrays hold them. */
  datatype Cell = Str(s: string) | Num(n: nat)

  function CellText(c: Cell): (t: string)
    ensures c.Num? ==> forall i :: 0 <= i < |t| ==> IsDigitChar(t[i])
  {
    match c
    case Str(s) => s
    case Num(n) => NatToString(n)
  }

  const CsvPrefix := "data:text/csv;charset=utf-8,"

  /** `row.join(",")`, with no quoting. */
  function RowText(row: seq<Cell>): string {
    Join(seq(|row|, i requires 0 <= i < |row| => CellText(row[i])), ",")
  }

  /** `rows.map(e => e.join(",")).join("\n")`. */
  function Body(rows: seq<seq<Cell>>): string {
    Join(seq(|rows|, i requires 0 <= i < |rows| => RowText(rows[i])), "\n")
  }

  /** The content `exportCSV` puts in the link (before URI encoding, which is not modelled). */
  function CsvContent(rows: seq<seq<Cell>>): (c: string)
    ensures IsPrefix(CsvPrefix, c)
    ensures c[|CsvPrefix|..] == Body(rows)
  {
    CsvPrefix + Body(rows)
  }

  /** A cell that neither a comma nor a newline occurs in. */
  predicate Plain(c: Cell) {
    ',' !in CellText(c) && '\n' !in CellText(c)
  }

  /** A row of plain cells splits back on commas into its cells' texts. */
  lemma RowRoundTrip(row: seq<Cell>)
    requires |row| >= 1
    requires forall j :: 0 <= j < |row| ==> Plain(row[j])
    ensures Split(RowText(row), ',') == seq(|row|, i requires 0 <= i < |row| => CellText(row[i]))
    ensures '\n' !in RowText(row)
  {
    var texts := seq(|row|, i requires 0 <= i < |row| => CellText(row[i]));
    SplitJoin(texts, ',');
    JoinAvoids(texts, ",", '\n');
  }

  /**
   * With no comma or newline inside a cell, the body splits back on
   * newlines into one line per row, in order, and each line on commas into
   * that row's cells; otherwise the format is ambiguous, as nothing is quoted.
   */
  lemma CsvRoundTrip(rows: seq<seq<Cell>>)
    requires |rows| >= 1
    requires forall r :: 0 <= r < |rows| ==> |rows[r]| >= 1
    requires forall r, j :: 0 <= r < |rows| && 0 <= j < |rows[r]| ==> Plain(rows[r][j])
    ensures var lines := Split(CsvContent(rows)[|CsvPrefix|..], '\n');
      && |lines| == |rows|
      && (forall r :: 0 <= r < |rows| ==> lines[r] == RowText(rows[r]))
      && forall r :: 0 <= r < |rows| ==>
        Split(lines[r], ',') == seq(|rows[r]|, i requires 0 <= i < |rows[r]| => CellText(rows[r][i]))
  {
    var lines := seq(|rows|, i requires 0 <= i < |rows| => RowText(rows[i]));
    forall r | 0 <= r < |rows|
      ensures '\n' !in lines[r]
      ensures Split(lines[r], ',') == seq(|rows[r]|, i requires 0 <= i < |rows[r]| => CellText(rows[r][i]))
    {
      RowRoundTrip(rows[r]);
    }
    SplitJoin(lines, '\n');
  }

  /** A comma inside a cell is read back as a column break: the format does not escape it. */
  lemma CommaBreaksCell()
    ensures Split(RowText([Str("a,b")]), ',') == ["a", "b"]
  {
    var texts := seq(1, i requires 0 <= i < 1 => CellText([Str("a,b")][i]));
    assert texts == ["a,b"];
    assert "a,b" == "a" + [','] + "b";
    SplitAfterPart("a", ',', "b");
    SplitNoSeparator("b", ',');
  }

  /** What clicking an export button does: download this file with this content. */
  datatype Download = Download(filename: string, href: string)

  function ExportCsv(filename: string, rows: seq<seq<Cell>>): (d: Download)
    ensures d.filename == filename && IsPrefix(CsvPrefix, d.href)
    ensures d.href == CsvContent(rows)
  {
    Download(filename, CsvContent(rows))
  }

  const MonthlyTable: seq<seq<Cell>> := [
    HeaderRow("Mois"),
    [Str("Janvier"), Num(45), Num(30)],
    [Str("Février"), Num(38), Num(28)],
    [Str("Mars"), Num(50), Num(35)]]

  const AnnualTable: seq<seq<Cell>> := [
    HeaderRow("Année"),
    [Str("2025"), Num(500), Num(350)],
    [Str("2024"), Num(480), Num(340)]]

  /** The monthly export. */
  function ExportMonthly(): (d: Download)
    ensures d.filename == "rapport_mensuel.csv" && d.href == CsvContent(MonthlyTable)
  {
    ExportCsv("rapport_mensuel.csv", MonthlyTable)
  }

  /** The annual export. */
  function ExportAnnual(): (d: Download)
    ensures d.filename == "rapport_annuel.csv" && d.href == CsvContent(AnnualTable)
  {
    ExportCsv("rapport_annuel.csv", AnnualTable)
  }

  /** What follows the first column in both tables' header line. */
  const HeaderTail := ",Incidents,Résolutions"

  /** The header row of both tables, given its first column. */
  function HeaderRow(first: string): seq<Cell> {
    [Str(first), Str("Incidents"), Str("Résolutions")]
  }

  /** The monthly file's first line is its header, followed by one line per month. */
  lemma MonthlyHeaderFirst()
    ensures var lines := Split(ExportMonthly().href[|CsvPrefix|..], '\n');
      |lines| == 4 && lines[0] == "Mois,Incidents,Résolutions"
  {
    MonthlyHeaderOf(MonthlyTable);
  }

  /** The proof, over a name for the table so that the solver does not expand the constant. */
  lemma MonthlyHeaderOf(rows: seq<seq<Cell>>)
    requires rows == MonthlyTable
    ensures var lines := Split(ExportMonthly().href[|CsvPrefix|..], '\n');
      |lines| == 4 && lines[0] == "Mois,Incidents,Résolutions"
  {
    MonthlyPlainOf(rows);
    HeaderFirst(rows, "Mois");
    assert ExportMonthly().href[|CsvPrefix|..] == Body(rows);
    MonthlyHeaderText();
  }

  /** The header line spelt out; kept apart because comparing string literals is costly. */
  lemma MonthlyHeaderText()
    ensures "Mois" + HeaderTail == "Mois,Incidents,Résolutions"
  {
  }

  /** The annual file's first line is its header, followed by one line per year. */
  lemma AnnualHeaderFirst()
    ensures var lines := Split(ExportAnnual().href[|CsvPrefix|..], '\n');
      |lines| == 3 && lines[0] == "Année,Incidents,Résolutions"
  {
    AnnualHeaderOf(AnnualTable);
  }

  /** The proof, over a name for the table so that the solver does not expand the constant. */
  lemma AnnualHeaderOf(rows: seq<seq<Cell>>)
    requires rows == AnnualTable
    ensures var lines := Split(ExportAnnual().href[|CsvPrefix|..], '\n');
      |lines| == 3 && lines[0] == "Année,Incidents,Résolutions"
  {
    AnnualPlainOf(rows);
    HeaderFirst(rows, "Année");
    assert ExportAnnual().href[|CsvPrefix|..] == Body(rows);
    AnnualHeaderText();
  }

  /** The header line spelt out; kept apart because comparing string literals is costly. */
  lemma AnnualHeaderText()
    ensures "Année" + HeaderTail == "Année,Incidents,Résolutions"
  {
  }

  /** A table of plain cells under the page's header row exports that header as its first line. */
  lemma HeaderFirst(rows: seq<seq<Cell>>, first: string)
    requires |rows| >= 1 && rows[0] == HeaderRow(first)
    requires forall r :: 0 <= r < |rows| ==> |rows[r]| >= 1
    requires forall r, j :: 0 <= r < |rows| && 0 <= j < |rows[r]| ==> Plain(rows[r][j])
    ensures |Split(Body(rows), '\n')| == |rows|
    ensures Split(Body(rows), '\n')[0] == first + HeaderTail
  {
    CsvRoundTrip(rows);
    HeaderLine(first);
  }

  /** A number's decimal text holds neither a comma nor a newline. */
  lemma NumPlain(n: nat)
    ensures Plain(Num(n))
  {
    var t := CellText(Num(n));
    assert forall i :: 0 <= i < |t| ==> IsDigitChar(t[i]);
  }

  /** A row of a name and two numbers is plain when the name is. */
  lemma DataRowPlain(name: string, a: nat, b: nat)
    requires ',' !in name && '\n' !in name
    ensures forall j :: 0 <= j < 3 ==> Plain([Str(name), Num(a), Num(b)][j])
  {
    NumPlain(a);
    NumPlain(b);
  }

  /** The header row is plain when its first column is. */
  lemma HeaderPlain(first: string)
    requires ',' !in first && '\n' !in first
    ensures forall j :: 0 <= j < 3 ==> Plain(HeaderRow(first)[j])
  {
    assert ',' !in "Incidents" && '\n' !in "Incidents";
    assert ',' !in "Résolutions" && '\n' !in "Résolutions";
  }

  /** The monthly table: its header first and no comma or newline in any cell. */
  lemma MonthlyPlain()
    ensures |MonthlyTable| == 4 && MonthlyTable[0] == HeaderRow("Mois")
    ensures forall r :: 0 <= r < |MonthlyTable| ==> |MonthlyTable[r]| >= 1
    ensures forall r, j :: 0 <= r < |MonthlyTable| && 0 <= j < |MonthlyTable[r]| ==> Plain(MonthlyTable[r][j])
  {
    MonthlyPlainOf(MonthlyTable);
  }

  /** The proof, over a name for the table so that the solver does not expand the constant. */
  lemma MonthlyPlainOf(rows: seq<seq<Cell>>)
    requires rows == MonthlyTable
    ensures |rows| == 4 && rows[0] == HeaderRow("Mois")
    ensures forall r :: 0 <= r < |rows| ==> |rows[r]| >= 1
    ensures forall r, j :: 0 <= r < |rows| && 0 <= j < |rows[r]| ==> Plain(rows[r][j])
  {
    forall r | 0 <= r < |rows|
      ensures forall j :: 0 <= j < |rows[r]| ==> Plain(rows[r][j])
    {
      if r == 0 {
        HeaderPlain("Mois");
      } else if r == 1 {
        DataRowPlain("Janvier", 45, 30);
      } else if r == 2 {
        DataRowPlain("Février", 38, 28);
      } else {
        DataRowPlain("Mars", 50, 35);
      }
    }
  }

  /** The annual table: its header first and no comma or newline in any cell. */
  lemma AnnualPlain()
    ensures |AnnualTable| == 3 && AnnualTable[0] == HeaderRow("Année")
    ensures forall r :: 0 <= r < |AnnualTable| ==> |AnnualTable[r]| >= 1
    ensures forall r, j :: 0 <= r < |AnnualTable| && 0 <= j < |AnnualTable[r]| ==> Plain(AnnualTable[r][j])
  {
    AnnualPlainOf(AnnualTable);
  }

  /** The proof, over a name for the table so that the solver does not expand the constant. */
  lemma AnnualPlainOf(rows: seq<seq<Cell>>)
    requires rows == AnnualTable
    ensures |rows| == 3 && rows[0] == HeaderRow("Année")
    ensures forall r :: 0 <= r < |rows| ==> |rows[r]| >= 1
    ensures forall r, j :: 0 <= r < |rows| && 0 <= j < |rows[r]| ==> Plain(rows[r][j])
  {
    forall r | 0 <= r < |rows|
      ensures forall j :: 0 <= j < |rows[r]| ==> Plain(rows[r][j])
    {
      if r == 0 {
        HeaderPlain("Année");
      } else if r == 1 {
        DataRowPlain("2025", 500, 350);
      } else {
        DataRowPlain("2024", 480, 340);
      }
    }
  }

  /** The header row's text, given its first column. */
  lemma HeaderLine(first: string)
    ensures RowText(HeaderRow(first)) == first + HeaderTail
  {
    var texts := seq(3, i requires 0 <= i < 3 => CellText(HeaderRow(first)[i]));
    assert texts == [first, "Incidents", "Résolutions"];
    JoinThree(first, "Incidents", "Résolutions", ",");
    TailText();
  }

  lemma TailText()
    ensures "," + "Incidents" + "," + "Résolutions" == HeaderTail
  {
  }

  /** Three parts joined: the separator between each pair. */
  lemma JoinThree(a: string, b: string, c: string, sep: string)
    ensures Join([a, b, c], sep) == a + (sep + b + sep + c)
  {
    assert [a, b, c][1..] == [b, c];
    assert [b, c][1..] == [c];
    assert Join([c], sep) == c;
    assert Join([b, c], sep) == b + sep + c;
  }

  /** The period picker and the dates typed into it. */
  datatype Picker = Picker(open: bool, startDate: string, endDate: string)

  /** `handleToggleDatePicker`. */
  function Toggle(p: Picker): (r: Picker)
    ensures r.open == !p.open && r.startDate == p.startDate && r.endDate == p.endDate
  {
    p.(open := !p.open)
  }

  /** `handleApplyPeriod`: report the chosen period and close the picker. */
  function ApplyPeriod(p: Picker): (r: (Picker, string))
    ensures !r.0.open && r.0.startDate == p.startDate && r.0.endDate == p.endDate
    ensures r.1 == "Période sélectionnée: " + p.startDate + " → " + p.endDate
  {
    (p.(open := false), "Période sélectionnée: " + p.startDate + " → " + p.endDate)
  }

  /** Toggling twice restores the picker; applying closes it whatever its state. */
  lemma PickerLaws(p: Picker)
    ensures Toggle(Toggle(p)) == p
    ensures ApplyPeriod(Toggle(p)).0 == ApplyPeriod(p).0
  {
  }
}

=== FILE: report_controller.dfy ===
/**
 * The report controller: `createReport` spreads the request body and then
 * sets `createdBy` from the authenticated caller; `getReports` lists the
 * whole collection.
 */
module ReportController {
  import opened Wrappers
  import opened ReportModel
  import opened Store

  /** The status, the database afterwards and the created report on 201. */
  datatype Created = Created(status: nat, db: Db, report: Option<Report>)

  /** `{ ...req.body, createdBy: req.user?.id }`: the caller's id replaces any body value. */
  function WithCaller(body: ReportBody, caller: Option<User>): (b: ReportBody)
    ensures b.createdBy == (if caller.Some? then Some(caller.value.id) else None)
    ensures b.(createdBy := body.createdBy) == body
  {
    body.(createdBy := if caller.Some? then Some(caller.value.id) else None)
  }

  /** `createReport`: 201 with the stored report, or 500 with nothing stored. */
  function CreateReport(db: Db, body: ReportBody, caller: Option<User>, id: Id, now: Stamp): (c: Created)
    ensures c.status == 201 || c.status == 500
    ensures c.status == 201 <==> Create(WithCaller(body, caller), id, now).Saved?
    ensures c.status == 201 ==> c.report.Some? && c.db == db.(reports := db.reports + [c.report.value])
    ensures c.status == 500 ==> c.report.None? && c.db == db
  {
    match Create(WithCaller(body, caller), id, now)
    case Saved(r) => Created(201, db.(reports := db.reports + [r]), Some(r))
    case Rejected(_) => Created(500, db, None)
  }

  /**
   * The stored author is the authenticated caller, or absent without one,
   * whatever `createdBy` and `isAnonymous` the body carries.
   */
  lemma CreatedByCaller(db: Db, body: ReportBody, caller: Option<User>, id: Id, now: Stamp)
    requires CreateReport(db, body, caller, id, now).status == 201
    ensures var r := CreateReport(db, body, caller, id, now).report.value;
      && (caller.Some? ==> r.createdBy == Some(caller.value.id))
      && (caller.None? ==> r.createdBy.None?)
  {
  }

  /** A body's own `createdBy` never influences the outcome. */
  lemma BodyCreatorIgnored(db: Db, body: ReportBody, forged: Option<Id>, caller: Option<User>, id: Id, now: Stamp)
    ensures CreateReport(db, body.(createdBy := forged), caller, id, now) == CreateReport(db, body, caller, id, now)
  {
    assert WithCaller(body.(createdBy := forged), caller) == WithCaller(body, caller);
  }

  /** A logged-in caller who ticks "anonymous" is still recorded as the author. */
  lemma AnonymousStillAttributed(db: Db, body: ReportBody, u: User, id: Id, now: Stamp)
    requires body.isAnonymous == Some(true)
    requires CreateReport(db, body, Some(u), id, now).status == 201
    ensures CreateReport(db, body, Some(u), id, now).report.value.isAnonymous
    ensures CreateReport(db, body, Some(u), id, now).report.value.createdBy == Some(u.id)
  {
  }

  /** The other body fields reach the stored report unchanged, apart from the schema's defaults and the coordinate conversion. */
  lemma BodyPassedThrough(db: Db, body: ReportBody, caller: Option<User>, id: Id, now: Stamp)
    requires CreateReport(db, body, caller, id, now).status == 201
    ensures var r := CreateReport(db, body, caller, id, now).report.value;
      && Some(r.crimeType) == body.crimeType && Some(r.title) == body.title
      && Some(r.description) == body.description && Some(r.location) == body.location
      && Some(r.date) == body.date && r.time == body.time && r.images == body.images
      && r.trackingNumber == body.trackingNumber
      && r.coordinates == Normalise(body.coordinates)
      && r.id == id && r.createdAt == now
  {
  }

  /** `getReports`: every stored report, in collection order. */
  function GetReports(db: Db): (rs: seq<Report>)
    ensures forall r :: r in db.reports <==> r in rs
  {
    db.reports
  }

  /** A created report is listed by `getReports`, after every earlier one. */
  lemma CreatedIsListed(db: Db, body: ReportBody, caller: Option<User>, id: Id, now: Stamp)
    requires CreateReport(db, body, caller, id, now).status == 201
    ensures var c := CreateReport(db, body, caller, id, now);
      GetReports(c.db) == GetReports(db) + [c.report.value]
  {
  }
}

=== FILE: report_form.dfy ===
/**
 * The home page's report form (`ReportForm`): the headers and payload of
 * its `POST /reports`, the tracking number it shows afterwards and the
 * reset that follows. `isAnonymousMode` is the component's property.
 */
module ReportForm {
  import opened Wrappers
  import opened Text
  import opened ReportModel
  import opened Store
  import opened FormState
  import Session
  import AuthMiddleware
  import ReportController

  /**
   * The headers `handleSubmit` builds by hand: JSON, plus the stored
   * token unless the form is in anonymous mode.
   */
  function SubmitHeaders(store: Session.Storage, isAnonymousMode: bool): (h: Session.Headers)
    ensures h == Session.GetHeaders(store, !isAnonymousMode)
  {
    var auth :=
      if isAnonymousMode then None
      else if Truthy(store.token) then Some("Bearer " + store.token.value)
      else None;
    Session.Headers("application/json", auth)
  }

  /** A field as Mongoose casts it to a String: a checkbox value arrives as "true" or "false". */
  function TextOf(fields: Fields, key: string): (v: Option<string>)
    ensures key !in fields <==> v.None?
    ensures key in fields && fields[key].Text? ==> v == Some(fields[key].s)
  {
    if key !in fields then None
    else match fields[key]
      case Text(s) => Some(s)
      case Flag(b) => Some(if b then "true" else "false")
  }

  /** A field as Mongoose casts it to a Boolean; a text it cannot cast is left out. */
  function FlagOf(fields: Fields, key: string): (v: Option<bool>)
    ensures key in fields && fields[key].Flag? ==> v == Some(fields[key].b)
    ensures key !in fields ==> v.None?
  {
    if key !in fields then None
    else match fields[key]
      case Flag(b) => Some(b)
      case Text(s) =>
        if s in {"true", "1", "yes"} then Some(true)
        else if s in {"false", "0", "no"} then Some(false)
        else None
  }

  /**
   * `reportPayload`: the nine named fields and nothing else, so no images,
   * status, tracking number or author ever leave the form.
   */
  function Payload(form: Form): (p: ReportBody)
    ensures p.images == [] && p.status.None? && p.trackingNumber.None? && p.createdBy.None?
    ensures p.coordinates == form.coordinates
    ensures forall k :: k in form.fields && form.fields[k].Text? ==>
      (k == "crimeType" ==> p.crimeType == Some(form.fields[k].s))
      && (k == "title" ==> p.title == Some(form.fields[k].s))
      && (k == "description" ==> p.description == Some(form.fields[k].s))
      && (k == "location" ==> p.location == Some(form.fields[k].s))
      && (k == "date" ==> p.date == Some(form.fields[k].s))
      && (k == "time" ==> p.time == Some(form.fields[k].s))
      && (k == "urgency" ==> p.urgency == Some(form.fields[k].s))
    ensures "isAnonymous" in form.fields && form.fields["isAnonymous"].Flag? ==>
      p.isAnonymous == Some(form.fields["isAnonymous"].b)
  {
    var f := form.fields;
    ReportBody(
      crimeType := TextOf(f, "crimeType"),
      title := TextOf(f, "title"),
      description := TextOf(f, "description"),
      location := TextOf(f, "location"),
      coordinates := form.coordinates,
      date := TextOf(f, "date"),
      time := TextOf(f, "time"),
      urgency := TextOf(f, "urgency"),
      isAnonymous := FlagOf(f, "isAnonymous"),
      images := [],
      status := None,
      trackingNumber := None,
      createdBy := None)
  }

  /** What pressing "submit" does: an alert, or a request with these headers and body. */
  datatype Submission = Blocked(alert: string) | Send(headers: Session.Headers, payload: ReportBody)

  function Submit(form: Form, isAnonymousMode: bool, store: Session.Storage): (s: Submission)
    ensures s.Blocked? <==> MissingRequired(form)
    ensures s.Blocked? ==> s.alert == MissingFields
    ensures s.Send? ==> s.headers == Session.GetHeaders(store, !isAnonymousMode) && s.payload == Payload(form)
    ensures s.Send? && isAnonymousMode ==> s.headers.authorization.None?
  {
    if MissingRequired(form) then Blocked(MissingFields)
    else Send(SubmitHeaders(store, isAnonymousMode), Payload(form))
  }

  /** The server's answer: the created document's `trackingNumber` and `_id`, or an error message. */
  datatype Reply = Accepted(trackingNumber: Option<string>, id: Option<string>) | Failed(message: Option<string>)

  const TrackingPrefix := "REPORT"
  const DefaultError := "Erreur lors de l'envoi du signalement"

  /**
   * `generateTrackingNumber`: "REPORT-", the clock in base 36, "-", and
   * characters 2 to 6 of a random number's base-36 rendering, upper-cased.
   * The clock and the random rendering are parameters.
   */
  function GenerateTrackingNumber(now: nat, random36: string): (t: string)
    ensures IsPrefix(TrackingPrefix + "-", t)
  {
    TrackingPrefix + "-" + Upper(NatToRadix(now, 36)) + "-" + Upper(Substring(random36, 2, 6))
  }

  /** The generated number's parts: the clock can be read back, and the random part has at most four characters. */
  lemma GeneratedParts(now: nat, random36: string)
    ensures var stamp := Upper(NatToRadix(now, 36));
      var tail := Upper(Substring(random36, 2, 6));
      && GenerateTrackingNumber(now, random36) == "REPORT-" + stamp + "-" + tail
      && |tail| <= 4
      && Lower(stamp) == NatToRadix(now, 36)
      && RadixValue(Lower(stamp), 36) == now
  {
    var digits := NatToRadix(now, 36);
    LowerUpper(digits);
    DigitsNotUpper(digits);
    LowerIdentity(digits);
    RadixRoundTrip(now, 36);
    assert TrackingPrefix + "-" == "REPORT-";
  }

  /** `data.trackingNumber || data._id || generateTrackingNumber()`. */
  function TrackingNumber(trackingNumber: Option<string>, id: Option<string>, now: nat, random36: string): (t: string)
    ensures Truthy(trackingNumber) ==> t == trackingNumber.value
    ensures !Truthy(trackingNumber) && Truthy(id) ==> t == id.value
    ensures !Truthy(trackingNumber) && !Truthy(id) ==> t == GenerateTrackingNumber(now, random36)
    ensures t != ""
  {
    if Truthy(trackingNumber) then trackingNumber.value
    else if Truthy(id) then id.value
    else GenerateTrackingNumber(now, random36)
  }

  /** The form after the response: the confirmation screen with a fresh form, or an alert with the form kept. */
  datatype Outcome = Confirmed(tracking: string, form: Form) | Alerted(message: string, form: Form)

  function HandleReply(form: Form, isAnonymousMode: bool, reply: Reply, now: nat, random36: string): (o: Outcome)
    ensures o.Confirmed? <==> reply.Accepted?
    ensures o.Confirmed? ==> o.form == Initial(isAnonymousMode) && o.tracking != ""
    ensures o.Alerted? ==> o.form == form
    ensures o.Alerted? && Truthy(reply.message) ==> o.message == reply.message.value
    ensures o.Alerted? && !Truthy(reply.message) ==> o.message == DefaultError
  {
    match reply
    case Accepted(tn, id) => Confirmed(TrackingNumber(tn, id, now, random36), Initial(isAnonymousMode))
    case Failed(msg) => Alerted(if Truthy(msg) then msg.value else DefaultError, form)
  }

  /** The reset after a success keeps the anonymous mode and clears the images, coordinates and texts. */
  lemma ResetAfterSuccess(form: Form, isAnonymousMode: bool, tn: Option<string>, id: Option<string>, now: nat, random36: string)
    ensures var f := HandleReply(form, isAnonymousMode, Accepted(tn, id), now, random36).form;
      && f.fields["isAnonymous"] == Flag(isAnonymousMode)
      && f.fields["urgency"] == Text("medium")
      && f.images == [] && f.previews == [] && f.coordinates.None?
      && MissingRequired(f)
  {
  }

  /** What the server answers to a request: the created report's fields, or an error. */
  function ReplyOf(c: ReportController.Created): Reply {
    if c.report.Some? then Accepted(c.report.value.trackingNumber, Some(c.report.value.id))
    else Failed(Some("Erreur lors de la création du signalement"))
  }

  /** The backend's answer to a submission, through the optional-auth middleware. */
  function Post(db: Db, s: Submission, verify: string -> Option<Id>, id: Id, now: Stamp): (c: ReportController.Created)
    requires s.Send?
    ensures c.status == 201 || c.status == 500
  {
    var g := AuthMiddleware.AuthenticateOptional(db, s.headers.authorization, verify);
    ReportController.CreateReport(db, s.payload, g.user, id, now)
  }

  /**
   * A signed-in user who ticks "anonymous" on the regular form still sends
   * the token, and the backend records them as the author.
   */
  lemma AnonymousTickStillAttributed(db: Db, form: Form, store: Session.Storage, verify: string -> Option<Id>,
                                     i: nat, id: Id, now: Stamp)
    requires !MissingRequired(form)
    requires "isAnonymous" in form.fields && form.fields["isAnonymous"] == Flag(true)
    requires Truthy(store.token) && i < |db.users|
    requires verify(store.token.value) == Some(db.users[i].id)
    requires forall j :: 0 <= j < i ==> db.users[j].id != db.users[i].id
    requires Post(db, Submit(form, false, store), verify, id, now).status == 201
    ensures var r := Post(db, Submit(form, false, store), verify, id, now).report.value;
      r.isAnonymous && r.createdBy == Some(db.users[i].id)
  {
    var s := Submit(form, false, store);
    assert s.headers.authorization == Some(AuthMiddleware.BearerPrefix + store.token.value);
    AuthMiddleware.ValidTokenAttaches(db, store.token.value, verify, i);
  }

  /** In anonymous mode no token is sent, so no author is recorded even for a signed-in user. */
  lemma AnonymousModeUnattributed(db: Db, form: Form, store: Session.Storage, verify: string -> Option<Id>,
                                  id: Id, now: Stamp)
    requires !MissingRequired(form)
    requires Post(db, Submit(form, true, store), verify, id, now).status == 201
    ensures Post(db, Submit(form, true, store), verify, id, now).report.value.createdBy.None?
  {
  }

  /**
   * `handleSubmit` does not check the title; the server refuses an empty
   * one. On the rendered form the browser's `required` check stops an empty
   * title first (`RenderedTitleAccepted`).
   */
  lemma EmptyTitleRefused(db: Db, form: Form, isAnonymousMode: bool, store: Session.Storage,
                          verify: string -> Option<Id>, id: Id, now: Stamp)
    requires !MissingRequired(form)
    requires "title" in form.fields && form.fields["title"] == Text("")
    ensures Submit(form, isAnonymousMode, store).Send?
    ensures Post(db, Submit(form, isAnonymousMode, store), verify, id, now).status == 500
    ensures Post(db, Submit(form, isAnonymousMode, store), verify, id, now).db == db
  {
  }

  /**
   * Pressing "submit" on the rendered form: the browser's constraint
   * validation runs first, and `handleSubmit` only sees a form that passes it.
   */
  function SubmitRendered(form: Form, isAnonymousMode: bool, store: Session.Storage): (a: Attempt<Submission>)
    ensures a.NotSubmitted? <==> !ConstraintsMet(form)
    ensures a.Handled? ==> a.outcome.Send? && a.outcome == Submit(form, isAnonymousMode, store)
  {
    if ConstraintsMet(form) then
      ConstraintsCoverCheck(form);
      Handled(Submit(form, isAnonymousMode, store))
    else NotSubmitted
  }

  /**
   * From the rendered form the missing-field alert never shows, and the
   * title sent is one the schema's required and length rules accept.
   */
  lemma RenderedTitleAccepted(form: Form, isAnonymousMode: bool, store: Session.Storage)
    requires ConstraintsMet(form)
    ensures SubmitRendered(form, isAnonymousMode, store).Handled?
    ensures var t := SubmitRendered(form, isAnonymousMode, store).outcome.payload.title;
      t.Some? && t.value != "" && |t.value| <= MaxTitleLength
  {
  }

  /** Since the payload carries no tracking number, a successful submission shows the report's id. */
  lemma CreatedIdShown(db: Db, form: Form, isAnonymousMode: bool, store: Session.Storage,
                       verify: string -> Option<Id>, id: Id, now: Stamp, clock: nat, random36: string)
    requires !MissingRequired(form) && id != ""
    requires Post(db, Submit(form, isAnonymousMode, store), verify, id, now).status == 201
    ensures var reply := ReplyOf(Post(db, Submit(form, isAnonymousMode, store), verify, id, now));
      HandleReply(form, isAnonymousMode, reply, clock, random36) == Confirmed(id, Initial(isAnonymousMode))
  {
  }
}

=== FILE: report_model.dfy ===
/**
 * The Report schema: field enumerations, defaults and length bounds, the
 * save-time validation, the pre-save normalisation of `{lat, lng}` into a
 * GeoJSON point `[lng, lat]`, and its `getLatLng` inverse.
 */
module ReportModel {
  import opened Wrappers

  /** Document ids (Mongo ObjectIds in their string form). */
  type Id = string

  const CrimeTypes: seq<string> :=
    ["theft", "assault", "vandalism", "fraud", "drug", "violence", "cybercrime", "other"]
  const Urgencies: seq<string> := ["low", "medium", "high"]
  const Statuses: seq<string> := ["submitted", "in_review", "resolved"]

  const MaxTitleLength := 100
  const MaxDescriptionLength := 1000
  const DefaultUrgency := "medium"
  const DefaultStatus := "submitted"

  type Month = m: int | 1 <= m <= 12 witness 1
  type Week = w: int | 0 <= w <= 53 witness 0

  /**
   * A creation timestamp together with the calendar fields the statistics
   * group on (`$year`, `$month`, `$week`), computed outside the model.
   */
  datatype Stamp = Stamp(instant: int, year: int, month: Month, week: Week)

  /**
   * The two coordinate shapes a document can hold: the front end's
   * `{lat, lng}` object, or the GeoJSON `Point` whose array is `[lng, lat]`.
   */
  datatype Coordinates = LatLng(lat: real, lng: real) | Point(coordinates: seq<real>)

  /** What `getLatLng` returns: missing array entries read as `undefined`. */
  datatype LatLngView = LatLngView(lng: Option<real>, lat: Option<real>)

  /** The body a client posts; every field may be missing. */
  datatype ReportBody = ReportBody(
    crimeType: Option<string>,
    title: Option<string>,
    description: Option<string>,
    location: Option<string>,
    coordinates: Option<Coordinates>,
    date: Option<string>,
    time: Option<string>,
    urgency: Option<string>,
    isAnonymous: Option<bool>,
    images: seq<string>,
    status: Option<string>,
    trackingNumber: Option<string>,
    createdBy: Option<Id>)

  /** A persisted report. */
  datatype Report = Report(
    id: Id,
    crimeType: string,
    title: string,
    description: string,
    location: string,
    coordinates: Option<Coordinates>,
    date: string,
    time: Option<string>,
    urgency: string,
    isAnonymous: bool,
    images: seq<string>,
    status: string,
    trackingNumber: Option<string>,
    createdBy: Option<Id>,
    createdAt: Stamp,
    updatedAt: int)

  /** Why a save was refused. */
  datatype ValidationError = Missing(field: string) | Invalid(field: string)

  /** A required String path accepts neither a missing value nor the empty string. */
  predicate Present(v: Option<string>) {
    v.Some? && v.value != ""
  }

  /** The checks the schema runs on every save. */
  predicate Valid(r: Report) {
    && r.crimeType in CrimeTypes
    && r.title != "" && |r.title| <= MaxTitleLength
    && r.description != "" && |r.description| <= MaxDescriptionLength
    && r.location != ""
    && r.date != ""
    && r.urgency in Urgencies
    && r.status in Statuses
  }

  /** The first failing check, in schema order. */
  function Check(r: Report): (e: Option<ValidationError>)
    ensures e.None? <==> Valid(r)
  {
    if r.crimeType == "" then Some(Missing("crimeType"))
    else if r.crimeType !in CrimeTypes then Some(Invalid("crimeType"))
    else if r.title == "" then Some(Missing("title"))
    else if |r.title| > MaxTitleLength then Some(Invalid("title"))
    else if r.description == "" then Some(Missing("description"))
    else if |r.description| > MaxDescriptionLength then Some(Invalid("description"))
    else if r.location == "" then Some(Missing("location"))
    else if r.date == "" then Some(Missing("date"))
    else if r.urgency !in Urgencies then Some(Invalid("urgency"))
    else if r.status !in Statuses then Some(Invalid("status"))
    else None
  }

  /** The pre-save hook: `{lat, lng}` becomes `Point [lng, lat]`; anything else is kept. */
  function Normalise(c: Option<Coordinates>): (n: Option<Coordinates>)
    ensures c.None? ==> n.None?
    ensures c.Some? && c.value.LatLng? ==> n == Some(Point([c.value.lng, c.value.lat]))
    ensures c.Some? && c.value.Point? ==> n == c
  {
    match c
    case Some(LatLng(lat, lng)) => Some(Point([lng, lat]))
    case _ => c
  }

  /** `getLatLng`: reads `[lng, lat]` back out of a stored point, or null. */
  function GetLatLng(c: Option<Coordinates>): Option<LatLngView> {
    match c
    case Some(Point(cs)) =>
      Some(LatLngView(if |cs| > 0 then Some(cs[0]) else None, if |cs| > 1 then Some(cs[1]) else None))
    case _ => None
  }

  /** Normalising `{lat, lng}` and reading it back gives the same latitude and longitude. */
  lemma NormaliseRoundTrip(lat: real, lng: real)
    ensures GetLatLng(Normalise(Some(LatLng(lat, lng)))) == Some(LatLngView(Some(lng), Some(lat)))
  {
  }

  /** Conversely, a two-element point is what normalising its own `getLatLng` yields. */
  lemma PointRoundTrip(cs: seq<real>)
    requires |cs| == 2
    ensures GetLatLng(Some(Point(cs))) == Some(LatLngView(Some(cs[0]), Some(cs[1])))
    ensures Normalise(Some(LatLng(cs[1], cs[0]))) == Some(Point(cs))
  {
    assert [cs[0], cs[1]] == cs;
  }

  /** `getLatLng` is null exactly when the report has no stored point. */
  lemma GetLatLngNull(c: Option<Coordinates>)
    ensures GetLatLng(c).None? <==> (c.None? || c.value.LatLng?)
  {
  }

  /** `Report.create`: apply defaults, validate, run the pre-save hook. */
  function Create(body: ReportBody, id: Id, now: Stamp): (res: Result)
    ensures res.Saved? ==> Valid(res.report)
    ensures res.Saved? ==> res.report.id == id && res.report.createdAt == now
    ensures res.Saved? ==> res.report.createdBy == body.createdBy
    ensures res.Saved? ==> res.report.coordinates == Normalise(body.coordinates)
    ensures res.Saved? ==> res.report.urgency == body.urgency.GetOr(DefaultUrgency)
    ensures res.Saved? ==> res.report.status == body.status.GetOr(DefaultStatus)
    ensures res.Saved? ==> res.report.isAnonymous == body.isAnonymous.GetOr(false)
    ensures res.Saved? <==>
      && Present(body.crimeType) && Present(body.title) && Present(body.description)
      && Present(body.location) && Present(body.date)
      && Valid(Instantiate(body, id, now))
  {
    if !Present(body.crimeType) then Rejected(Missing("crimeType"))
    else if !Present(body.title) then Rejected(Missing("title"))
    else if !Present(body.description) then Rejected(Missing("description"))
    else if !Present(body.location) then Rejected(Missing("location"))
    else if !Present(body.date) then Rejected(Missing("date"))
    else
      var r := Instantiate(body, id, now);
      match Check(r)
      case Some(e) => Rejected(e)
      case None => Saved(r.(coordinates := Normalise(r.coordinates)))
  }

  datatype Result = Saved(report: Report) | Rejected(error: ValidationError)

  /**
   * What Mongoose keeps of `coordinates` as the schema is written. The
   * path's `type` key holds an object with its own `type`, so `coordinates`
   * is a nested path rather than a typed value: strict mode drops `lat` and
   * `lng`, and the nested defaults supply `type: 'Point'` and an empty
   * `coordinates` array, even when the body has no coordinates at all.
   */
  function CastCoordinates(c: Option<Coordinates>): (n: Coordinates)
    ensures n.Point?
    ensures c.Some? && c.value.Point? ==> n == c.value
    ensures (c.None? || c.value.LatLng?) ==> n.coordinates == []
  {
    match c
    case Some(Point(cs)) => Point(cs)
    case _ => Point([])
  }

  /**
   * `Report.create` as written: validation is as in `Create`, but the
   * pre-save hook sees the cast coordinates, which never carry `lat`.
   */
  function CreateAsWritten(body: ReportBody, id: Id, now: Stamp): (res: Result)
    ensures res.Saved? <==> Create(body, id, now).Saved?
    ensures res.Rejected? ==> res == Create(body, id, now)
    ensures res.Saved? ==> res.report.coordinates == Some(CastCoordinates(body.coordinates))
    ensures res.Saved? ==> res.report.(coordinates := Create(body, id, now).report.coordinates) == Create(body, id, now).report
  {
    match Create(body, id, now)
    case Saved(r) => Saved(r.(coordinates := Normalise(Some(CastCoordinates(body.coordinates)))))
    case Rejected(e) => Rejected(e)
  }

  /**
   * As written, a position sent as `{lat, lng}` is lost: the stored point is
   * empty and `getLatLng` reads two undefined values; a report sent without
   * coordinates reads the same instead of null.
   */
  lemma CoordinatesLostAsWritten(body: ReportBody, id: Id, now: Stamp)
    requires body.coordinates.None? || body.coordinates.value.LatLng?
    requires Create(body, id, now).Saved?
    ensures CreateAsWritten(body, id, now).Saved?
    ensures CreateAsWritten(body, id, now).report.coordinates == Some(Point([]))
    ensures GetLatLng(CreateAsWritten(body, id, now).report.coordinates) == Some(LatLngView(None, None))
  {
  }

  /** The intended storage: a `{lat, lng}` position reads back as that latitude and longitude. */
  lemma CreateKeepsPosition(body: ReportBody, id: Id, now: Stamp, lat: real, lng: real)
    requires body.coordinates == Some(LatLng(lat, lng))
    requires Create(body, id, now).Saved?
    ensures GetLatLng(Create(body, id, now).report.coordinates) == Some(LatLngView(Some(lng), Some(lat)))
  {
    NormaliseRoundTrip(lat, lng);
  }

  /** The document `new Report(body)` builds, with the schema defaults filled in. */
  function Instantiate(body: ReportBody, id: Id, now: Stamp): Report {
    Report(
      id := id,
      crimeType := body.crimeType.GetOr(""),
      title := body.title.GetOr(""),
      description := body.description.GetOr(""),
      location := body.location.GetOr(""),
      coordinates := body.coordinates,
      date := body.date.GetOr(""),
      time := body.time,
      urgency := body.urgency.GetOr(DefaultUrgency),
      isAnonymous := body.isAnonymous.GetOr(false),
      images := body.images,
      status := body.status.GetOr(DefaultStatus),
      trackingNumber := body.trackingNumber,
      createdBy := body.createdBy,
      createdAt := now,
      updatedAt := now.instant)
  }

  /** `rejected` is not one of the schema's statuses, so a report can never hold it. */
  lemma RejectedNotAdmitted(r: Report)
    requires Valid(r)
    ensures r.status != "rejected"
  {
  }

  /** A body that leaves urgency and status out gets `medium` and `submitted`. */
  lemma CreateDefaults(body: ReportBody, id: Id, now: Stamp)
    requires body.urgency.None? && body.status.None? && body.isAnonymous.None?
    requires Create(body, id, now).Saved?
    ensures Create(body, id, now).report.urgency == "medium"
    ensures Create(body, id, now).report.status == "submitted"
    ensures !Create(body, id, now).report.isAnonymous
  {
  }
}

=== FILE: report_page.dfy ===
/**
 * The `/report` page: the same form without a map, whose submit only
 * validates, waits and navigates; the report itself is never sent.
 */
module ReportPage {
  import opened FormState

  /** The page's initial form: the shared initial state, not anonymous. */
  function PageInitial(): (f: Form)
    ensures "isAnonymous" in f.fields && f.fields["isAnonymous"] == Flag(false)
    ensures "urgency" in f.fields && f.fields["urgency"] == Text("medium")
    ensures forall k :: k in TextFields ==> k in f.fields && f.fields[k] == Text("")
    ensures f.images == [] && f.previews == []
  {
    Initial(false)
  }

  const SubmittedAlert := "Signalement soumis avec succès !"
  const DashboardRoute := "/dashboard"

  /** The alert shown and, on success, the route navigated to. */
  datatype PageSubmit = PageBlocked(alert: string) | Done(alert: string, route: string)

  function Submit(form: Form): (s: PageSubmit)
    ensures s.PageBlocked? <==> MissingRequired(form)
    ensures s.PageBlocked? ==> s.alert == MissingFields
    ensures s.Done? ==> s == Done(SubmittedAlert, DashboardRoute)
  {
    if MissingRequired(form) then PageBlocked(MissingFields) else Done(SubmittedAlert, DashboardRoute)
  }

  /** Pressing "submit" on the rendered page: whatever passes the browser's check is submitted. */
  function SubmitRendered(form: Form): (a: Attempt<PageSubmit>)
    ensures a.NotSubmitted? <==> !ConstraintsMet(form)
    ensures a.Handled? ==> a.outcome == Done(SubmittedAlert, DashboardRoute)
  {
    if ConstraintsMet(form) then
      ConstraintsCoverCheck(form);
      Handled(Submit(form))
    else NotSubmitted
  }

  /** Nothing of the form reaches the outcome beyond whether the required fields are filled. */
  lemma NothingTransmitted(a: Form, b: Form)
    requires MissingRequired(a) == MissingRequired(b)
    ensures Submit(a) == Submit(b)
  {
  }

  /** Images and previews have no bearing on submitting. */
  lemma ImagesIrrelevant(form: Form, files: seq<File>, index: int)
    ensures Submit(HandleImageUpload(form, files).form) == Submit(form)
    ensures Submit(RemoveImage(form, index)) == Submit(form)
  {
  }
}

=== FILE: role_middleware.dfy ===
/** `adminMiddleware`: the role check placed after authentication. */
module RoleMiddleware {
  import opened Wrappers
  import opened Store

  /** The answer of a role check: continue, or refuse with a status and a message. */
  datatype Decision = Pass | Deny(status: nat, message: string)

  predicate IsAdmin(user: Option<User>) {
    user.Some? && user.value.role == Some("admin")
  }

  /**
   * The rule both admin checks apply: 401 without a user, 403 for any role
   * other than `admin`, otherwise next; only the two messages vary.
   */
  function RoleCheck(user: Option<User>, unauthenticated: string, forbidden: string): (d: Decision)
    ensures d.Pass? <==> IsAdmin(user)
    ensures d.Deny? && user.None? ==> d.status == 401 && d.message == unauthenticated
    ensures d.Deny? && user.Some? ==> d.status == 403 && d.message == forbidden
  {
    if user.None? then Deny(401, unauthenticated)
    else if user.value.role != Some("admin") then Deny(403, forbidden)
    else Pass
  }

  /** `adminMiddleware`, with its own messages. */
  function AdminMiddleware(user: Option<User>): (d: Decision)
    ensures d.Pass? <==> IsAdmin(user)
    ensures user.None? ==> d == Deny(401, "Authentification requise")
    ensures user.Some? && !IsAdmin(user) ==> d == Deny(403, "Accès refusé. Rôle admin requis.")
  {
    RoleCheck(user, "Authentification requise", "Accès refusé. Rôle admin requis.")
  }
}

=== FILE: seqs.dfy ===
/**
 * Collection operations shared by the store and the pages: the first match
 * of `findOne`/`findById`, the filter of `find(query)`/`Array.filter`,
 * removal and replacement at an index, and MongoDB's `skip`/`limit`.
 */
module Seqs {
  import opened Wrappers

  /** Index of the first element satisfying `p`, if any. */
  function FindIndex<T>(s: seq<T>, p: T -> bool): (r: Option<nat>)
    ensures r.Some? ==> r.value < |s| && p(s[r.value])
    ensures r.Some? ==> forall j :: 0 <= j < r.value ==> !p(s[j])
    ensures r.None? <==> forall i :: 0 <= i < |s| ==> !p(s[i])
    decreases |s|
  {
    if |s| == 0 then None
    else if p(s[0]) then Some(0)
    else
      var rest := FindIndex(s[1..], p);
      assert forall i :: 1 <= i < |s| ==> s[i] == s[1..][i - 1];
      match rest
      case None => None
      case Some(k) => Some(k + 1)
  }

  /** The elements satisfying `p`, in their original order. */
  function Filter<T>(s: seq<T>, p: T -> bool): (r: seq<T>)
    ensures |r| <= |s|
    ensures forall i :: 0 <= i < |r| ==> r[i] in s && p(r[i])
    ensures forall i :: 0 <= i < |s| && p(s[i]) ==> s[i] in r
    decreases |s|
  {
    if |s| == 0 then []
    else
      var rest := Filter(s[1..], p);
      assert forall i :: 1 <= i < |s| ==> s[i] == s[1..][i - 1];
      if p(s[0]) then [s[0]] + rest else rest
  }

  /** Filtering distributes over concatenation, so it keeps the relative order. */
  lemma {:induction false} FilterAppend<T>(a: seq<T>, b: seq<T>, p: T -> bool)
    ensures Filter(a + b, p) == Filter(a, p) + Filter(b, p)
    decreases |a|
  {
    if |a| > 0 {
      assert (a + b)[1..] == a[1..] + b;
      FilterAppend(a[1..], b, p);
    } else {
      assert a + b == b;
    }
  }

  /** A filter that every element passes returns the whole sequence. */
  lemma {:induction false} FilterAll<T>(s: seq<T>, p: T -> bool)
    requires forall i :: 0 <= i < |s| ==> p(s[i])
    ensures Filter(s, p) == s
    decreases |s|
  {
    if |s| > 0 {
      FilterAll(s[1..], p);
    }
  }

  /** The positions of `s` whose element satisfies `p`. */
  function Positions<T>(s: seq<T>, p: T -> bool): set<nat> {
    set i: nat | i < |s| && p(s[i])
  }

  /** A filter keeps one element per satisfying position: its length counts them. */
  lemma {:induction false} FilterCount<T>(s: seq<T>, p: T -> bool)
    ensures |Filter(s, p)| == |Positions(s, p)|
    decreases |s|
  {
    if |s| > 0 {
      var tail := Positions(s[1..], p);
      FilterCount(s[1..], p);
      ShiftCard(tail);
      PositionsCons(s, p);
      assert 0 !in Shift(tail);
    }
  }

  /** The positions of a non-empty sequence: possibly 0, then those of its tail moved up by one. */
  lemma PositionsCons<T>(s: seq<T>, p: T -> bool)
    requires |s| > 0
    ensures Positions(s, p) == (if p(s[0]) then {0} else {}) + Shift(Positions(s[1..], p))
  {
    var tail := Positions(s[1..], p);
    forall i: nat | i in Positions(s, p) && i > 0
      ensures i in Shift(tail)
    {
      assert s[1..][i - 1] == s[i];
      assert i - 1 in tail;
    }
  }

  function Shift(a: set<nat>): set<nat> {
    set j | j in a :: j + 1
  }

  /** Adding one to every element keeps a set's size. */
  lemma {:induction false} ShiftCard(a: set<nat>)
    ensures |Shift(a)| == |a|
    decreases |a|
  {
    if a != {} {
      var x :| x in a;
      var rest := a - {x};
      ShiftCard(rest);
      assert x + 1 !in Shift(rest);
      assert Shift(a) == Shift(rest) + {x + 1} by {
        forall y | y in Shift(a) ensures y in Shift(rest) + {x + 1} {
          var j :| j in a && y == j + 1;
          if j != x { assert j in rest; }
        }
      }
    }
  }

  /** `s` with index `i` dropped. */
  function RemoveAt<T>(s: seq<T>, i: nat): (r: seq<T>)
    requires i < |s|
    ensures |r| == |s| - 1
    ensures forall j :: 0 <= j < i ==> r[j] == s[j]
    ensures forall j :: i <= j < |r| ==> r[j] == s[j + 1]
  {
    s[..i] + s[i + 1..]
  }

  /**
   * `cursor.skip(skip).limit(limit)`: MongoDB treats a limit of 0 as no
   * limit and a negative limit as its absolute value.
   */
  function Page<T>(s: seq<T>, skip: nat, limit: int): (r: seq<T>)
    ensures skip >= |s| ==> r == []
    ensures skip < |s| && limit == 0 ==> |r| == |s| - skip
    ensures skip < |s| && limit != 0 ==> |r| == Min(|s| - skip, Abs(limit))
    ensures forall i :: 0 <= i < |r| ==> skip + i < |s| && r[i] == s[skip + i]
  {
    if skip >= |s| then []
    else
      var rest := s[skip..];
      if limit == 0 || Abs(limit) >= |rest| then rest else rest[..Abs(limit)]
  }

  /**
   * How many of `total` elements a page starting at `skip` holds: what is
   * left after the skip, capped by `|limit|` unless the limit is 0.
   */
  function PageLength(total: nat, skip: int, limit: int): nat {
    var rest: nat := if skip >= total then 0 else total - skip;
    if limit == 0 then rest else Min(rest, Abs(limit))
  }

  function Abs(x: int): nat { if x < 0 then -x else x }
  function Min(a: int, b: int): int { if a <= b then a else b }

  /** JavaScript's `Math.ceil(total / limit)` for a non-zero integer divisor. */
  function CeilDiv(total: nat, limit: int): (q: int)
    requires limit != 0
    ensures limit > 0 ==> q * limit >= total && (q - 1) * limit < total
    ensures limit < 0 ==> q <= 0 && q * limit <= total && (q - 1) * limit > total
  {
    if limit > 0 then CeilPos(total, limit) else -(total / -limit)
  }

  function CeilPos(a: nat, b: nat): (q: nat)
    requires b > 0
    ensures q * b >= a && (q - 1) * b < a
  {
    var q := (a + b - 1) / b;
    assert (a + b - 1) == q * b + (a + b - 1) % b;
    q
  }
}

=== FILE: session.dfy ===
/**
 * The front end's session service (`authService` and `getHeaders`) over
 * `localStorage`. Only the two keys the service uses are modelled; the
 * `user` entry is the object `JSON.stringify` writes and `JSON.parse`
 * reads back.
 */
module Session {
  import opened Wrappers

  /** The user object stored at login: id, name and email, and no role. */
  datatype StoredUser = StoredUser(id: Option<string>, name: Option<string>, email: Option<string>)

  /** The `token` and `user` entries of `localStorage`. */
  datatype Storage = Storage(token: Option<string>, user: Option<StoredUser>)

  const EmptyStorage := Storage(None, None)

  datatype Headers = Headers(contentType: string, authorization: Option<string>)

  const JsonContentType := "application/json"

  /** `getHeaders(includeAuth)`: JSON always; a bearer token only when asked for and one is stored. */
  function GetHeaders(store: Storage, includeAuth: bool): (h: Headers)
    ensures h.contentType == JsonContentType
    ensures h.authorization.Some? <==> includeAuth && Truthy(store.token)
    ensures h.authorization.Some? ==> h.authorization.value == "Bearer " + store.token.value
  {
    var auth := if includeAuth && Truthy(store.token) then Some("Bearer " + store.token.value) else None;
    Headers(JsonContentType, auth)
  }

  /** The JSON body the front end receives from the login endpoint. */
  datatype LoginData = LoginData(
    token: Option<string>,
    userId: Option<string>,
    name: Option<string>,
    email: Option<string>,
    role: Option<string>,
    message: Option<string>)

  /** `authService.login`: the session is written only when the response carries a token. */
  function Login(store: Storage, data: LoginData): (s: Storage)
    ensures !Truthy(data.token) ==> s == store
    ensures Truthy(data.token) ==> s.token == data.token
    ensures Truthy(data.token) ==> s.user == Some(StoredUser(data.userId, data.name, data.email))
  {
    if Truthy(data.token) then Storage(data.token, Some(StoredUser(data.userId, data.name, data.email)))
    else store
  }

  /** `authService.logout`. */
  function Logout(store: Storage): (s: Storage)
    ensures s.token.None? && s.user.None?
  {
    EmptyStorage
  }

  /** `authService.getCurrentUser`. */
  function GetCurrentUser(store: Storage): Option<StoredUser> {
    store.user
  }

  /** `authService.isAuthenticated`: `!!localStorage.getItem('token')`. */
  predicate IsAuthenticated(store: Storage) {
    Truthy(store.token)
  }

  /** After logout nobody is signed in and there is no current user. */
  lemma LogoutSignsOut(store: Storage)
    ensures !IsAuthenticated(Logout(store))
    ensures GetCurrentUser(Logout(store)).None?
  {
  }

  /** A login signs the session in exactly when the response carries a token, which then authorises requests. */
  lemma LoginAuthenticates(store: Storage, data: LoginData)
    requires !IsAuthenticated(store)
    ensures IsAuthenticated(Login(store, data)) <==> Truthy(data.token)
    ensures Truthy(data.token) ==>
      GetHeaders(Login(store, data), true).authorization == Some("Bearer " + data.token.value)
    ensures GetHeaders(Login(store, data), false).authorization.None?
  {
  }
}

=== FILE: stats.dfy ===
/**
 * The statistics controller: global counters, by-category, by-status,
 * monthly, by-zone and weekly breakdowns, each an explicit fold over the
 * reports in the collection.
 */
module Stats {
  import opened Wrappers
  import opened Text
  import opened ReportModel
  import opened Aggregate

  // ----------------------------------------------------------- rates

  /** `Math.round(x)`: the nearest integer, halves rounded up. */
  function Round(x: real): (n: int)
    ensures n as real <= x + 0.5 < n as real + 1.0
  {
    (x + 0.5).Floor
  }

  /** `(part / whole) * 100`, exactly. */
  function Percent(part: nat, whole: nat): real
    requires whole > 0
  {
    part as real / whole as real * 100.0
  }

  /** Round-half-up of 100 * part / whole in integer arithmetic only. */
  function IntRoundPercent(part: nat, whole: nat): int
    requires whole > 0
  {
    (200 * part + whole) / (2 * whole)
  }

  /** The rounded percentage equals the integer formula floor((200 part + whole) / (2 whole)). */
  lemma {:induction false} RoundPercentExact(part: nat, whole: nat)
    requires whole > 0
    ensures Round(Percent(part, whole)) == IntRoundPercent(part, whole)
  {
    PercentHalf(part, whole);
    FloorOfQuotient(200 * part + whole, 2 * whole);
  }

  /** Adding a half to the percentage gives the quotient (200 part + whole) / (2 whole). */
  lemma PercentHalf(part: nat, whole: nat)
    requires whole > 0
    ensures Percent(part, whole) + 0.5 == (200 * part + whole) as real / (2 * whole) as real
  {
    var p, t := part as real, whole as real;
    assert (200 * part + whole) as real == 200.0 * p + t;
    assert (2 * whole) as real == 2.0 * t;
    assert (p / t * 100.0 + 0.5) * (2.0 * t) == 200.0 * p + t;
    QuotientUnique(p / t * 100.0 + 0.5, 200.0 * p + t, 2.0 * t);
  }

  lemma QuotientUnique(u: real, v: real, d: real)
    requires d > 0.0 && u * d == v
    ensures u == v / d
  {
    assert (v / d) * d == v;
    assert (u - v / d) * d == 0.0;
  }

  /** The floor of an exact quotient is integer division. */
  lemma FloorOfQuotient(a: nat, d: nat)
    requires d > 0
    ensures (a as real / d as real).Floor == a / d
  {
    var q, r := a / d, a % d;
    assert a == d * q + r;
    var y := a as real / d as real;
    assert y == q as real + r as real / d as real by {
      assert a as real == d as real * q as real + r as real;
    }
    assert 0.0 <= r as real / d as real < 1.0;
  }

  lemma RealScale(a: real, b: real, c: real)
    requires c > 0.0
    ensures a <= b ==> c * a <= c * b
    ensures a < b ==> c * a < c * b
  {
  }

  /** `resolutionRate`: rounded percentage of resolved reports, 0 for an empty collection. */
  function Rate(resolved: nat, total: nat): (r: int)
    ensures total == 0 ==> r == 0
    ensures total > 0 && resolved <= total ==> 0 <= r <= 100
  {
    if total > 0 then
      assert Percent(resolved, total) >= 0.0;
      assert resolved <= total ==> Percent(resolved, total) <= 100.0 by {
        if resolved <= total {
          assert resolved as real / total as real <= 1.0;
        }
      }
      Round(Percent(resolved, total))
    else 0
  }

  // ----------------------------------------------------------- global

  /** The reports' statuses, in store order. */
  function StatusesOf(rs: seq<Report>): (ss: seq<string>)
    ensures |ss| == |rs| && forall i :: 0 <= i < |rs| ==> ss[i] == rs[i].status
  {
    seq(|rs|, i requires 0 <= i < |rs| => rs[i].status)
  }

  /** `countDocuments({ status })`: how many reports have that status. */
  function CountWhere(rs: seq<Report>, status: string): (n: nat)
    ensures n == multiset(StatusesOf(rs))[status]
    ensures n <= |rs|
    decreases |rs|
  {
    if |rs| == 0 then 0
    else
      assert StatusesOf(rs) == [rs[0].status] + StatusesOf(rs[1..]);
      (if rs[0].status == status then 1 else 0) + CountWhere(rs[1..], status)
  }

  /** The distinct non-null `createdBy` values (`distinct('createdBy')` minus null). */
  function Creators(rs: seq<Report>): (s: set<Id>)
    ensures forall u :: u in s <==> exists i :: 0 <= i < |rs| && rs[i].createdBy == Some(u)
    decreases |rs|
  {
    if |rs| == 0 then {}
    else
      var rest := Creators(rs[1..]);
      assert forall i :: 1 <= i < |rs| ==> rs[i] == rs[1..][i - 1];
      assert forall u :: (exists i :: 0 <= i < |rs[1..]| && rs[1..][i].createdBy == Some(u)) ==>
        exists i :: 0 <= i < |rs| && rs[i].createdBy == Some(u) by {
        forall u | exists i :: 0 <= i < |rs[1..]| && rs[1..][i].createdBy == Some(u)
          ensures exists i :: 0 <= i < |rs| && rs[i].createdBy == Some(u)
        {
          var i :| 0 <= i < |rs[1..]| && rs[1..][i].createdBy == Some(u);
          assert rs[i + 1].createdBy == Some(u);
        }
      }
      match rs[0].createdBy
      case Some(u) => rest + {u}
      case None => rest
  }

  lemma {:induction false} CreatorsBound(rs: seq<Report>)
    ensures |Creators(rs)| <= |rs|
    decreases |rs|
  {
    if |rs| > 0 {
      CreatorsBound(rs[1..]);
    }
  }

  datatype GlobalStats = GlobalStats(
    total: nat, resolved: nat, pending: nat, inReview: nat, activeUsers: nat, resolutionRate: int)

  /**
   * `getGlobalStats`: `pending` is the number of `submitted` reports and
   * `activeUsers` the number of distinct authors.
   */
  function GetGlobalStats(rs: seq<Report>): (g: GlobalStats)
    ensures g.total == |rs|
    ensures g.resolved == multiset(StatusesOf(rs))["resolved"]
    ensures g.pending == multiset(StatusesOf(rs))["submitted"]
    ensures g.inReview == multiset(StatusesOf(rs))["in_review"]
    ensures g.activeUsers == |Creators(rs)|
    ensures g.resolved <= g.total && g.pending <= g.total && g.inReview <= g.total
    ensures g.activeUsers <= g.total
    ensures g.total == 0 ==> g.resolutionRate == 0
    ensures 0 <= g.resolutionRate <= 100
  {
    var resolved := CountWhere(rs, "resolved");
    CreatorsBound(rs);
    GlobalStats(
      total := |rs|,
      resolved := resolved,
      pending := CountWhere(rs, "submitted"),
      inReview := CountWhere(rs, "in_review"),
      activeUsers := |Creators(rs)|,
      resolutionRate := Rate(resolved, |rs|))
  }

  /** For reports the schema admits, the three status counters partition the total. */
  lemma StatusesPartition(rs: seq<Report>)
    requires forall i :: 0 <= i < |rs| ==> Valid(rs[i])
    ensures CountWhere(rs, "resolved") + CountWhere(rs, "submitted") + CountWhere(rs, "in_review") == |rs|
  {
    StatusCountsPartition(rs);
  }

  /** The induction, over the one field of `Valid` it needs. */
  lemma {:induction false} StatusCountsPartition(rs: seq<Report>)
    requires forall i :: 0 <= i < |rs| ==> rs[i].status in Statuses
    ensures CountWhere(rs, "resolved") + CountWhere(rs, "submitted") + CountWhere(rs, "in_review") == |rs|
    decreases |rs|
  {
    if |rs| > 0 {
      var tail := rs[1..];
      assert forall i :: 0 <= i < |tail| ==> tail[i] == rs[i + 1];
      StatusCountsPartition(tail);
      StatusNamesDistinct();
      CountStep(rs, "resolved");
      CountStep(rs, "submitted");
      CountStep(rs, "in_review");
    }
  }

  /** The three schema statuses are different strings; comparing literals is costly in context. */
  lemma StatusNamesDistinct()
    ensures "resolved" != "submitted" && "resolved" != "in_review" && "submitted" != "in_review"
  {
    assert "resolved"[0] != "submitted"[0];
    assert "resolved"[0] != "in_review"[0];
    assert "submitted"[0] != "in_review"[0];
  }

  /** One report's contribution to a status counter. */
  lemma CountStep(rs: seq<Report>, status: string)
    requires |rs| > 0
    ensures CountWhere(rs, status) == (if rs[0].status == status then 1 else 0) + CountWhere(rs[1..], status)
  {
  }

  /** Activity: no creator at all exactly when every report is anonymous or unauthenticated. */
  lemma NoActiveUsers(rs: seq<Report>)
    ensures GetGlobalStats(rs).activeUsers == 0 <==> forall i :: 0 <= i < |rs| ==> rs[i].createdBy.None?
  {
    if exists i :: 0 <= i < |rs| && rs[i].createdBy.Some? {
      var i :| 0 <= i < |rs| && rs[i].createdBy.Some?;
      assert rs[i].createdBy.value in Creators(rs);
    }
  }

  /** The resolution rate is the exact integer round-half-up of 100 * resolved / total. */
  lemma GlobalRateExact(rs: seq<Report>)
    requires |rs| > 0
    ensures GetGlobalStats(rs).resolutionRate == IntRoundPercent(CountWhere(rs, "resolved"), |rs|)
  {
    var resolved := CountWhere(rs, "resolved");
    assert GetGlobalStats(rs).resolutionRate == Rate(resolved, |rs|);
    assert Rate(resolved, |rs|) == Round(Percent(resolved, |rs|));
    RoundPercentExact(resolved, |rs|);
  }

  // ----------------------------------------------------------- by category

  function CategoryColor(name: string): string {
    if name == "Agression" then "#FF6B6B"
    else if name == "Vol" then "#4ECDC4"
    else if name == "Trafic" then "#FFD166"
    else if name == "Cyber" then "#06D6A0"
    else if name == "Autres" then "#118AB2"
    else "#999999"
  }

  datatype Slice = Slice(name: string, value: nat, color: string)

  function KeyedBy(rs: seq<Report>, key: Report -> string): (items: seq<(string, bool)>)
    ensures |items| == |rs|
    ensures forall i :: 0 <= i < |rs| ==> items[i] == (key(rs[i]), rs[i].status == "resolved")
  {
    seq(|rs|, i requires 0 <= i < |rs| => (key(rs[i]), rs[i].status == "resolved"))
  }

  function CrimeTypeOf(r: Report): string { r.crimeType }
  function StatusOf(r: Report): string { r.status }
  function LocationOf(r: Report): string { r.location }
  function Descending(t: Tally<string>): int { -(t.count as int) }

  function ToSlice(t: Tally<string>): Slice {
    Slice(t.key, t.count, CategoryColor(t.key))
  }

  /** `getByCategory`: group by crime type, sort by count descending, attach a colour. */
  function GetByCategory(rs: seq<Report>): (out: seq<Slice>)
  {
    var sorted := SortBy(Group(KeyedBy(rs, CrimeTypeOf)), Descending);
    seq(|sorted|, i requires 0 <= i < |sorted| => ToSlice(sorted[i]))
  }

  function SliceValue(s: Slice): int { s.value }

  function CategoryTallies(rs: seq<Report>): seq<Tally<string>> {
    SortBy(Group(KeyedBy(rs, CrimeTypeOf)), Descending)
  }

  lemma CategoryShape(rs: seq<Report>)
    ensures |GetByCategory(rs)| == |CategoryTallies(rs)|
    ensures forall i :: 0 <= i < |GetByCategory(rs)| ==> GetByCategory(rs)[i] == ToSlice(CategoryTallies(rs)[i])
  {
  }

  /** Category slices are sorted by count descending and name each crime type once. */
  lemma ByCategoryOrder(rs: seq<Report>)
    ensures forall i, j :: 0 <= i < j < |GetByCategory(rs)| ==>
      GetByCategory(rs)[i].value >= GetByCategory(rs)[j].value
    ensures forall i, j :: 0 <= i < j < |GetByCategory(rs)| ==>
      GetByCategory(rs)[i].name != GetByCategory(rs)[j].name
  {
    var items := KeyedBy(rs, CrimeTypeOf);
    GroupCounts(items);
    SortDistinct(Group(items), Descending);
    CategoryShape(rs);
  }

  /** Each slice's value is the number of reports of that crime type. */
  lemma ByCategoryCounts(rs: seq<Report>)
    ensures forall s :: s in GetByCategory(rs) ==> 1 <= s.value == Count(KeyedBy(rs, CrimeTypeOf), s.name)
  {
    var items := KeyedBy(rs, CrimeTypeOf);
    var g := Group(items);
    var sorted := CategoryTallies(rs);
    var out := GetByCategory(rs);
    CategoryShape(rs);
    forall s | s in out
      ensures 1 <= s.value == Count(items, s.name)
    {
      var i :| 0 <= i < |out| && out[i] == s;
      assert sorted[i] in multiset(g);
      GroupTally(items, sorted[i]);
    }
  }

  /** Every crime type that occurs has a slice. */
  lemma ByCategoryComplete(rs: seq<Report>)
    ensures forall r :: r in rs ==> exists s :: s in GetByCategory(rs) && s.name == r.crimeType
  {
    var items := KeyedBy(rs, CrimeTypeOf);
    var g := Group(items);
    var sorted := CategoryTallies(rs);
    var out := GetByCategory(rs);
    GroupCounts(items);
    CategoryShape(rs);
    forall r | r in rs
      ensures exists s :: s in out && s.name == r.crimeType
    {
      var i :| 0 <= i < |rs| && rs[i] == r;
      CountPositive(items, i);
      assert HasKey(g, r.crimeType);
      var j :| 0 <= j < |g| && g[j].key == r.crimeType;
      assert g[j] in multiset(sorted);
      var m :| 0 <= m < |sorted| && sorted[m] == g[j];
      assert out[m].name == r.crimeType;
    }
  }

  /** The slice values add up to the number of reports. */
  lemma ByCategorySum(rs: seq<Report>)
    ensures SumBy(GetByCategory(rs), SliceValue) == |rs|
  {
    var items := KeyedBy(rs, CrimeTypeOf);
    var sorted := CategoryTallies(rs);
    GroupCounts(items);
    SortSum(Group(items), Descending, CountOf);
    SliceSum(sorted);
    assert GetByCategory(rs) == seq(|sorted|, i requires 0 <= i < |sorted| => ToSlice(sorted[i]));
  }

  lemma {:induction false} SliceSum(ts: seq<Tally<string>>)
    ensures SumBy(seq(|ts|, i requires 0 <= i < |ts| => ToSlice(ts[i])), SliceValue) == SumBy(ts, CountOf)
    decreases |ts|
  {
    if |ts| > 0 {
      SliceSum(ts[1..]);
      assert seq(|ts|, i requires 0 <= i < |ts| => ToSlice(ts[i]))[1..]
        == seq(|ts[1..]|, i requires 0 <= i < |ts[1..]| => ToSlice(ts[1..][i]));
    }
  }

  /** An item's key always has a positive count. */
  lemma {:induction false} CountPositive<K>(items: seq<(K, bool)>, i: nat)
    requires i < |items|
    ensures Count(items, items[i].0) > 0
    decreases |items|
  {
    if i < |items| - 1 {
      CountPositive(items[..|items| - 1], i);
    }
  }

  /** Each tally of the sorted grouping counts exactly the items with its key. */
  lemma SortedTalliesExact<K>(items: seq<(K, bool)>, f: Tally<K> -> int, ts: seq<Tally<K>>)
    requires ts == SortBy(Group(items), f)
    ensures forall i :: 0 <= i < |ts| ==>
      && ts[i].count == Count(items, ts[i].key) && ts[i].resolved == CountResolved(items, ts[i].key)
      && 1 <= ts[i].count && ts[i].resolved <= ts[i].count
  {
    forall i | 0 <= i < |ts|
      ensures ts[i].count == Count(items, ts[i].key) && ts[i].resolved == CountResolved(items, ts[i].key)
      ensures 1 <= ts[i].count && ts[i].resolved <= ts[i].count
    {
      assert ts[i] in multiset(Group(items));
      GroupTally(items, ts[i]);
    }
  }

  /** Every key that occurs among the items has a tally in the sorted grouping. */
  lemma SortedGroupComplete<K>(items: seq<(K, bool)>, f: Tally<K> -> int, i: nat)
    requires i < |items|
    ensures exists j :: 0 <= j < |SortBy(Group(items), f)| && SortBy(Group(items), f)[j].key == items[i].0
  {
    var g := Group(items);
    var sorted := SortBy(g, f);
    CountPositive(items, i);
    GroupCounts(items);
    var j :| 0 <= j < |g| && g[j].key == items[i].0;
    assert g[j] in multiset(sorted);
    var m :| 0 <= m < |sorted| && sorted[m] == g[j];
  }

  /** The colour table is keyed by French labels, so every schema crime type gets the default grey. */
  lemma CategoryColorsDefault(rs: seq<Report>)
    requires forall i :: 0 <= i < |rs| ==> Valid(rs[i])
    ensures forall s :: s in GetByCategory(rs) ==> s.color == "#999999"
  {
    ByCategoryCounts(rs);
    forall s | s in GetByCategory(rs)
      ensures s.color == "#999999"
    {
      var items := KeyedBy(rs, CrimeTypeOf);
      assert Count(items, s.name) > 0;
      CountedKeyOccurs(items, s.name);
      var i :| 0 <= i < |items| && items[i].0 == s.name;
      assert rs[i].crimeType in CrimeTypes;
      CrimeTypeUncoloured(s.name);
    }
  }

  /** None of the crime-type values is a key of the colour table. */
  lemma CrimeTypeUncoloured(name: string)
    requires name in CrimeTypes
    ensures CategoryColor(name) == "#999999"
  {
    var k :| 0 <= k < |CrimeTypes| && CrimeTypes[k] == name;
    if k == 0 { assert name == "theft"; }
    else if k == 1 { assert name == "assault"; }
    else if k == 2 { assert name == "vandalism"; }
    else if k == 3 { assert name == "fraud"; }
    else if k == 4 { assert name == "drug"; }
    else if k == 5 { assert name == "violence"; }
    else if k == 6 { assert name == "cybercrime"; }
    else { assert name == "other"; }
  }

  lemma {:induction false} CountedKeyOccurs<K>(items: seq<(K, bool)>, k: K)
    requires Count(items, k) > 0
    ensures exists i :: 0 <= i < |items| && items[i].0 == k
    decreases |items|
  {
    if items[|items| - 1].0 != k {
      CountedKeyOccurs(items[..|items| - 1], k);
      var i :| 0 <= i < |items| - 1 && items[..|items| - 1][i].0 == k;
      assert items[i].0 == k;
    }
  }

  // ----------------------------------------------------------- by status

  /** The `$switch` on the raw status: three French labels, anything else passes through. */
  function StatusLabel(raw: string): (name: string)
    ensures raw == "resolved" ==> name == "Traité"
    ensures raw == "in_review" ==> name == "En cours"
    ensures raw == "submitted" ==> name == "En attente"
    ensures raw !in Statuses ==> name == raw
  {
    if raw == "resolved" then "Traité"
    else if raw == "in_review" then "En cours"
    else if raw == "submitted" then "En attente"
    else raw
  }

  function StatusColor(name: string): string {
    if name == "Traité" then "#10B981"
    else if name == "En cours" then "#F59E0B"
    else if name == "En attente" then "#EF4444"
    else "#999999"
  }

  function ToStatusSlice(t: Tally<string>): Slice {
    var name := StatusLabel(t.key);
    Slice(name, t.count, StatusColor(name))
  }

  /** `getByStatus`: group by status (no sort), relabel, attach a colour. */
  function GetByStatus(rs: seq<Report>): (out: seq<Slice>)
  {
    var g := Group(KeyedBy(rs, StatusOf));
    seq(|g|, i requires 0 <= i < |g| => ToStatusSlice(g[i]))
  }

  /**
   * Each status slice is one raw status that occurs, shown under its mapped
   * label and that label's colour, valued with the number of reports
   * holding that raw status.
   */
  lemma ByStatusSpec(rs: seq<Report>)
    ensures var g := Group(KeyedBy(rs, StatusOf));
      && |GetByStatus(rs)| == |g|
      && DistinctKeys(g)
      && (forall i :: 0 <= i < |g| ==>
            && GetByStatus(rs)[i].name == StatusLabel(g[i].key)
            && GetByStatus(rs)[i].color == StatusColor(GetByStatus(rs)[i].name)
            && (g[i].key == "resolved" ==> GetByStatus(rs)[i].color == "#10B981")
            && (g[i].key == "in_review" ==> GetByStatus(rs)[i].color == "#F59E0B")
            && (g[i].key == "submitted" ==> GetByStatus(rs)[i].color == "#EF4444")
            && GetByStatus(rs)[i].value == CountWhere(rs, g[i].key)
            && CountWhere(rs, g[i].key) > 0)
      && (forall r :: r in rs ==> HasKey(g, r.status))
  {
    var items := KeyedBy(rs, StatusOf);
    var g := Group(items);
    GroupCounts(items);
    forall i | 0 <= i < |g|
      ensures GetByStatus(rs)[i].value == CountWhere(rs, g[i].key) && CountWhere(rs, g[i].key) > 0
      ensures && GetByStatus(rs)[i].color == StatusColor(GetByStatus(rs)[i].name)
              && (g[i].key == "resolved" ==> GetByStatus(rs)[i].color == "#10B981")
              && (g[i].key == "in_review" ==> GetByStatus(rs)[i].color == "#F59E0B")
              && (g[i].key == "submitted" ==> GetByStatus(rs)[i].color == "#EF4444")
    {
      assert GetByStatus(rs)[i] == ToStatusSlice(g[i]);
      StatusSliceColor(g[i]);
      assert g[i] in g;
      GroupTally(items, g[i]);
      CountMatchesWhere(rs, g[i].key);
    }
    forall r | r in rs
      ensures HasKey(g, r.status)
    {
      var i :| 0 <= i < |rs| && rs[i] == r;
      CountPositive(items, i);
    }
  }

  /** A slice's colour is its label's, and the three schema statuses get their own. */
  lemma StatusSliceColor(t: Tally<string>)
    ensures ToStatusSlice(t).color == StatusColor(ToStatusSlice(t).name)
    ensures t.key == "resolved" ==> ToStatusSlice(t).color == "#10B981"
    ensures t.key == "in_review" ==> ToStatusSlice(t).color == "#F59E0B"
    ensures t.key == "submitted" ==> ToStatusSlice(t).color == "#EF4444"
  {
  }

  /** Counting grouped status items is counting reports with that status. */
  lemma {:induction false} CountMatchesWhere(rs: seq<Report>, status: string)
    ensures Count(KeyedBy(rs, StatusOf), status) == CountWhere(rs, status)
    decreases |rs|
  {
    if |rs| > 0 {
      var items := KeyedBy(rs, StatusOf);
      CountMatchesWhere(rs[1..], status);
      CountFront(items, status);
      assert items[1..] == KeyedBy(rs[1..], StatusOf);
    }
  }

  /** `Count` folds from the right; it equally decomposes from the left. */
  lemma {:induction false} CountFront<K>(items: seq<(K, bool)>, k: K)
    requires |items| > 0
    ensures Count(items, k) == (if items[0].0 == k then 1 else 0) + Count(items[1..], k)
    ensures CountResolved(items, k) == (if items[0].0 == k && items[0].1 then 1 else 0) + CountResolved(items[1..], k)
    decreases |items|
  {
    if |items| > 1 {
      var init := items[..|items| - 1];
      CountFront(init, k);
      assert init[1..] == items[1..][..|items[1..]| - 1];
      assert init[0] == items[0];
    }
  }

  // ----------------------------------------------------------- monthly

  /** `range` → months back: 1mois, 3mois, 6mois, 1an; anything else (and no value) is 6. */
  function MonthsBack(range: Option<string>): (n: nat)
    ensures range == Some("1mois") ==> n == 1
    ensures range == Some("3mois") ==> n == 3
    ensures range == Some("1an") ==> n == 12
    ensures range.None? || range.value !in ["1mois", "3mois", "1an"] ==> n == 6
  {
    match range.GetOr("6mois")
    case "1mois" => 1
    case "3mois" => 3
    case "6mois" => 6
    case "1an" => 12
    case _ => 6
  }

  /** The 1-based month-name table; entry 0 is the empty string. */
  const MonthNames: seq<string> :=
    ["", "Jan", "Fév", "Mar", "Avr", "Mai", "Juin", "Juil", "Aoû", "Sep", "Oct", "Nov", "Déc"]

  function MonthLabel(m: Month): (name: string)
    ensures name == MonthNames[m] && name != ""
  {
    MonthNames[m]
  }

  datatype Bucket = Bucket(mois: string, signalements: nat, resolus: nat)

  function YearMonth(r: Report): (int, Month) { (r.createdAt.year, r.createdAt.month) }

  function MonthRank(t: Tally<(int, Month)>): int { t.key.0 * 12 + t.key.1 }

  function InWindow(rs: seq<Report>, start: int): (w: seq<Report>)
    ensures |w| <= |rs|
    ensures forall r :: r in w <==> r in rs && r.createdAt.instant >= start
    decreases |rs|
  {
    if |rs| == 0 then []
    else if rs[0].createdAt.instant >= start then [rs[0]] + InWindow(rs[1..], start)
    else InWindow(rs[1..], start)
  }

  function MonthItems(w: seq<Report>): (items: seq<((int, Month), bool)>)
    ensures |items| == |w|
    ensures forall i :: 0 <= i < |w| ==> items[i] == (YearMonth(w[i]), w[i].status == "resolved")
  {
    seq(|w|, i requires 0 <= i < |w| => (YearMonth(w[i]), w[i].status == "resolved"))
  }

  /** The `$group` + `$sort` stages of `getMonthlyStats`, keys still attached. */
  function MonthlyTallies(rs: seq<Report>, range: Option<string>, startOf: nat -> int): seq<Tally<(int, Month)>> {
    var w := InWindow(rs, startOf(MonthsBack(range)));
    SortBy(Group(MonthItems(w)), MonthRank)
  }

  function ToMonthBucket(t: Tally<(int, Month)>): Bucket {
    Bucket(MonthLabel(t.key.1), t.count, t.resolved)
  }

  /**
   * `getMonthlyStats`: reports created since `startOf(monthsBack)` grouped by
   * (year, month), oldest first, labelled from the month table. The date
   * arithmetic of the start instant is the `startOf` parameter.
   */
  function GetMonthlyStats(rs: seq<Report>, range: Option<string>, startOf: nat -> int): (out: seq<Bucket>)
    ensures |out| == |MonthlyTallies(rs, range, startOf)|
    ensures forall i :: 0 <= i < |out| ==>
      var t := MonthlyTallies(rs, range, startOf)[i];
      out[i].mois == MonthLabel(t.key.1) && out[i].signalements == t.count && out[i].resolus == t.resolved
  {
    var ts := MonthlyTallies(rs, range, startOf);
    seq(|ts|, i requires 0 <= i < |ts| => ToMonthBucket(ts[i]))
  }

  /**
   * Each monthly bucket: chronological order, one bucket per (year, month),
   * résolus counting exactly the resolved in-window reports of that month
   * and never exceeding signalements.
   */
  lemma MonthlySpec(rs: seq<Report>, range: Option<string>, startOf: nat -> int)
    ensures var ts := MonthlyTallies(rs, range, startOf);
      && SortedBy(ts, MonthRank)
      && DistinctKeys(ts)
      && forall i :: 0 <= i < |ts| ==>
        var items := MonthItems(InWindow(rs, startOf(MonthsBack(range))));
        && ts[i].count == Count(items, ts[i].key)
        && ts[i].resolved == CountResolved(items, ts[i].key)
        && 1 <= ts[i].count && ts[i].resolved <= ts[i].count
    ensures forall b :: b in GetMonthlyStats(rs, range, startOf) ==> b.resolus <= b.signalements
    ensures forall r :: r in rs && r.createdAt.instant >= startOf(MonthsBack(range)) ==>
      exists i :: 0 <= i < |MonthlyTallies(rs, range, startOf)| && MonthlyTallies(rs, range, startOf)[i].key == YearMonth(r)
  {
    var items := MonthItems(InWindow(rs, startOf(MonthsBack(range))));
    var g := Group(items);
    var ts := MonthlyTallies(rs, range, startOf);
    GroupCounts(items);
    SortDistinct(g, MonthRank);
    SortedTalliesExact(items, MonthRank, ts);
    MonthlyBounded(rs, range, startOf);
    MonthlyComplete(rs, range, startOf);
  }

  /** No monthly bucket has more resolutions than reports. */
  lemma MonthlyBounded(rs: seq<Report>, range: Option<string>, startOf: nat -> int)
    ensures forall b :: b in GetMonthlyStats(rs, range, startOf) ==> b.resolus <= b.signalements
  {
    var items := MonthItems(InWindow(rs, startOf(MonthsBack(range))));
    var ts := MonthlyTallies(rs, range, startOf);
    var out := GetMonthlyStats(rs, range, startOf);
    SortedTalliesExact(items, MonthRank, ts);
    forall b | b in out
      ensures b.resolus <= b.signalements
    {
      var i :| 0 <= i < |out| && out[i] == b;
    }
  }

  /** Every month holding an in-window report has a tally. */
  lemma MonthlyComplete(rs: seq<Report>, range: Option<string>, startOf: nat -> int)
    ensures forall r :: r in rs && r.createdAt.instant >= startOf(MonthsBack(range)) ==>
      exists i :: 0 <= i < |MonthlyTallies(rs, range, startOf)| && MonthlyTallies(rs, range, startOf)[i].key == YearMonth(r)
  {
    var w := InWindow(rs, startOf(MonthsBack(range)));
    var items := MonthItems(w);
    var ts := MonthlyTallies(rs, range, startOf);
    assert ts == SortBy(Group(items), MonthRank);
    forall r | r in rs && r.createdAt.instant >= startOf(MonthsBack(range))
      ensures exists i :: 0 <= i < |ts| && ts[i].key == YearMonth(r)
    {
      var j :| 0 <= j < |w| && w[j] == r;
      assert items[j].0 == YearMonth(r);
      SortedGroupComplete(items, MonthRank, j);
    }
  }

  /** Months are ranked chronologically: an earlier (year, month) has a smaller rank. */
  lemma MonthRankChronological(a: Tally<(int, Month)>, b: Tally<(int, Month)>)
    ensures MonthRank(a) < MonthRank(b) <==> a.key.0 < b.key.0 || (a.key.0 == b.key.0 && a.key.1 < b.key.1)
  {
  }

  // ----------------------------------------------------------- by zone

  datatype Trend = Up | Down | Stable

  datatype ZoneStat = ZoneStat(zone: string, signalements: nat, resolus: nat, taux: int, tendance: Trend)

  /** The unrounded `taux`: 0 when there are no reports, else the exact percentage. */
  function RawRate(resolved: nat, count: nat): real {
    if count == 0 then 0.0 else Percent(resolved, count)
  }

  /** `tendance`, computed on the unrounded rate. */
  function TrendOf(taux: real): Trend {
    if taux > 70.0 then Up else if taux < 50.0 then Down else Stable
  }

  function ToZone(t: Tally<string>): ZoneStat {
    var raw := RawRate(t.resolved, t.count);
    ZoneStat(t.key, t.count, t.resolved, Round(raw), TrendOf(raw))
  }

  /** `getByZone`: group by the raw location string, sort by count descending, keep ten. */
  function GetByZone(rs: seq<Report>): (out: seq<ZoneStat>)
    ensures |out| <= 10
  {
    var top := Take(SortBy(Group(KeyedBy(rs, LocationOf)), Descending), 10);
    seq(|top|, i requires 0 <= i < |top| => ToZone(top[i]))
  }

  /**
   * The zone table: at most ten distinct zones, by signalements descending,
   * each counting exactly that location's reports and resolved reports, with
   * the rounded rate and the trend of the unrounded one.
   */
  lemma ByZoneSpec(rs: seq<Report>)
    ensures var out := GetByZone(rs);
      && (forall i, j :: 0 <= i < j < |out| ==> out[i].signalements >= out[j].signalements)
      && (forall i, j :: 0 <= i < j < |out| ==> out[i].zone != out[j].zone)
      && (forall z :: z in out ==>
            && z.signalements == Count(KeyedBy(rs, LocationOf), z.zone)
            && z.resolus == CountResolved(KeyedBy(rs, LocationOf), z.zone)
            && 1 <= z.signalements && z.resolus <= z.signalements
            && z.taux == Round(Percent(z.resolus, z.signalements))
            && z.tendance == TrendOf(Percent(z.resolus, z.signalements)))
  {
    var items := KeyedBy(rs, LocationOf);
    var top := Take(SortBy(Group(items), Descending), 10);
    var out := GetByZone(rs);
    assert |out| == |top| && forall i :: 0 <= i < |out| ==> out[i] == ToZone(top[i]);
    TopTally(items, top);
    forall z | z in out
      ensures z.signalements == Count(items, z.zone) && z.resolus == CountResolved(items, z.zone)
      ensures 1 <= z.signalements && z.resolus <= z.signalements
      ensures z.taux == Round(Percent(z.resolus, z.signalements))
      ensures z.tendance == TrendOf(Percent(z.resolus, z.signalements))
    {
      var i :| 0 <= i < |out| && out[i] == z;
      ZoneRow(items, top[i]);
    }
    forall i, j | 0 <= i < j < |out|
      ensures out[i].zone != out[j].zone && out[i].signalements >= out[j].signalements
    {
      assert out[i].zone == top[i].key && out[j].zone == top[j].key;
      assert out[i].signalements == top[i].count && out[j].signalements == top[j].count;
    }
  }

  /** The ten kept tallies come from the grouping, with distinct keys, by count descending. */
  lemma TopTally(items: seq<(string, bool)>, top: seq<Tally<string>>)
    requires top == Take(SortBy(Group(items), Descending), 10)
    ensures forall i :: 0 <= i < |top| ==> top[i] in Group(items)
    ensures forall i, j :: 0 <= i < j < |top| ==> top[i].key != top[j].key && top[i].count >= top[j].count
  {
    var g := Group(items);
    var sorted := SortBy(g, Descending);
    GroupCounts(items);
    SortDistinct(g, Descending);
    forall i | 0 <= i < |top|
      ensures top[i] in g
    {
      assert top[i] == sorted[i];
      assert sorted[i] in multiset(g);
    }
    forall i, j | 0 <= i < j < |top|
      ensures top[i].key != top[j].key && top[i].count >= top[j].count
    {
      assert top[i] == sorted[i] && top[j] == sorted[j];
      assert Descending(sorted[i]) <= Descending(sorted[j]);
    }
  }

  /** A zone row built from a tally of the grouping counts that location exactly. */
  lemma ZoneRow(items: seq<(string, bool)>, t: Tally<string>)
    requires t in Group(items)
    ensures var z := ToZone(t);
      && z.zone == t.key
      && z.signalements == Count(items, t.key) && z.resolus == CountResolved(items, t.key)
      && 1 <= z.signalements && z.resolus <= z.signalements
      && z.taux == Round(Percent(z.resolus, z.signalements))
      && z.tendance == TrendOf(Percent(z.resolus, z.signalements))
  {
    GroupTally(items, t);
  }

  /** The top ten are the ten largest: no zone left out has more reports than one kept. */
  lemma ByZoneTopTen(rs: seq<Report>)
    ensures var sorted := SortBy(Group(KeyedBy(rs, LocationOf)), Descending);
      forall z, t :: z in GetByZone(rs) && t in sorted[|GetByZone(rs)|..] ==> t.count <= z.signalements
  {
    var sorted := SortBy(Group(KeyedBy(rs, LocationOf)), Descending);
    var top := Take(sorted, 10);
    var out := GetByZone(rs);
    assert |out| == |top| && forall i :: 0 <= i < |out| ==> out[i] == ToZone(top[i]);
    forall z, t | z in out && t in sorted[|out|..]
      ensures t.count <= z.signalements
    {
      var i :| 0 <= i < |out| && out[i] == z;
      var j :| 0 <= j < |sorted[|out|..]| && sorted[|out|..][j] == t;
      assert z.signalements == sorted[i].count;
      assert sorted[|out| + j] == t;
      assert Descending(sorted[i]) <= Descending(sorted[|out| + j]);
    }
  }

  /** The trend thresholds as integer comparisons on the counts. */
  lemma TrendThresholds(resolved: nat, count: nat)
    requires count > 0
    ensures TrendOf(Percent(resolved, count)) == Up <==> 100 * resolved > 70 * count
    ensures TrendOf(Percent(resolved, count)) == Down <==> 100 * resolved < 50 * count
  {
    PercentThreshold(resolved, count, 70);
    PercentThreshold(resolved, count, 50);
  }

  /** A percentage compared with a whole threshold is a comparison of integers. */
  lemma PercentThreshold(resolved: nat, count: nat, k: nat)
    requires count > 0
    ensures Percent(resolved, count) > k as real <==> 100 * resolved > k * count
    ensures Percent(resolved, count) < k as real <==> 100 * resolved < k * count
  {
    var p := Percent(resolved, count);
    var c := count as real;
    assert c * p == (100 * resolved) as real;
    assert c * k as real == (k * count) as real;
    ScaledCompare(p, k as real, c);
    CastCompare(100 * resolved, k * count);
  }

  lemma CastCompare(x: int, y: int)
    ensures x > y <==> x as real > y as real
    ensures x < y <==> x as real < y as real
  {
  }

  /** Comparing with a positive factor on both sides preserves the order both ways. */
  lemma ScaledCompare(a: real, b: real, c: real)
    requires c > 0.0
    ensures a > b <==> c * a > c * b
    ensures a < b <==> c * a < c * b
  {
    RealScale(a, b, c);
    RealScale(b, a, c);
  }

  /** The zero guard of `taux` never fires: grouping only produces zones that have reports. */
  lemma ZoneGuardUnused(rs: seq<Report>)
    ensures forall z :: z in GetByZone(rs) ==> z.signalements > 0
  {
    ByZoneSpec(rs);
  }

  // ----------------------------------------------------------- weekly

  function WeekOf(r: Report): Week { r.createdAt.week }
  function WeekRank(t: Tally<Week>): int { t.key }

  function WeekItems(w: seq<Report>): (items: seq<(Week, bool)>)
    ensures |items| == |w|
    ensures forall i :: 0 <= i < |w| ==> items[i] == (WeekOf(w[i]), w[i].status == "resolved")
  {
    seq(|w|, i requires 0 <= i < |w| => (WeekOf(w[i]), w[i].status == "resolved"))
  }

  datatype WeekBucket = WeekBucket(semaine: string, signalements: nat, resolus: nat)

  /** The label `"S" + week`. */
  function WeekLabel(w: Week): (s: string)
    ensures |s| >= 2 && s[0] == 'S'
    ensures forall i :: 1 <= i < |s| ==> IsDigitChar(s[i])
    ensures RadixValue(s[1..], 10) == w
  {
    RadixRoundTrip(w, 10);
    var s := "S" + NatToString(w);
    assert s[1..] == NatToString(w);
    s
  }

  /** Reports created since `sixWeeksAgo`, tallied by week number in ascending order. */
  function WeekTallies(rs: seq<Report>, sixWeeksAgo: int): seq<Tally<Week>> {
    SortBy(Group(WeekItems(InWindow(rs, sixWeeksAgo))), WeekRank)
  }

  /**
   * `getWeeklyTrend`: reports created since `sixWeeksAgo` (42 days back,
   * given as an instant) grouped by week number, ascending.
   */
  function GetWeeklyTrend(rs: seq<Report>, sixWeeksAgo: int): (out: seq<WeekBucket>)
    ensures |out| == |WeekTallies(rs, sixWeeksAgo)|
    ensures forall i :: 0 <= i < |out| ==> out[i].semaine == WeekLabel(WeekTallies(rs, sixWeeksAgo)[i].key)
  {
    var ts := WeekTallies(rs, sixWeeksAgo);
    seq(|ts|, i requires 0 <= i < |ts| => WeekBucket(WeekLabel(ts[i].key), ts[i].count, ts[i].resolved))
  }

  /** Weekly tallies come in strictly increasing week order. */
  lemma WeeklyOrder(rs: seq<Report>, sixWeeksAgo: int)
    ensures var ts := WeekTallies(rs, sixWeeksAgo);
      forall i, j :: 0 <= i < j < |ts| ==> ts[i].key < ts[j].key
  {
    var g := Group(WeekItems(InWindow(rs, sixWeeksAgo)));
    GroupCounts(WeekItems(InWindow(rs, sixWeeksAgo)));
    SortDistinct(g, WeekRank);
  }

  /** Each weekly bucket counts exactly the in-window reports of its week, and résolus ≤ signalements. */
  lemma WeeklyCounts(rs: seq<Report>, sixWeeksAgo: int)
    ensures var items := WeekItems(InWindow(rs, sixWeeksAgo));
      forall i :: 0 <= i < |GetWeeklyTrend(rs, sixWeeksAgo)| ==>
        var b := GetWeeklyTrend(rs, sixWeeksAgo)[i];
        var k := WeekTallies(rs, sixWeeksAgo)[i].key;
        && b.signalements == Count(items, k)
        && b.resolus == CountResolved(items, k)
        && 1 <= b.signalements && b.resolus <= b.signalements
    ensures forall r :: r in rs && r.createdAt.instant >= sixWeeksAgo ==>
      exists i :: 0 <= i < |WeekTallies(rs, sixWeeksAgo)| && WeekTallies(rs, sixWeeksAgo)[i].key == WeekOf(r)
  {
    var w := InWindow(rs, sixWeeksAgo);
    var items := WeekItems(w);
    var ts := WeekTallies(rs, sixWeeksAgo);
    var out := GetWeeklyTrend(rs, sixWeeksAgo);
    forall i | 0 <= i < |out|
      ensures out[i].signalements == Count(items, ts[i].key) && out[i].resolus == CountResolved(items, ts[i].key)
      ensures 1 <= out[i].signalements && out[i].resolus <= out[i].signalements
    {
      assert ts[i] in multiset(Group(items));
      GroupTally(items, ts[i]);
    }
    forall r | r in rs && r.createdAt.instant >= sixWeeksAgo
      ensures exists i :: 0 <= i < |ts| && ts[i].key == WeekOf(r)
    {
      var j :| 0 <= j < |w| && w[j] == r;
      SortedGroupComplete(items, WeekRank, j);
    }
  }
}

=== FILE: store.dfy ===
/**
 * The database the controllers work on: one collection per model, each in
 * insertion order, so `findOne`/`findById` return the first match.
 * The User schema (backend/src/models/User.ts) is not part of this model:
 * its validation and its role default are taken as a parameter.
 */
module Store {
  import opened Wrappers
  import opened Seqs
  import opened ReportModel
  import opened CommentModel
  import opened NotificationModel

  /** A stored user; `role` is absent when the schema sets none. */
  datatype User = User(id: Id, name: string, email: string, password: string, role: Option<string>)

  /** What the code needs from the User schema that is not part of this model. */
  datatype UserSchema = UserSchema(defaultRole: Option<string>, admits: User -> bool)

  datatype Db = Db(
    users: seq<User>,
    reports: seq<Report>,
    comments: seq<Comment>,
    notifications: seq<Notification>)

  function UserWithId(id: Id): User -> bool { (u: User) => u.id == id }
  function UserWithEmail(email: string): User -> bool { (u: User) => u.email == email }
  function ReportWithId(id: Id): Report -> bool { (r: Report) => r.id == id }

  /** `User.findById(id)`. */
  function FindUser(db: Db, id: Id): (r: Option<nat>)
    ensures r.Some? ==> r.value < |db.users| && db.users[r.value].id == id
    ensures r.None? <==> forall i :: 0 <= i < |db.users| ==> db.users[i].id != id
  {
    FindIndex(db.users, UserWithId(id))
  }

  /** `Report.findById(id)`. */
  function FindReport(db: Db, id: Id): (r: Option<nat>)
    ensures r.Some? ==> r.value < |db.reports| && db.reports[r.value].id == id
    ensures r.None? <==> forall i :: 0 <= i < |db.reports| ==> db.reports[i].id != id
  {
    FindIndex(db.reports, ReportWithId(id))
  }

  /** `User.findOne({ email })`: the first user with that email. */
  function FindByEmail(db: Db, email: string): (r: Option<nat>)
    ensures r.Some? ==> r.value < |db.users| && db.users[r.value].email == email
    ensures r.Some? ==> forall j :: 0 <= j < r.value ==> db.users[j].email != email
    ensures r.None? <==> forall i :: 0 <= i < |db.users| ==> db.users[i].email != email
  {
    FindIndex(db.users, UserWithEmail(email))
  }

  /** `populate('createdBy')` yields a document only when the referenced user still exists. */
  predicate CreatorExists(db: Db, r: Report) {
    r.createdBy.Some? && FindUser(db, r.createdBy.value).Some?
  }

  /** No two users share an email. */
  predicate EmailsDistinct(users: seq<User>) {
    forall i, j :: 0 <= i < j < |users| ==> users[i].email != users[j].email
  }
}

=== FILE: text.dfy ===
/**
 * String helpers shared by the backend and the front end: substring search,
 * case mapping (ASCII, the Latin-1 letters, Œ and Ÿ), joining and splitting,
 * number rendering and the JavaScript string comparisons the source relies on.
 */
module Text {
  import opened Wrappers

  /** `p` is a prefix of `s`. */
  predicate IsPrefix(p: string, s: string) {
    |p| <= |s| && s[..|p|] == p
  }

  /** JavaScript's `s.includes(sub)`: `sub` occurs somewhere in `s`. */
  predicate Contains(s: string, sub: string)
    decreases |s|
  {
    IsPrefix(sub, s) || (|s| > 0 && Contains(s[1..], sub))
  }

  /** `sub` occurs in `s` starting at offset `i`. */
  predicate OccursAt(s: string, sub: string, i: int) {
    0 <= i <= |s| - |sub| && s[i..i + |sub|] == sub
  }

  /** `Contains` holds exactly when `sub` occurs at some offset of `s`. */
  lemma {:induction false} ContainsAt(s: string, sub: string)
    ensures Contains(s, sub) <==> exists i :: OccursAt(s, sub, i)
    decreases |s|
  {
    if IsPrefix(sub, s) {
      assert OccursAt(s, sub, 0);
    } else if |s| > 0 {
      ContainsAt(s[1..], sub);
      if exists i :: OccursAt(s, sub, i) {
        var i :| OccursAt(s, sub, i);
        assert i != 0;
        assert s[1..][i - 1..i - 1 + |sub|] == s[i..i + |sub|];
        assert OccursAt(s[1..], sub, i - 1);
      }
      if exists i :: OccursAt(s[1..], sub, i) {
        var i :| OccursAt(s[1..], sub, i);
        assert s[1..][i..i + |sub|] == s[i + 1..i + 1 + |sub|];
        assert OccursAt(s, sub, i + 1);
      }
    }
  }

  /** Every string includes the empty string. */
  lemma ContainsEmpty(s: string)
    ensures Contains(s, "")
  {
    assert IsPrefix("", s);
  }

  /**
   * An upper-case letter that `toLowerCase` maps one-to-one: ASCII, the
   * Latin-1 capitals À to Þ except the sign ×, and Œ and Ÿ, which between
   * them cover French.
   */
  predicate IsUpperChar(c: char) {
    'A' <= c <= 'Z' || ('\U{00C0}' <= c <= '\U{00DE}' && c != '\U{00D7}') || c == '\U{0152}' || c == '\U{0178}'
  }

  /** The lower-case partners of `IsUpperChar`. */
  predicate IsLowerChar(c: char) {
    'a' <= c <= 'z' || ('\U{00E0}' <= c <= '\U{00FE}' && c != '\U{00F7}') || c == '\U{0153}' || c == '\U{00FF}'
  }

  function LowerChar(c: char): (d: char)
    ensures IsUpperChar(c) ==> IsLowerChar(d) && UpperChar(d) == c
    ensures !IsUpperChar(c) ==> d == c
    ensures 'A' <= c <= 'Z' ==> d as int == c as int + 32
  {
    if 'A' <= c <= 'Z' || ('\U{00C0}' <= c <= '\U{00DE}' && c != '\U{00D7}') then (c as int + 32) as char
    else if c == '\U{0152}' then '\U{0153}'
    else if c == '\U{0178}' then '\U{00FF}'
    else c
  }

  function UpperChar(c: char): (d: char)
    ensures IsLowerChar(c) ==> IsUpperChar(d)
    ensures !IsLowerChar(c) ==> d == c
    ensures 'a' <= c <= 'z' ==> d as int == c as int - 32
  {
    if 'a' <= c <= 'z' || ('\U{00E0}' <= c <= '\U{00FE}' && c != '\U{00F7}') then (c as int - 32) as char
    else if c == '\U{0153}' then '\U{0152}'
    else if c == '\U{00FF}' then '\U{0178}'
    else c
  }

  /** `toLowerCase` on the letters of `IsUpperChar`; every other character is kept. */
  function Lower(s: string): (r: string)
    ensures |r| == |s|
    ensures forall i :: 0 <= i < |s| ==> r[i] == LowerChar(s[i])
  {
    seq(|s|, i requires 0 <= i < |s| => LowerChar(s[i]))
  }

  /** `toUpperCase` on the letters of `IsLowerChar`; every other character is kept. */
  function Upper(s: string): (r: string)
    ensures |r| == |s|
    ensures forall i :: 0 <= i < |s| ==> r[i] == UpperChar(s[i])
  {
    seq(|s|, i requires 0 <= i < |s| => UpperChar(s[i]))
  }

  /** Lower-casing forgets any earlier upper-casing, so comparisons after `Lower` ignore case. */
  lemma LowerUpper(s: string)
    ensures Lower(Upper(s)) == Lower(s)
  {
    forall i | 0 <= i < |s|
      ensures Lower(Upper(s))[i] == Lower(s)[i]
    {
      CaseRoundTrip(s[i]);
    }
  }

  /** Upper-casing a lower-case letter and lowering it back returns it; lowering is idempotent. */
  lemma CaseRoundTrip(c: char)
    ensures LowerChar(UpperChar(c)) == LowerChar(c)
    ensures LowerChar(LowerChar(c)) == LowerChar(c)
  {
  }

  /** Radix digits are ASCII digits and lower-case letters, so no digit string has an upper-case letter. */
  lemma DigitsNotUpper(s: string)
    requires forall i :: 0 <= i < |s| ==> IsDigitChar(s[i])
    ensures forall i :: 0 <= i < |s| ==> !IsUpperChar(s[i])
  {
  }

  /** A string without upper-case letters is its own lower-case form. */
  lemma LowerIdentity(s: string)
    requires forall i :: 0 <= i < |s| ==> !IsUpperChar(s[i])
    ensures Lower(s) == s
  {
  }

  /** JavaScript's `xs.join(sep)`. */
  function Join(xs: seq<string>, sep: string): string
    decreases |xs|
  {
    if |xs| == 0 then ""
    else if |xs| == 1 then xs[0]
    else xs[0] + sep + Join(xs[1..], sep)
  }

  /** A character in neither the parts nor the separator is not in their join. */
  lemma {:induction false} JoinAvoids(xs: seq<string>, sep: string, c: char)
    requires c !in sep
    requires forall i :: 0 <= i < |xs| ==> c !in xs[i]
    ensures c !in Join(xs, sep)
    decreases |xs|
  {
    if |xs| > 1 {
      JoinAvoids(xs[1..], sep, c);
    }
  }

  /** JavaScript's `s.split(c)` for a one-character separator. */
  function Split(s: string, c: char): (parts: seq<string>)
    ensures |parts| >= 1
    decreases |s|
  {
    if |s| == 0 then [""]
    else if s[0] == c then [""] + Split(s[1..], c)
    else
      var rest := Split(s[1..], c);
      [[s[0]] + rest[0]] + rest[1..]
  }

  lemma {:induction false} SplitNoSeparator(x: string, c: char)
    requires c !in x
    ensures Split(x, c) == [x]
    decreases |x|
  {
    if |x| > 0 {
      SplitNoSeparator(x[1..], c);
      assert [x[0]] + x[1..] == x;
    }
  }

  lemma {:induction false} SplitAfterPart(x: string, c: char, t: string)
    requires c !in x
    ensures Split(x + [c] + t, c) == [x] + Split(t, c)
    decreases |x|
  {
    if |x| == 0 {
      assert x + [c] + t == [c] + t;
      assert ([c] + t)[1..] == t;
    } else {
      var s := x + [c] + t;
      assert s[0] == x[0];
      assert s[1..] == x[1..] + [c] + t;
      SplitAfterPart(x[1..], c, t);
      assert [x[0]] + x[1..] == x;
    }
  }

  /** Splitting undoes joining when no part contains the separator. */
  lemma {:induction false} SplitJoin(xs: seq<string>, c: char)
    requires |xs| >= 1
    requires forall i :: 0 <= i < |xs| ==> c !in xs[i]
    ensures Split(Join(xs, [c]), c) == xs
    decreases |xs|
  {
    if |xs| == 1 {
      SplitNoSeparator(xs[0], c);
    } else {
      SplitJoin(xs[1..], c);
      SplitAfterPart(xs[0], c, Join(xs[1..], [c]));
      assert [xs[0]] + xs[1..] == xs;
    }
  }

  /** The digit character for `d` in JavaScript's `Number.prototype.toString(radix)`. */
  function DigitChar(d: nat): (c: char)
    requires d < 36
    ensures IsDigitChar(c) && DigitValue(c) == d
  {
    if d < 10 then ('0' as int + d) as char else ('a' as int + d - 10) as char
  }

  predicate IsDigitChar(c: char) {
    '0' <= c <= '9' || 'a' <= c <= 'z'
  }

  function DigitValue(c: char): nat
    requires IsDigitChar(c)
  {
    if '0' <= c <= '9' then c as int - '0' as int else c as int - 'a' as int + 10
  }

  /** JavaScript's `n.toString(radix)` for a non-negative integer. */
  function NatToRadix(n: nat, radix: nat): (r: string)
    requires 2 <= radix <= 36
    ensures |r| >= 1
    ensures forall i :: 0 <= i < |r| ==> IsDigitChar(r[i]) && DigitValue(r[i]) < radix
    decreases n
  {
    if n < radix then [DigitChar(n)]
    else
      DivMod(n, radix);
      var high := NatToRadix(n / radix, radix);
      var low := DigitChar(n % radix);
      var r := high + [low];
      assert r[|high|] == low;
      assert forall i :: 0 <= i < |high| ==> r[i] == high[i];
      r
  }

  /** The value a digit string denotes in the given radix. */
  function RadixValue(s: string, radix: nat): nat
    requires forall i :: 0 <= i < |s| ==> IsDigitChar(s[i])
    decreases |s|
  {
    if |s| == 0 then 0
    else RadixValue(s[..|s| - 1], radix) * radix + DigitValue(s[|s| - 1])
  }

  /** Rendering in a radix is read back as the same number. */
  lemma {:induction false} RadixRoundTrip(n: nat, radix: nat)
    requires 2 <= radix <= 36
    ensures RadixValue(NatToRadix(n, radix), radix) == n
    decreases n
  {
    var r := NatToRadix(n, radix);
    if n < radix {
      assert r == [DigitChar(n)];
      assert r[..0] == [];
    } else {
      var high := NatToRadix(n / radix, radix);
      var low := DigitChar(n % radix);
      assert r == high + [low];
      assert r[..|r| - 1] == high;
      var q, m := n / radix, n % radix;
      DivMod(n, radix);
      RadixRoundTrip(q, radix);
      assert RadixValue(high, radix) == q;
      assert DigitValue(low) == m;
      assert RadixValue(r, radix) == RadixValue(high, radix) * radix + DigitValue(low);
    }
  }

  lemma DivMod(n: nat, d: nat)
    requires 2 <= d && n >= d
    ensures n / d < n && n == (n / d) * d + n % d && n % d < d
  {
  }

  /** Decimal rendering (`String(n)` / `toString()`). */
  function NatToString(n: nat): (r: string)
    ensures |r| >= 1
  {
    NatToRadix(n, 10)
  }

  /** The characters `trim` removes: white space and line terminators of ECMAScript. */
  predicate IsWhitespace(c: char) {
    c == ' ' || c == '\t' || c == '\n' || c == '\r' || c == '\U{000B}' || c == '\U{000C}'
    || c == '\U{00A0}' || c == '\U{FEFF}' || c == '\U{1680}' || '\U{2000}' <= c <= '\U{200A}'
    || c == '\U{2028}' || c == '\U{2029}' || c == '\U{202F}' || c == '\U{205F}' || c == '\U{3000}'
  }

  /** `s.trim()` is empty. */
  predicate IsBlank(s: string) {
    forall i :: 0 <= i < |s| ==> IsWhitespace(s[i])
  }

  /** JavaScript's `a <= b` on strings: lexicographic comparison by character code. */
  predicate LexLe(a: string, b: string)
    decreases |a|
  {
    |a| == 0 || (|b| > 0 && (a[0] < b[0] || (a[0] == b[0] && LexLe(a[1..], b[1..]))))
  }

  lemma {:induction false} LexLeReflexive(a: string)
    ensures LexLe(a, a)
    decreases |a|
  {
    if |a| > 0 {
      LexLeReflexive(a[1..]);
    }
  }

  /** `s.slice(-n)`: the last `n` characters, or all of `s` when it is shorter. */
  function TakeLast(s: string, n: nat): (r: string)
    ensures |r| == if |s| <= n then |s| else n
    ensures IsSuffix(r, s)
  {
    if |s| <= n then s else s[|s| - n..]
  }

  predicate IsSuffix(t: string, s: string) {
    |t| <= |s| && s[|s| - |t|..] == t
  }

  /** `s.substring(from, to)` with JavaScript's clamping of out-of-range bounds. */
  function Substring(s: string, from: nat, to: nat): (r: string)
    ensures |r| <= (if to >= from then to - from else from - to)
    ensures from <= to <= |s| ==> r == s[from..to]
  {
    var lo := if from <= to then from else to;
    var hi := if from <= to then to else from;
    var a := if lo <= |s| then lo else |s|;
    var b := if hi <= |s| then hi else |s|;
    s[a..b]
  }

  /** `s.indexOf(sub)`: the first offset where `sub` occurs, if any. */
  function IndexOf(s: string, sub: string): (r: Option<nat>)
    ensures r.Some? ==> OccursAt(s, sub, r.value)
    ensures r.Some? ==> forall j :: 0 <= j < r.value ==> !OccursAt(s, sub, j)
    ensures r.None? ==> forall j :: !OccursAt(s, sub, j)
    decreases |s|
  {
    if IsPrefix(sub, s) then Some(0)
    else if |s| == 0 then None
    else
      assert !OccursAt(s, sub, 0);
      OccursShift(s, sub);
      match IndexOf(s[1..], sub)
      case None => None
      case Some(k) => Some(k + 1)
  }

  /** An occurrence past offset 0 is an occurrence in the tail, one place earlier. */
  lemma OccursShift(s: string, sub: string)
    requires |s| > 0
    ensures forall j :: 1 <= j ==> (OccursAt(s, sub, j) <==> OccursAt(s[1..], sub, j - 1))
  {
    forall j | 1 <= j
      ensures OccursAt(s, sub, j) <==> OccursAt(s[1..], sub, j - 1)
    {
      if j <= |s| - |sub| {
        assert s[1..][j - 1..j - 1 + |sub|] == s[j..j + |sub|];
      }
    }
  }

  /** `s.replace(pat, repl)` with a string pattern: only the first occurrence is replaced. */
  function ReplaceFirst(s: string, pat: string, repl: string): (r: string)
    ensures (forall j :: !OccursAt(s, pat, j)) ==> r == s
    ensures forall i :: OccursAt(s, pat, i) && (forall j :: 0 <= j < i ==> !OccursAt(s, pat, j)) ==>
      r == s[..i] + repl + s[i + |pat|..]
  {
    match IndexOf(s, pat)
    case None => s
    case Some(i) => s[..i] + repl + s[i + |pat|..]
  }

  /** Replacing in a string that starts with the pattern removes exactly that prefix. */
  lemma ReplaceLeading(pat: string, t: string, repl: string)
    ensures ReplaceFirst(pat + t, pat, repl) == repl + t
  {
    var s := pat + t;
    assert IsPrefix(pat, s);
    assert IndexOf(s, pat) == Some(0);
    assert s[..0] + repl + s[|pat|..] == repl + t;
  }

  /** A string without the pattern is returned unchanged; one with it loses exactly |pat| - |repl| characters. */
  lemma ReplaceFirstSpec(s: string, pat: string, repl: string)
    ensures IndexOf(s, pat).None? ==> ReplaceFirst(s, pat, repl) == s
    ensures IndexOf(s, pat).Some? ==> |ReplaceFirst(s, pat, repl)| == |s| - |pat| + |repl|
    ensures IndexOf(s, pat).Some? ==> IsPrefix(s[..IndexOf(s, pat).value] + repl, ReplaceFirst(s, pat, repl))
  {
    if IndexOf(s, pat).Some? {
      var i := IndexOf(s, pat).value;
      var r := ReplaceFirst(s, pat, repl);
      assert r[..|s[..i] + repl|] == s[..i] + repl;
    }
  }
}

=== FILE: welcom.dfy ===
/**
 * The welcome page: the feedback box (comment text, a rating from 0 to 5
 * in half steps, the list of submitted comments), its star rendering, and
 * the page's own logout button.
 */
module Welcome {
  import opened Wrappers
  import Session

  /** A rating as a number of half stars: `h` stands for h / 2 on the 0..5 slider. */
  type HalfSteps = h: nat | h <= 10

  datatype Feedback = Feedback(text: string, rating: HalfSteps, user: string)

  /** The feedback box: the text being typed, the slider and the submitted list. */
  datatype Box = Box(comment: string, rating: HalfSteps, submitted: seq<Feedback>)

  const Anonymous := "Anonyme"

  /** `handleCommentSubmit`: nothing without text; otherwise append one entry and clear the box. */
  function HandleCommentSubmit(b: Box, user: Option<Session.StoredUser>): (r: Box)
    ensures b.comment == "" ==> r == b
    ensures b.comment != "" ==>
      && |r.submitted| == |b.submitted| + 1
      && r.submitted[..|b.submitted|] == b.submitted
      && r.submitted[|b.submitted|].text == b.comment
      && r.submitted[|b.submitted|].rating == b.rating
      && r.comment == "" && r.rating == 0
    ensures b.comment != "" && user.Some? && Truthy(user.value.name) ==> r.submitted[|b.submitted|].user == user.value.name.value
    ensures b.comment != "" && !(user.Some? && Truthy(user.value.name)) ==> r.submitted[|b.submitted|].user == Anonymous
  {
    if b.comment == "" then b
    else
      var who := if user.Some? && Truthy(user.value.name) then user.value.name.value else Anonymous;
      Box("", 0, b.submitted + [Feedback(b.comment, b.rating, who)])
  }

  /** Submitting twice in a row adds one entry: the second press finds the box empty. */
  lemma SubmitIdempotent(b: Box, user: Option<Session.StoredUser>)
    ensures HandleCommentSubmit(HandleCommentSubmit(b, user), user) == HandleCommentSubmit(b, user)
  {
  }

  const FullStar := '★'
  const HalfStar := '⯨'
  const EmptyStar := '☆'

  /** Star `i` (from 0) of the slider's row: full when i + 1 <= rating, half when i + 0.5 == rating. */
  function Star(h: HalfSteps, i: nat): (c: char)
    ensures c == FullStar <==> 2 * (i + 1) <= h
    ensures c == HalfStar <==> 2 * i + 1 == h
  {
    if 2 * (i + 1) <= h then FullStar
    else if 2 * i + 1 == h then HalfStar
    else EmptyStar
  }

  /** The first `n` stars of the row; the page draws five. */
  function Stars(h: HalfSteps, n: nat): (s: seq<char>)
    ensures |s| == n
    ensures forall i :: 0 <= i < n ==> s[i] == Star(h, i)
  {
    seq(n, i requires 0 <= i < n => Star(h, i))
  }

  function CountOf(s: seq<char>, c: char): nat
    decreases |s|
  {
    if |s| == 0 then 0 else CountOf(s[..|s| - 1], c) + (if s[|s| - 1] == c then 1 else 0)
  }

  /** Among the first `n` stars, min(n, floor(rating)) are full and at most one is half. */
  lemma {:induction false} StarCounts(h: HalfSteps, n: nat)
    ensures CountOf(Stars(h, n), FullStar) == if h / 2 <= n then h / 2 else n
    ensures CountOf(Stars(h, n), HalfStar) == if h % 2 == 1 && h / 2 < n then 1 else 0
    decreases n
  {
    if n > 0 {
      StarCounts(h, n - 1);
      assert Stars(h, n)[..n - 1] == Stars(h, n - 1);
    }
  }

  /** The five stars drawn: floor(rating) full, one half exactly when the rating has a half, the rest empty. */
  lemma FiveStars(h: HalfSteps)
    ensures CountOf(Stars(h, 5), FullStar) == h / 2
    ensures CountOf(Stars(h, 5), HalfStar) == h % 2
  {
    StarCounts(h, 5);
  }

  /** `'★'.repeat(Math.floor(rating))`: the list shows floor(rating) stars. */
  function ListStars(f: Feedback): (s: seq<char>)
    ensures |s| == f.rating / 2
    ensures forall i :: 0 <= i < |s| ==> s[i] == FullStar
  {
    seq(f.rating / 2, i => FullStar)
  }

  /** The list shows as many stars as the slider row had full stars when the entry was submitted. */
  lemma ListMatchesSlider(f: Feedback)
    ensures |ListStars(f)| == CountOf(Stars(f.rating, 5), FullStar)
  {
    FiveStars(f.rating);
  }

  /** The page's own `handleLogout`: it removes the stored user but not the token. */
  function WelcomeLogout(store: Session.Storage): (s: Session.Storage)
    ensures s.user.None? && s.token == store.token
  {
    store.(user := None)
  }

  /** After this logout the session still counts as signed in and requests still carry the token. */
  lemma LogoutKeepsToken(store: Session.Storage)
    requires Session.IsAuthenticated(store)
    ensures Session.IsAuthenticated(WelcomeLogout(store))
    ensures Session.GetHeaders(WelcomeLogout(store), true).authorization == Some("Bearer " + store.token.value)
  {
  }

  /** The service's logout, which the page evidently meant, signs the session out. */
  lemma ServiceLogoutSignsOut(store: Session.Storage)
    ensures !Session.IsAuthenticated(Session.Logout(store))
    ensures Session.GetHeaders(Session.Logout(store), true).authorization.None?
    ensures Session.Logout(store).user == WelcomeLogout(store).user
  {
  }
}

=== FILE: wrappers.dfy ===
/** Optional values: the model's stand-in for JavaScript's `undefined` / `null`. */
module Wrappers {

  datatype Option<+T> = None | Some(value: T) {

    /** The value if present, otherwise `default` (JavaScript's `x ?? default`). */
    function GetOr(default: T): T {
      match this
      case Some(v) => v
      case None => default
    }
  }

  /** JavaScript truthiness of an optional string: present and not empty. */
  predicate Truthy(v: Option<string>) {
    v.Some? && v.value != ""
  }
}
